=== FILE: README.md ===
# Goobi infrastructure export, modelled in Dafny

This project models how two Goobi workflow administration plugins build the
XML export of a Goobi installation's infrastructure:

- the goobi-to-goobi export (`GoobiToGoobiExportPlugin`)
- the database export (`ExportDatebasePlugin`)

Both plugins read the LDAP groups, rulesets, dockets, projects, user groups
and users, and write them under one `infrastructure` root element in the
namespace `http://www.goobi.io/logfile`. The document goes into a zip
archive, optionally together with the ruleset and docket files.

The two plugins are near copies of each other. The model writes one set of
builders, parameterised by a `Variant` (`GoobiToGoobi` or `DataExport`).
The variants differ in four ways:

- The goobi-to-goobi export writes institution elements inside user groups, users and projects. The database export does not.
- The database export writes a `visible` attribute on users. The goobi-to-goobi export does not.
- The eleven selection flags all default to true in the goobi-to-goobi export and to false in the database export.
- The document file is `goobi-to-goobi-export.xml` in one and `export.xml` in the other.

The XML tree is an immutable `Element` datatype (`xml.dfy`). The database
records the plugins read are plain datatypes (`beans.dfy`), and a nullable
field is an `Option`. Two JDOM behaviours shape the model:

- `setAttribute` with a null value throws. This aborts the whole export, so every builder returns `Option<Element>`. `None` means some null reached an attribute.
- `setText(null)` writes empty text.

Each builder has an "exportable" predicate and a lemma proving that the
element is built exactly when the predicate holds. Nulls are treated as
the code treats them:

- A user whose LDAP group has a null title aborts the export.
- Without new passwords, a user with a null stored password aborts the export.
- A null ruleset file or title, a null docket file or name, a null user-group title, a null login of an assigned user, or a null title of an assigned project aborts the export.
- When docket files are copied into the archive, a docket file name that is empty or only slashes makes `Files.createDirectories` receive a null parent. The resulting NullPointerException is not caught, so no archive is offered.
- In the goobi-to-goobi export, an institution with a null short or long name aborts the export.
- A project with a null start or end date aborts the export, because formatting a null date throws.
- A null password salt is written as the text `null`.

The project title and the two file formats are written with `setText`,
so whitespace is kept and a null value becomes "". Only the DMS import
paths, the METS settings and the file-group attributes flatten blank
values to "".

Modules:

| file | module | contents |
|---|---|---|
| `wrappers.dfy` | `Wrappers` | `Option` and `AllSome` |
| `java_text.dfy` | `JavaText` | `String.valueOf` for ints and booleans, `StringUtils.isBlank`, null-to-"" guards |
| `timestamps.dfy` | `Timestamps` | the `yyyy-MM-dd'T'HH:mm:ss.SSSZ` date pattern and its parser |
| `xml.dfy` | `Xml` | elements, attributes, selection by name |
| `beans.dfy` | `Beans` | LDAP groups, rulesets, dockets, institutions, projects, users, user groups |
| `settings.dfy` | `Settings` | variant, the eleven flags and their defaults, document file name |
| `ldap_export.dfy` | `LdapExport` | `createLdapGroupElement` |
| `institution_export.dfy` | `InstitutionExport` | the short and the full institution element, and a reader for the full one |
| `user_export.dfy` | `UserExport` | `createUserElement` and the `users` section with its activity filter |
| `usergroup_export.dfy` | `UsergroupExport` | the `userGroups` section |
| `project_export.dfy` | `ProjectExport` | `createProjectElement` and the `projects` section |
| `document.dfy` | `Document` | rulesets, dockets, the section order, the whole document |
| `vocabulary.dfy` | `Vocabulary` | namespace and variant-specific vocabulary over the whole tree |
| `archive.dfy` | `Archive` | the set of entries of the zip archive |

## Model

| member | source | states |
|---|---|---|
| Wrappers.AllSome | module-base/src/main/java/de/intranda/goobi/plugins/GoobiToGoobiExportPlugin.java:150-154 | a list of partial results is built exactly when every entry is; then it keeps their order and values, as the build loops abort on the first failing element |
| Xml.SetAttribute | module-base/src/main/java/de/intranda/goobi/plugins/GoobiToGoobiExportPlugin.java:130-132 | a null value yields no attribute (JDOM throws), any other value yields the attribute with exactly that name and value |
| Xml.TextsNamedOfTextNodes | module-base/src/main/java/de/intranda/goobi/plugins/GoobiToGoobiExportPlugin.java:164-168 | selecting by name from a run of text elements gives back that run's texts in order, and nothing for any other name |
| JavaText.BoolToStringInjective | module-base/src/main/java/de/intranda/goobi/plugins/GoobiToGoobiExportPlugin.java:296 | String.valueOf renders two flags alike exactly when they are equal |
| JavaText.ParseIntToString | module-base/src/main/java/de/intranda/goobi/plugins/GoobiToGoobiExportPlugin.java:291 | reading back a rendered id gives the id again, negative ids included |
| JavaText.IntToStringInjective | module-base/src/main/java/de/intranda/goobi/plugins/GoobiToGoobiExportPlugin.java:291 | distinct ids render as distinct strings |
| JavaText.BlankToEmpty | module-base/src/main/java/de/intranda/goobi/plugins/GoobiToGoobiExportPlugin.java:451 | the isBlank guard writes "" exactly when the value is null or only whitespace, and otherwise the value unchanged |
| JavaText.ValueOf | module-base/src/main/java/de/intranda/goobi/plugins/GoobiToGoobiExportPlugin.java:310 | String.valueOf of a null salt is the text "null"; a present salt is written unchanged |
| Timestamps.ParseFormatTimestamp | module-base/src/main/java/de/intranda/goobi/plugins/GoobiToGoobiExportPlugin.java:63 | the yyyy-MM-dd'T'HH:mm:ss.SSSZ rendering of a valid date with a four-digit year parses back to the same date |
| LdapExport.LdapElement | module-base/src/main/java/de/intranda/goobi/plugins/GoobiToGoobiExportPlugin.java:366-390 | an ldap element has no children and one attribute more than there are text fields: the id first, then the field at position i of the source's order as attribute i + 1, null written as "" |
| LdapExport.LdapAttributesInOrder | module-base/src/main/java/de/intranda/goobi/plugins/GoobiToGoobiExportPlugin.java:369-388 | every ldap element carries the same twenty attribute names in the order they are set |
| LdapExport.LdapElementHasEveryField | module-base/src/main/java/de/intranda/goobi/plugins/GoobiToGoobiExportPlugin.java:370-388 | each text field appears under its attribute name; a present field keeps its value, whitespace included |
| LdapExport.LdapElementForgetsOnlyNulls | module-base/src/main/java/de/intranda/goobi/plugins/GoobiToGoobiExportPlugin.java:370-388 | two configurations give the same element exactly when they have the same id and differ only by null versus "" |
| InstitutionExport.InstitutionSummary | module-base/src/main/java/de/intranda/goobi/plugins/GoobiToGoobiExportPlugin.java:182-187 | the short institution element exists exactly when both names are present and carries id, shortName, longName and no children |
| InstitutionExport.InstitutionElement | module-base/src/main/java/de/intranda/goobi/plugins/GoobiToGoobiExportPlugin.java:583-647 | the full institution element exists exactly when both names are present, and is an institution element in the logfile namespace |
| InstitutionExport.InstitutionChildOrder | module-base/src/main/java/de/intranda/goobi/plugins/GoobiToGoobiExportPlugin.java:588-645 | the children come kind by kind: authentications, dockets, administration, workflow, dashboard and statistics plugins, rulesets; a kind whose allow-all flag is set has none, and any other kind has one child per allowed name |
| InstitutionExport.InstitutionAttributesInOrder | module-base/src/main/java/de/intranda/goobi/plugins/GoobiToGoobiExportPlugin.java:585-639 | the seven attributes are id, shortName, longName and the four allow-all flags, in that order |
| InstitutionExport.AllRunsSelected | module-base/src/main/java/de/intranda/goobi/plugins/GoobiToGoobiExportPlugin.java:588-645 | selecting the children by one element name gives the matching allowed list, or nothing when its allow-all flag is set |
| InstitutionExport.AllowedAuthenticationsReadBack | module-base/src/main/java/de/intranda/goobi/plugins/GoobiToGoobiExportPlugin.java:588-597 | the authentication children are the allowed authentications, or none when all are allowed |
| InstitutionExport.AllowedDocketsReadBack | module-base/src/main/java/de/intranda/goobi/plugins/GoobiToGoobiExportPlugin.java:599-608 | the docket children are the allowed dockets, or none when all are allowed |
| InstitutionExport.AllowedAdministrationPluginsReadBack | module-base/src/main/java/de/intranda/goobi/plugins/GoobiToGoobiExportPlugin.java:614-618 | the administrationPlugin children are the allowed administration plugins, or none when all plugins are allowed |
| InstitutionExport.AllowedWorkflowPluginsReadBack | module-base/src/main/java/de/intranda/goobi/plugins/GoobiToGoobiExportPlugin.java:619-623 | the workflowPlugin children are the allowed workflow plugins, or none when all plugins are allowed |
| InstitutionExport.AllowedDashboardPluginsReadBack | module-base/src/main/java/de/intranda/goobi/plugins/GoobiToGoobiExportPlugin.java:624-628 | the dashboardPlugin children are the allowed dashboard plugins, or none when all plugins are allowed |
| InstitutionExport.AllowedStatisticsPluginsReadBack | module-base/src/main/java/de/intranda/goobi/plugins/GoobiToGoobiExportPlugin.java:629-633 | the statisticsPlugin children are the allowed statistics plugins, or none when all plugins are allowed |
| InstitutionExport.AllowedRulesetsReadBack | module-base/src/main/java/de/intranda/goobi/plugins/GoobiToGoobiExportPlugin.java:636-645 | the ruleset children are the allowed rulesets, or none when all are allowed |
| InstitutionExport.Normalised | module-base/src/main/java/de/intranda/goobi/plugins/GoobiToGoobiExportPlugin.java:588-645 | the information the element keeps: every list whose allow-all flag is set is empty |
| InstitutionExport.ReadInstitutionScalars | module-base/src/main/java/de/intranda/goobi/plugins/GoobiToGoobiExportPlugin.java:585-591 | id, both names and the four flags read back from the attributes |
| InstitutionExport.ReadInstitutionElement | module-base/src/main/java/de/intranda/goobi/plugins/GoobiToGoobiExportPlugin.java:583-647 | reading the element back gives the institution, with the lists hidden by allow-all flags emptied |
| UserExport.UserAttributes | module-base/src/main/java/de/intranda/goobi/plugins/GoobiToGoobiExportPlugin.java:290-343 | the attribute list exists exactly when every field has a value, and then holds one attribute per field in order |
| UserExport.FieldValueAbsent | module-base/src/main/java/de/intranda/goobi/plugins/GoobiToGoobiExportPlugin.java:303-313 | only the ldap group's title and a kept password can be null; every other field always has a value |
| UserExport.PasswordPosition | module-base/src/main/java/de/intranda/goobi/plugins/GoobiToGoobiExportPlugin.java:308-314 | password is immediately followed by salt among the user attributes |
| UserExport.UserAttributesPresent | module-base/src/main/java/de/intranda/goobi/plugins/GoobiToGoobiExportPlugin.java:303-313 | the attributes can be written exactly when the ldap group, if any, has a title and a kept password is present |
| UserExport.UserElementExportable | module-base/src/main/java/de/intranda/goobi/plugins/GoobiToGoobiExportPlugin.java:289-364 | a user element is built exactly when its attributes, its assigned projects (if exported) and, in goobi-to-goobi, its institution can be written |
| UserExport.FieldWritten | module-base/src/main/java/de/intranda/goobi/plugins/GoobiToGoobiExportPlugin.java:290-343 | every field of the variant appears as its attribute with its rendered value |
| UserExport.PasswordAttributes | module-base/src/main/java/de/intranda/goobi/plugins/GoobiToGoobiExportPlugin.java:308-314 | with new passwords both password and salt are ""; otherwise the stored hash and the salt (null as "null") |
| UserExport.LdapGroupAttribute | module-base/src/main/java/de/intranda/goobi/plugins/GoobiToGoobiExportPlugin.java:303 | ldapgroup is "" without a group and the group's title otherwise |
| UserExport.UserTextsFlattened | goobi-plugin-administration-dataexport/src/de/intranda/goobi/plugins/ExportDatebasePlugin.java:288-343 | each nullable text field is written as "" when null and unchanged otherwise |
| UserExport.SwitchesWritten | module-base/src/main/java/de/intranda/goobi/plugins/GoobiToGoobiExportPlugin.java:315-338 | each of the 22 display switches appears as "true" exactly when it is on |
| UserExport.UserAttributesInOrder | module-base/src/main/java/de/intranda/goobi/plugins/GoobiToGoobiExportPlugin.java:290-343 | the attribute names are the fixed list of the variant, in the order they are set |
| UserExport.VisibleOnlyInDataExport | goobi-plugin-administration-dataexport/src/de/intranda/goobi/plugins/ExportDatebasePlugin.java:295 | a user element has a visible attribute exactly in the data-export variant |
| UserExport.AssignedProject | module-base/src/main/java/de/intranda/goobi/plugins/GoobiToGoobiExportPlugin.java:349-352 | an assigned project can be written exactly when its title is present |
| UserExport.AssignedProjectReadBack | module-base/src/main/java/de/intranda/goobi/plugins/GoobiToGoobiExportPlugin.java:349-352 | the title and the id read back from an assigned project's attributes |
| UserExport.AssignedProjects | module-base/src/main/java/de/intranda/goobi/plugins/GoobiToGoobiExportPlugin.java:345-354 | the assignedProjects element exists exactly when every project has a title, one child per project in order |
| UserExport.UserChildLayout | module-base/src/main/java/de/intranda/goobi/plugins/GoobiToGoobiExportPlugin.java:345-361 | a user's children are assignedProjects when project assignments are exported, then the institution in goobi-to-goobi |
| UserExport.RetainedUsers | module-base/src/main/java/de/intranda/goobi/plugins/GoobiToGoobiExportPlugin.java:194-199 | the kept users are exactly those that are active or all when inactive users are included |
| UserExport.RetainedPositions | module-base/src/main/java/de/intranda/goobi/plugins/GoobiToGoobiExportPlugin.java:194-199 | the kept positions are strictly increasing and contain exactly the positions of the users that pass the filter |
| UserExport.RetainedUsersInOrder | module-base/src/main/java/de/intranda/goobi/plugins/GoobiToGoobiExportPlugin.java:194-199 | the kept users are the users at the kept positions, so the filter preserves order |
| UserExport.UsersSection | module-base/src/main/java/de/intranda/goobi/plugins/GoobiToGoobiExportPlugin.java:191-200 | the users element has one child per kept user, built from that user |
| UserExport.UsersSectionExportable | module-base/src/main/java/de/intranda/goobi/plugins/GoobiToGoobiExportPlugin.java:191-200 | the users section is built exactly when every kept user is exportable |
| UserExport.UsersSectionInOrder | goobi-plugin-administration-dataexport/src/de/intranda/goobi/plugins/ExportDatebasePlugin.java:188-197 | the i-th user child is built from the user at the i-th kept position |
| UsergroupExport.AssignedUser | module-base/src/main/java/de/intranda/goobi/plugins/GoobiToGoobiExportPlugin.java:174-179 | an assigned user is written exactly when the login is present, with id, login and name |
| UsergroupExport.AssignedUsers | module-base/src/main/java/de/intranda/goobi/plugins/GoobiToGoobiExportPlugin.java:170-180 | assignedUsers exists exactly when every member has a login, one child per member in order |
| UsergroupExport.UsergroupElement | module-base/src/main/java/de/intranda/goobi/plugins/GoobiToGoobiExportPlugin.java:160-163 | a built usergroup has a title and carries exactly the id, that title as name, and the access level, in that order |
| UsergroupExport.UsergroupElementExportable | module-base/src/main/java/de/intranda/goobi/plugins/GoobiToGoobiExportPlugin.java:159-187 | a usergroup is built exactly when it has a title, its members have logins when assignments are exported and, in goobi-to-goobi, its institution has names |
| UsergroupExport.UsergroupChildLayout | module-base/src/main/java/de/intranda/goobi/plugins/GoobiToGoobiExportPlugin.java:164-187 | the children are one role per role, then assignedUsers (holding the members) exactly when exported, then, in goobi-to-goobi only, the institution summary with the institution's id and names |
| UsergroupExport.UsergroupRolesReadBack | module-base/src/main/java/de/intranda/goobi/plugins/GoobiToGoobiExportPlugin.java:164-168 | selecting the role children gives back the roles in order |
| UsergroupExport.AssignedUserReadBack | module-base/src/main/java/de/intranda/goobi/plugins/GoobiToGoobiExportPlugin.java:176-178 | the login, the id and the name read back from an assigned user's attributes |
| UsergroupExport.UsergroupsSection | goobi-plugin-administration-dataexport/src/de/intranda/goobi/plugins/ExportDatebasePlugin.java:159-186 | the userGroups element has one child per usergroup, in order |
| UsergroupExport.UsergroupsSectionExportable | module-base/src/main/java/de/intranda/goobi/plugins/GoobiToGoobiExportPlugin.java:156-189 | the userGroups section is built exactly when every usergroup is exportable |
| ProjectExport.ExportConfigurationReadBack | module-base/src/main/java/de/intranda/goobi/plugins/GoobiToGoobiExportPlugin.java:438-471 | exportConfiguration carries exactly the attributes useDmsImport and dmsImportCreateProcessFolder, in that order, each holding its own flag, and one dmsImportTimeOut child whose text parses back to the timeout |
| ProjectExport.SettingNodes | module-base/src/main/java/de/intranda/goobi/plugins/GoobiToGoobiExportPlugin.java:438-558 | each DMS and METS setting is a text element whose text is "" when blank and the value otherwise |
| ProjectExport.DmsPathWritten | module-base/src/main/java/de/intranda/goobi/plugins/GoobiToGoobiExportPlugin.java:448-471 | every DMS import path is written under exportConfiguration with blank flattened to "" |
| ProjectExport.MetsSettingWritten | module-base/src/main/java/de/intranda/goobi/plugins/GoobiToGoobiExportPlugin.java:474-558 | every METS setting is written under metsConfiguration with blank flattened to "" |
| ProjectExport.ProjectSettingWritten | module-base/src/main/java/de/intranda/goobi/plugins/GoobiToGoobiExportPlugin.java:438-558 | every project setting is under the ninth or tenth child of the project element |
| ProjectExport.FileGroupElement | module-base/src/main/java/de/intranda/goobi/plugins/GoobiToGoobiExportPlugin.java:566-578 | a file group is a childless projectFileGroup element in the logfile namespace |
| ProjectExport.FileGroupAttributesInOrder | module-base/src/main/java/de/intranda/goobi/plugins/GoobiToGoobiExportPlugin.java:568-577 | the attributes are id, folder, mimetype, name, path and suffix, in that order, whatever the values |
| ProjectExport.FileGroupReadBack | module-base/src/main/java/de/intranda/goobi/plugins/GoobiToGoobiExportPlugin.java:566-578 | each field reads back from the attribute of its own name, a blank value as "", and the id parses back to the group's id |
| ProjectExport.FileGroups | module-base/src/main/java/de/intranda/goobi/plugins/GoobiToGoobiExportPlugin.java:562-582 | fileGroups is written exactly when there is at least one file group, one child per group in order |
| ProjectExport.FileGroupElementForgetsOnlyBlanks | module-base/src/main/java/de/intranda/goobi/plugins/GoobiToGoobiExportPlugin.java:566-578 | two file groups give the same element exactly when they share the id and differ only by blank values |
| ProjectExport.ProjectNode | module-base/src/main/java/de/intranda/goobi/plugins/GoobiToGoobiExportPlugin.java:392-650 | given the rendered dates, a project element exists exactly when the institution can be written (goobi-to-goobi only) |
| ProjectExport.ProjectElement | module-base/src/main/java/de/intranda/goobi/plugins/GoobiToGoobiExportPlugin.java:392-436 | a project element is named project and carries only the archived flag as attribute |
| ProjectExport.ProjectElementExportable | module-base/src/main/java/de/intranda/goobi/plugins/GoobiToGoobiExportPlugin.java:416-423 | a project element is built exactly when both dates are present and, in goobi-to-goobi, the institution has names |
| ProjectExport.ProjectChildrenAt | module-base/src/main/java/de/intranda/goobi/plugins/GoobiToGoobiExportPlugin.java:395-647 | the children are the eight scalars, exportConfiguration, metsConfiguration, then fileGroups and institution |
| ProjectExport.ProjectChildLayout | goobi-plugin-administration-dataexport/src/de/intranda/goobi/plugins/ExportDatebasePlugin.java:384-576 | the child names are the eight scalars, both configurations, fileGroups when there are groups, and institution in goobi-to-goobi |
| ProjectExport.ProjectScalarsRoundTrip | module-base/src/main/java/de/intranda/goobi/plugins/GoobiToGoobiExportPlugin.java:395-436 | id, title, file formats, both dates, pages, volumes and the archived flag read back from the element; a null text reads back as "" |
| ProjectExport.ProjectsSection | module-base/src/main/java/de/intranda/goobi/plugins/GoobiToGoobiExportPlugin.java:148-155 | the projects element has one child per project, in order |
| ProjectExport.ProjectsSectionExportable | goobi-plugin-administration-dataexport/src/de/intranda/goobi/plugins/ExportDatebasePlugin.java:140-158 | the projects section is built exactly when every project is exportable |
| Document.RulesetElement | module-base/src/main/java/de/intranda/goobi/plugins/GoobiToGoobiExportPlugin.java:129-133 | a ruleset element exists exactly when file and title are present |
| Document.RulesetReadBack | module-base/src/main/java/de/intranda/goobi/plugins/GoobiToGoobiExportPlugin.java:130-132 | file, name and id read back from a ruleset element |
| Document.DocketElement | module-base/src/main/java/de/intranda/goobi/plugins/GoobiToGoobiExportPlugin.java:140-144 | a docket element exists exactly when file and name are present |
| Document.DocketReadBack | module-base/src/main/java/de/intranda/goobi/plugins/GoobiToGoobiExportPlugin.java:141-143 | file, name and id read back from a docket element |
| Document.Container | module-base/src/main/java/de/intranda/goobi/plugins/GoobiToGoobiExportPlugin.java:117-124 | a section exists exactly when each of its entries does, and then holds them in order |
| Document.SelectedSectionsInOrder | module-base/src/main/java/de/intranda/goobi/plugins/GoobiToGoobiExportPlugin.java:117-200 | a section is written exactly when its flag is set, and sections keep the fixed order |
| Document.ExportDocument | module-base/src/main/java/de/intranda/goobi/plugins/GoobiToGoobiExportPlugin.java:113-200 | the document is an infrastructure root with one child per selected section |
| Document.SectionElementExportable | module-base/src/main/java/de/intranda/goobi/plugins/GoobiToGoobiExportPlugin.java:117-200 | each section is built exactly when all its entries are exportable |
| Document.ExportDocumentExportable | goobi-plugin-administration-dataexport/src/de/intranda/goobi/plugins/ExportDatebasePlugin.java:105-198 | the whole document is built exactly when every selected section is exportable |
| Document.DocumentSectionOrder | goobi-plugin-administration-dataexport/src/de/intranda/goobi/plugins/ExportDatebasePlugin.java:109-198 | the root's child names are the selected section names in order |
| Document.DataExportDefaultIsEmpty | goobi-plugin-administration-dataexport/src/de/intranda/goobi/plugins/ExportDatebasePlugin.java:60-93 | with the data-export defaults the document is an empty infrastructure root |
| Document.GoobiToGoobiDefaultHasEverySection | module-base/src/main/java/de/intranda/goobi/plugins/GoobiToGoobiExportPlugin.java:68-101 | with the goobi-to-goobi defaults all six sections are written, in order |
| Vocabulary.DocumentInLogfileNamespace | module-base/src/main/java/de/intranda/goobi/plugins/GoobiToGoobiExportPlugin.java:62 | every element of a built document is in the logfile namespace |
| Vocabulary.DataExportWritesNoInstitution | goobi-plugin-administration-dataexport/src/de/intranda/goobi/plugins/ExportDatebasePlugin.java:105-198 | a data-export document has no institution element anywhere |
| Archive.ArchiveEntries | module-base/src/main/java/de/intranda/goobi/plugins/GoobiToGoobiExportPlugin.java:233-255 | the entries of a completed archive always include the document file |
| Archive.ArchiveEntriesOnly | module-base/src/main/java/de/intranda/goobi/plugins/GoobiToGoobiExportPlugin.java:233-255 | every entry is the document file, a listed ruleset file when files and rulesets are included, or the file of a docket when files and dockets are included; nothing else is written |
| Archive.DocketEntryArchived | module-base/src/main/java/de/intranda/goobi/plugins/GoobiToGoobiExportPlugin.java:247-255 | an entry `dockets/f` is in the archive exactly when files and dockets are included and some docket's file is f, so neither the document nor a ruleset file lands under `dockets/` |
| Archive.ExportArchive | module-base/src/main/java/de/intranda/goobi/plugins/GoobiToGoobiExportPlugin.java:209-262 | an archive is offered exactly when the document is built and, when docket files are copied, no docket file name is empty or only slashes (that path has no parent and `createDirectories(null)` throws an uncaught NullPointerException) |
| Archive.EmptyDocketFileAborts | module-base/src/main/java/de/intranda/goobi/plugins/GoobiToGoobiExportPlugin.java:247-255 | with files and dockets included, a docket whose file is "" or only slashes means no archive is offered |
| Archive.ArchiveWithoutDocketFiles | goobi-plugin-administration-dataexport/src/de/intranda/goobi/plugins/ExportDatebasePlugin.java:247-259 | when docket files are not copied, an archive is offered exactly when the document is built |
| Archive.RulesetEntryInjective | module-base/src/main/java/de/intranda/goobi/plugins/GoobiToGoobiExportPlugin.java:242 | distinct ruleset files go to distinct archive entries |
| Archive.DocketEntryInjective | module-base/src/main/java/de/intranda/goobi/plugins/GoobiToGoobiExportPlugin.java:251 | distinct docket files go to distinct archive entry names, as written |
| Archive.EntryKindsDistinct | module-base/src/main/java/de/intranda/goobi/plugins/GoobiToGoobiExportPlugin.java:233-251 | ruleset, docket and document entry names, as written, never collide |
| Archive.RulesetFileArchived | module-base/src/main/java/de/intranda/goobi/plugins/GoobiToGoobiExportPlugin.java:238-246 | a ruleset file is archived exactly when files and rulesets are included and it is in the ruleset folder |
| Archive.DocketFileArchived | module-base/src/main/java/de/intranda/goobi/plugins/GoobiToGoobiExportPlugin.java:247-255 | once the document is built, a docket file is never null when dockets are exported; a file with no name part means no archive when docket files are copied; in an archive that is offered, a docket's file is an entry exactly when files and dockets are included |
| Archive.DataExportDefaultArchive | goobi-plugin-administration-dataexport/src/de/intranda/goobi/plugins/ExportDatebasePlugin.java:231-253 | with the data-export defaults the archive holds only export.xml |

## Left out

- Archive.ExportArchive: archive entry names are `rulesets/` or `dockets/` followed by the file name as given. A zip path normalises the name: repeated and trailing slashes are dropped, and `.` and `..` are resolved when the entry is written. A docket file name containing those would give a different real entry, so `Archive.DocketEntryInjective` speaks about entry names as written, which agree with the real ones only for plain file names. The only normalisation modelled is the one that throws: a name that is empty or only slashes.
- Archive.DocketEntryInjective: holds for entry names as written. In the real zip "a" and "a/" name the same entry, because the trailing slash is dropped, so two such docket files would share one entry.
- Archive.EntryKindsDistinct: holds for entry names as written. A docket file such as `../goobi-to-goobi-export.xml` resolves onto the document entry in the real zip, and the copy with `REPLACE_EXISTING` overwrites the document.
- Persistence: the lists of LDAP groups, rulesets, dockets, projects, user groups and users, and each user's projects and group members, are inputs to the model.
- The listing of the ruleset folder is an input to `Archive.ArchiveEntries`, as a sequence of file names.
- Serialisation: `XMLOutputter`, pretty printing, the UTF-8 encoding, and JDOM's checks of legal XML characters and names are left out. A value with a character XML forbids would make JDOM throw, and the model does not capture that.
- File and network I/O: the temporary directory and zip file, directory entries inside the archive, the `IOException` and `URISyntaxException` paths (logged and swallowed), streaming the archive to the browser through `FacesContext`, the cleanup, and logging. The archive is modelled as its set of entry names.
- Timestamps.ParseFormatTimestamp: dates are given as calendar fields with a zone offset. The conversion from the server's time zone is left out. The round trip is proved only for years 1 to 9999, because SimpleDateFormat writes longer years with more digits.
- ProjectExport.ProjectScalarsRoundTrip: needs the same four-digit years for the two dates, for the same reason.
- `StringUtils.isBlank` is modelled with the whitespace table of Java 9 and later. On Java 8, U+180E also counts as whitespace, so a value made only of it would be written as "".
- Integer and Boolean values are never null in the model. `String.valueOf` of a null `Integer` would write `null`, and that case is not modelled.
- Ids, counts and numbers are unbounded integers. The source's 32-bit `int` ranges are not modelled, and no export operation does arithmetic on them.
- Null collections, a null role string, a null institution object, and a null name of an allowed institution configuration object are left out: lists are sequences and names are strings.
- `generateExportFileForTemplates` (goobi-to-goobi only) and the plugin UI getters (`getType`, `getGui` and the `title` getter) are not part of this model. They do not build the infrastructure document.
- The commented-out assigned users of projects in the database export are not modelled, since they are not compiled.

=== FILE: archive.dfy ===
/**
 * The zip archive offered for download: which entries it holds. The XML
 * document is always there; with `includeFiles`, the files of the ruleset
 * folder go under `rulesets/` when rulesets are exported and the docket
 * files under `dockets/` when dockets are exported. Copying onto an
 * existing entry replaces it, so the entries form a set. A docket file
 * name with no name part aborts the whole download.
 */
module Archive {
  import opened Wrappers
  import opened Beans
  import opened Settings
  import opened Document

  function RulesetEntry(file: string): string {
    "rulesets/" + file
  }

  function DocketEntry(file: string): string {
    "dockets/" + file
  }

  /** The archive's file entries when the document was built; the ruleset folder listing is a parameter. */
  function ArchiveEntries(snap: Snapshot, opts: ExportOptions, v: Variant, rulesetFolder: seq<string>): (r: set<string>)
    ensures DocumentFileName(v) in r
  {
    {DocumentFileName(v)}
    + (if opts.includeFiles && opts.rulesets then set f | f in rulesetFolder :: RulesetEntry(f) else {})
    + (if opts.includeFiles && opts.dockets then set d | d in snap.dockets && d.file.Some? :: DocketEntry(d.file.value) else {})
  }

  /**
   * The archive holds nothing but the three kinds of entries: the document,
   * a listed ruleset file when ruleset files are copied, and the file of a
   * docket when docket files are copied.
   */
  lemma ArchiveEntriesOnly(snap: Snapshot, opts: ExportOptions, v: Variant, rulesetFolder: seq<string>, x: string)
    requires x in ArchiveEntries(snap, opts, v, rulesetFolder)
    ensures || x == DocumentFileName(v)
            || (opts.includeFiles && opts.rulesets && exists f :: f in rulesetFolder && x == RulesetEntry(f))
            || (opts.includeFiles && opts.dockets && exists d :: d in snap.dockets && d.file.Some? && x == DocketEntry(d.file.value))
  {
  }

  /**
   * A docket entry is in the archive exactly when docket files are copied
   * and some docket has that file; in particular no ruleset file or the
   * document ever lands under `dockets/`.
   */
  lemma DocketEntryArchived(snap: Snapshot, opts: ExportOptions, v: Variant, rulesetFolder: seq<string>, f: string)
    ensures DocketEntry(f) in ArchiveEntries(snap, opts, v, rulesetFolder) <==>
      opts.includeFiles && opts.dockets && exists d :: d in snap.dockets && d.file == Some(f)
  {
    var r := ArchiveEntries(snap, opts, v, rulesetFolder);
    if DocketEntry(f) in r {
      ArchiveEntriesOnly(snap, opts, v, rulesetFolder, DocketEntry(f));
      EntryKindsDistinct(v, "", f);
      if x :| x in rulesetFolder && DocketEntry(f) == RulesetEntry(x) {
        EntryKindsDistinct(v, x, f);
      }
      var d :| d in snap.dockets && d.file.Some? && DocketEntry(f) == DocketEntry(d.file.value);
      DocketEntryInjective(f, d.file.value);
    }
  }

  /**
   * A docket file name that is empty or only slashes: the zip path
   * `dockets/<file>` then collapses to `dockets`, which has no parent, and
   * `Files.createDirectories(null)` throws a `NullPointerException`.
   */
  predicate NoNamePart(file: string) {
    forall i :: 0 <= i < |file| ==> file[i] == '/'
  }

  /**
   * Copying the docket files throws an exception the export does not catch:
   * the download is abandoned after the document has been written.
   */
  predicate DocketCopyThrows(snap: Snapshot, opts: ExportOptions) {
    && opts.includeFiles && opts.dockets
    && exists d :: d in snap.dockets && d.file.Some? && NoNamePart(d.file.value)
  }

  /**
   * The archive, or `None` when no download is offered: building the
   * document threw, or copying a docket file threw.
   */
  function ExportArchive(snap: Snapshot, opts: ExportOptions, v: Variant, rulesetFolder: seq<string>): (r: Option<set<string>>)
    ensures r.Some? <==> ExportDocument(snap, opts, v).Some? && !DocketCopyThrows(snap, opts)
    ensures r.Some? ==> DocumentFileName(v) in r.value
  {
    if ExportDocument(snap, opts, v).None? || DocketCopyThrows(snap, opts) then None
    else Some(ArchiveEntries(snap, opts, v, rulesetFolder))
  }

  /** A docket whose file is "" (or only slashes) abandons the download whenever docket files are copied, whatever else is exported. */
  lemma EmptyDocketFileAborts(snap: Snapshot, opts: ExportOptions, v: Variant, rulesetFolder: seq<string>, d: Docket)
    requires opts.includeFiles && opts.dockets
    requires d in snap.dockets && d.file.Some? && NoNamePart(d.file.value)
    ensures ExportArchive(snap, opts, v, rulesetFolder).None?
  {
  }

  /** Without copied docket files, the download depends only on the document being built. */
  lemma ArchiveWithoutDocketFiles(snap: Snapshot, opts: ExportOptions, v: Variant, rulesetFolder: seq<string>)
    requires !(opts.includeFiles && opts.dockets)
    ensures ExportArchive(snap, opts, v, rulesetFolder).Some? <==> ExportDocument(snap, opts, v).Some?
  {
  }

  lemma RulesetEntryInjective(a: string, b: string)
    ensures RulesetEntry(a) == RulesetEntry(b) <==> a == b
  {
    if RulesetEntry(a) == RulesetEntry(b) {
      assert a == RulesetEntry(a)[9..];
    }
  }

  lemma DocketEntryInjective(a: string, b: string)
    ensures DocketEntry(a) == DocketEntry(b) <==> a == b
  {
    if DocketEntry(a) == DocketEntry(b) {
      assert a == DocketEntry(a)[8..];
    }
  }

  /** The three kinds of entries never collide: their first characters differ. */
  lemma EntryKindsDistinct(v: Variant, a: string, b: string)
    ensures RulesetEntry(a) != DocketEntry(b)
    ensures RulesetEntry(a) != DocumentFileName(v) && DocketEntry(b) != DocumentFileName(v)
  {
    assert RulesetEntry(a)[0] == 'r' && DocketEntry(b)[0] == 'd';
    assert DocumentFileName(v)[0] != 'r' && DocumentFileName(v)[0] != 'd';
  }

  /** A ruleset file is archived exactly when files are included, rulesets are exported, and the file is in the ruleset folder. */
  lemma RulesetFileArchived(snap: Snapshot, opts: ExportOptions, v: Variant, rulesetFolder: seq<string>, f: string)
    ensures RulesetEntry(f) in ArchiveEntries(snap, opts, v, rulesetFolder) <==>
      opts.includeFiles && opts.rulesets && f in rulesetFolder
  {
    var r := ArchiveEntries(snap, opts, v, rulesetFolder);
    if RulesetEntry(f) in r {
      EntryKindsDistinct(v, f, "");
      if !(opts.includeFiles && opts.rulesets) {
        forall d | d in snap.dockets && d.file.Some? ensures RulesetEntry(f) != DocketEntry(d.file.value) {
          EntryKindsDistinct(v, f, d.file.value);
        }
        assert false;
      }
      if f !in rulesetFolder {
        forall g | g in rulesetFolder ensures RulesetEntry(f) != RulesetEntry(g) {
          RulesetEntryInjective(f, g);
        }
        forall d | d in snap.dockets && d.file.Some? ensures RulesetEntry(f) != DocketEntry(d.file.value) {
          EntryKindsDistinct(v, f, d.file.value);
        }
        assert false;
      }
    }
  }

  /**
   * Once the document is built, no docket file is null when dockets are
   * exported; a file with no name part abandons the download when docket
   * files are copied; otherwise, in an archive that is offered, the file of
   * every docket is archived exactly when files are included and dockets
   * are exported.
   */
  lemma DocketFileArchived(snap: Snapshot, opts: ExportOptions, v: Variant, rulesetFolder: seq<string>, d: Docket)
    requires ExportDocument(snap, opts, v).Some?
    requires d in snap.dockets
    ensures opts.dockets ==> d.file.Some?
    ensures opts.includeFiles && opts.dockets && NoNamePart(d.file.value) ==> ExportArchive(snap, opts, v, rulesetFolder).None?
    ensures d.file.Some? && ExportArchive(snap, opts, v, rulesetFolder).Some? ==>
      (DocketEntry(d.file.value) in ExportArchive(snap, opts, v, rulesetFolder).value <==> opts.includeFiles && opts.dockets)
  {
    DocketFilesPresent(snap, opts, v);
    if d.file.Some? {
      DocketEntryListed(snap, opts, v, rulesetFolder, d);
    }
  }

  /** A built document with dockets selected has checked every docket file for null. */
  lemma DocketFilesPresent(snap: Snapshot, opts: ExportOptions, v: Variant)
    requires ExportDocument(snap, opts, v).Some?
    ensures opts.dockets ==> forall d :: d in snap.dockets ==> d.file.Some?
  {
    ExportDocumentExportable(snap, opts, v);
    if opts.dockets {
      assert Selected(opts, Dockets);
    }
  }

  /** The file of a docket is among the entries exactly when files are included and dockets are exported. */
  lemma DocketEntryListed(snap: Snapshot, opts: ExportOptions, v: Variant, rulesetFolder: seq<string>, d: Docket)
    requires d in snap.dockets && d.file.Some?
    ensures DocketEntry(d.file.value) in ArchiveEntries(snap, opts, v, rulesetFolder) <==> opts.includeFiles && opts.dockets
  {
    var r := ArchiveEntries(snap, opts, v, rulesetFolder);
    if DocketEntry(d.file.value) in r && !(opts.includeFiles && opts.dockets) {
      EntryKindsDistinct(v, "", d.file.value);
      forall g | g in rulesetFolder ensures RulesetEntry(g) != DocketEntry(d.file.value) {
        EntryKindsDistinct(v, g, d.file.value);
      }
      assert false;
    }
  }

  /** With the database export plugin's defaults the archive holds the (empty) document and nothing else. */
  lemma DataExportDefaultArchive(snap: Snapshot, rulesetFolder: seq<string>)
    ensures ExportArchive(snap, DefaultOptions(DataExport), DataExport, rulesetFolder) == Some({"export.xml"})
  {
    DataExportDefaultIsEmpty(snap);
  }
}

=== FILE: beans.dfy ===
/**
 * The configuration entities the exporters read, as immutable records.
 * A nullable string getter becomes an `Option<string>` field. Getters
 * that compute a value from other fields (`getNachVorname`,
 * `getBerechtigungAsString`) are plain string fields holding that value.
 */
module Beans {
  import opened Wrappers
  import opened Timestamps

  /** An LDAP group configuration. */
  datatype Ldap = Ldap(
    id: int,
    title: Option<string>,
    homeDirectory: Option<string>,
    gidNumber: Option<string>,
    userDN: Option<string>,
    objectClasses: Option<string>,
    sambaSID: Option<string>,
    sn: Option<string>,
    uid: Option<string>,
    description: Option<string>,
    displayName: Option<string>,
    gecos: Option<string>,
    loginShell: Option<string>,
    sambaAcctFlags: Option<string>,
    sambaLogonScript: Option<string>,
    sambaPrimaryGroupSID: Option<string>,
    sambaPwdMustChange: Option<string>,
    sambaPasswordHistory: Option<string>,
    sambaLogonHours: Option<string>,
    sambaKickoffTime: Option<string>)
  {
    /** The value of one of the nullable text fields. */
    function Text(f: LdapText): Option<string> {
      match f
      case Title => title
      case HomeDirectory => homeDirectory
      case GidNumber => gidNumber
      case UserDN => userDN
      case ObjectClasses => objectClasses
      case SambaSID => sambaSID
      case Sn => sn
      case Uid => uid
      case Description => description
      case DisplayName => displayName
      case Gecos => gecos
      case LoginShell => loginShell
      case SambaAcctFlags => sambaAcctFlags
      case SambaLogonScript => sambaLogonScript
      case SambaPrimaryGroupSID => sambaPrimaryGroupSID
      case SambaPwdMustChange => sambaPwdMustChange
      case SambaPasswordHistory => sambaPasswordHistory
      case SambaLogonHours => sambaLogonHours
      case SambaKickoffTime => sambaKickoffTime
    }
  }

  /** Names for the nullable text fields of an LDAP configuration. */
  datatype LdapText =
    | Title | HomeDirectory | GidNumber | UserDN | ObjectClasses | SambaSID | Sn | Uid
    | Description | DisplayName | Gecos | LoginShell | SambaAcctFlags | SambaLogonScript
    | SambaPrimaryGroupSID | SambaPwdMustChange | SambaPasswordHistory | SambaLogonHours
    | SambaKickoffTime

  /** A ruleset: its file name in the ruleset folder and its title. */
  datatype Ruleset = Ruleset(id: int, file: Option<string>, title: Option<string>)

  /** A docket (process cover sheet template): its file name in the XSLT folder and its name. */
  datatype Docket = Docket(id: int, file: Option<string>, name: Option<string>)

  /**
   * A tenant. Each permission kind either allows everything or lists the
   * allowed objects by name; plugins are listed per plugin type.
   */
  datatype Institution = Institution(
    id: int,
    shortName: Option<string>,
    longName: Option<string>,
    allowAllAuthentications: bool,
    allowedAuthentications: seq<string>,
    allowAllDockets: bool,
    allowedDockets: seq<string>,
    allowAllPlugins: bool,
    allowedAdministrationPlugins: seq<string>,
    allowedWorkflowPlugins: seq<string>,
    allowedDashboardPlugins: seq<string>,
    allowedStatisticsPlugins: seq<string>,
    allowAllRulesets: bool,
    allowedRulesets: seq<string>)

  /** One file group of a project. */
  datatype ProjectFileGroup = ProjectFileGroup(
    id: int,
    folder: Option<string>,
    mimetype: Option<string>,
    name: Option<string>,
    path: Option<string>,
    suffix: Option<string>)

  /** A project with its export and METS settings. */
  datatype Project = Project(
    id: int,
    title: Option<string>,
    fileFormatInternal: Option<string>,
    fileFormatDmsExport: Option<string>,
    startDate: Option<DateTime>,
    endDate: Option<DateTime>,
    numberOfPages: int,
    numberOfVolumes: int,
    projectIsArchived: bool,
    useDmsImport: bool,
    dmsImportTimeOut: int,
    dmsImportRootPath: Option<string>,
    dmsImportImagesPath: Option<string>,
    dmsImportSuccessPath: Option<string>,
    dmsImportErrorPath: Option<string>,
    dmsImportCreateProcessFolder: bool,
    metsRightsOwner: Option<string>,
    metsRightsOwnerLogo: Option<string>,
    metsRightsOwnerSite: Option<string>,
    metsRightsOwnerMail: Option<string>,
    metsDigiprovReference: Option<string>,
    metsDigiprovPresentation: Option<string>,
    metsDigiprovReferenceAnchor: Option<string>,
    metsDigiprovPresentationAnchor: Option<string>,
    metsPointerPath: Option<string>,
    metsPointerPathAnchor: Option<string>,
    metsPurl: Option<string>,
    metsContentIDs: Option<string>,
    metsRightsSponsor: Option<string>,
    metsRightsSponsorLogo: Option<string>,
    metsRightsSponsorSiteURL: Option<string>,
    metsRightsLicense: Option<string>,
    fileGroups: seq<ProjectFileGroup>,
    institution: Institution)
  {
    /** The value of one of the blank-checked settings. */
    function Setting(f: ProjectSetting): Option<string> {
      match f
      case DmsImportRootPath => dmsImportRootPath
      case DmsImportImagesPath => dmsImportImagesPath
      case DmsImportSuccessPath => dmsImportSuccessPath
      case DmsImportErrorPath => dmsImportErrorPath
      case MetsRightsOwner => metsRightsOwner
      case MetsRightsOwnerLogo => metsRightsOwnerLogo
      case MetsRightsOwnerSite => metsRightsOwnerSite
      case MetsRightsOwnerMail => metsRightsOwnerMail
      case MetsDigiprovReference => metsDigiprovReference
      case MetsDigiprovPresentation => metsDigiprovPresentation
      case MetsDigiprovReferenceAnchor => metsDigiprovReferenceAnchor
      case MetsDigiprovPresentationAnchor => metsDigiprovPresentationAnchor
      case MetsPointerPath => metsPointerPath
      case MetsPointerPathAnchor => metsPointerPathAnchor
      case MetsPurl => metsPurl
      case MetsContentIDs => metsContentIDs
      case MetsRightsSponsor => metsRightsSponsor
      case MetsRightsSponsorLogo => metsRightsSponsorLogo
      case MetsRightsSponsorSiteURL => metsRightsSponsorSiteURL
      case MetsRightsLicense => metsRightsLicense
    }
  }

  /** Names for the project settings that are exported with blank flattening. */
  datatype ProjectSetting =
    | DmsImportRootPath | DmsImportImagesPath | DmsImportSuccessPath | DmsImportErrorPath
    | MetsRightsOwner | MetsRightsOwnerLogo | MetsRightsOwnerSite | MetsRightsOwnerMail
    | MetsDigiprovReference | MetsDigiprovPresentation | MetsDigiprovReferenceAnchor
    | MetsDigiprovPresentationAnchor | MetsPointerPath | MetsPointerPathAnchor | MetsPurl
    | MetsContentIDs | MetsRightsSponsor | MetsRightsSponsorLogo | MetsRightsSponsorSiteURL
    | MetsRightsLicense
  {
    /** True for the DMS import paths, which go under `exportConfiguration`; the rest go under `metsConfiguration`. */
    predicate IsDmsImportPath() {
      DmsImportRootPath? || DmsImportImagesPath? || DmsImportSuccessPath? || DmsImportErrorPath?
    }
  }

  /** The on/off display and METS editor preferences of a user. */
  datatype UserSwitch =
    | DisplayDeactivatedProjects | DisplayFinishedProcesses | DisplaySelectBoxes | DisplayIdColumn
    | DisplayBatchColumn | DisplayProcessDateColumn | DisplayLocksColumn | DisplaySwappingColumn
    | DisplayModulesColumn | DisplayMetadataColumn | DisplayThumbColumn | DisplayGridView
    | DisplayAutomaticTasks | HideCorrectionTasks | DisplayOnlySelectedTasks | DisplayOnlyOpenTasks
    | DisplayOtherTasks
    | MetsDisplayTitle | MetsLinkImage | MetsDisplayPageAssignments | MetsDisplayHierarchy
    | MetsDisplayProcessID

  /**
   * A user account. `switchedOn` holds the preferences whose boolean getter
   * returns true; `lastFirstName` is what `getNachVorname` returns.
   */
  datatype User = User(
    id: int,
    firstName: Option<string>,
    lastName: Option<string>,
    login: Option<string>,
    ldapLogin: Option<string>,
    active: bool,
    visible: Option<string>,
    place: Option<string>,
    tableSize: int,
    sessionTimeout: int,
    metadataLanguage: Option<string>,
    massDownload: bool,
    ldapGroup: Option<Ldap>,
    css: Option<string>,
    email: Option<string>,
    shortcutPrefix: Option<string>,
    encryptedPassword: Option<string>,
    passwordSalt: Option<string>,
    switchedOn: set<UserSwitch>,
    metsEditorTime: int,
    customColumns: Option<string>,
    customCss: Option<string>,
    lastFirstName: string,
    projects: seq<Project>,
    institution: Institution)
  {
    /** The value of one of the nullable text fields. */
    function Text(f: UserText): Option<string> {
      match f
      case FirstName => firstName
      case LastName => lastName
      case Login => login
      case LdapLogin => ldapLogin
      case Visible => visible
      case Place => place
      case MetadataLanguage => metadataLanguage
      case Css => css
      case Email => email
      case ShortcutPrefix => shortcutPrefix
      case CustomColumns => customColumns
      case CustomCss => customCss
    }
  }

  /** Names for the nullable text fields of a user that are exported with null flattening. */
  datatype UserText =
    | FirstName | LastName | Login | LdapLogin | Visible | Place | MetadataLanguage
    | Css | Email | ShortcutPrefix | CustomColumns | CustomCss

  /** A user group with its role names and member users. `accessLevel` is what `getBerechtigungAsString` returns. */
  datatype Usergroup = Usergroup(
    id: int,
    title: Option<string>,
    accessLevel: string,
    roles: seq<string>,
    users: seq<User>,
    institution: Institution)

  /** What the persistence managers return: every entity of each kind, in their order. */
  datatype Snapshot = Snapshot(
    ldaps: seq<Ldap>,
    rulesets: seq<Ruleset>,
    dockets: seq<Docket>,
    projects: seq<Project>,
    usergroups: seq<Usergroup>,
    users: seq<User>)
}

=== FILE: document.dfy ===
/**
 * `exportSelectedData`: the `infrastructure` document. Each of the six
 * sections is written when its flag is set, always in the same order:
 * LDAP groups, rulesets, dockets, projects, user groups, users.
 */
module Document {
  import opened Wrappers
  import opened JavaText
  import opened Xml
  import opened Beans
  import opened Settings
  import opened LdapExport
  import opened InstitutionExport
  import opened UserExport
  import opened UsergroupExport
  import opened ProjectExport

  // ---------------------------------------------------------------- rulesets, dockets, LDAP groups

  /** One `ruleset`: id, file and title, the latter two set unchecked. */
  function RulesetElement(r: Ruleset): (e: Option<Element>)
    ensures e.Some? <==> r.file.Some? && r.title.Some?
    ensures e.Some? ==> e.value.name == "ruleset" && e.value.children == []
  {
    match (SetAttribute("file", r.file), SetAttribute("name", r.title))
    case (Some(file), Some(title)) => Some(Node("ruleset", [Attribute("id", IntToString(r.id)), file, title], []))
    case _ => None
  }

  /** One `docket`: id, file and name, the latter two set unchecked. */
  function DocketElement(d: Docket): (e: Option<Element>)
    ensures e.Some? <==> d.file.Some? && d.name.Some?
    ensures e.Some? ==> e.value.name == "docket" && e.value.children == []
  {
    match (SetAttribute("file", d.file), SetAttribute("name", d.name))
    case (Some(file), Some(title)) => Some(Node("docket", [Attribute("id", IntToString(d.id)), file, title], []))
    case _ => None
  }

  /** A ruleset element, looked up by attribute name, gives back the id, the file and the title. */
  lemma RulesetReadBack(r: Ruleset)
    requires RulesetElement(r).Some?
    ensures AttributeValue(RulesetElement(r).value.attributes, "file") == r.file
    ensures AttributeValue(RulesetElement(r).value.attributes, "name") == r.title
    ensures AttributeValue(RulesetElement(r).value.attributes, "id").Some?
    ensures ParseInt(AttributeValue(RulesetElement(r).value.attributes, "id").value) == Some(r.id)
  {
    var attributes := RulesetElement(r).value.attributes;
    assert attributes == [Attribute("id", IntToString(r.id)), Attribute("file", r.file.value), Attribute("name", r.title.value)];
    assert attributes[1..][1..] == [Attribute("name", r.title.value)];
    assert AttributeValue(attributes[1..][1..], "name") == r.title;
    assert AttributeValue(attributes[1..], "name") == r.title;
    ParseIntToString(r.id);
  }

  /** A docket element, looked up by attribute name, gives back the id, the file and the name. */
  lemma DocketReadBack(d: Docket)
    requires DocketElement(d).Some?
    ensures AttributeValue(DocketElement(d).value.attributes, "file") == d.file
    ensures AttributeValue(DocketElement(d).value.attributes, "name") == d.name
    ensures AttributeValue(DocketElement(d).value.attributes, "id").Some?
    ensures ParseInt(AttributeValue(DocketElement(d).value.attributes, "id").value) == Some(d.id)
  {
    var attributes := DocketElement(d).value.attributes;
    assert attributes == [Attribute("id", IntToString(d.id)), Attribute("file", d.file.value), Attribute("name", d.name.value)];
    assert attributes[1..][1..] == [Attribute("name", d.name.value)];
    assert AttributeValue(attributes[1..][1..], "name") == d.name;
    assert AttributeValue(attributes[1..], "name") == d.name;
    ParseIntToString(d.id);
  }

  /** A section holding one child per entry, or `None` when one of them cannot be built. */
  function Container(name: string, built: seq<Option<Element>>): (r: Option<Element>)
    ensures r.Some? <==> forall i :: 0 <= i < |built| ==> built[i].Some?
    ensures r.Some? ==> r.value.name == name && r.value.namespace == LogfileNamespace && r.value.attributes == []
    ensures r.Some? ==> |r.value.children| == |built| && forall i :: 0 <= i < |built| ==> built[i] == Some(r.value.children[i])
  {
    match AllSome(built)
    case None => None
    case Some(children) => Some(Node(name, [], children))
  }

  /** One built `ldap` per LDAP group, which cannot fail. */
  function LdapElements(ldaps: seq<Ldap>): (r: seq<Option<Element>>)
    ensures |r| == |ldaps| && forall i :: 0 <= i < |ldaps| ==> r[i] == Some(LdapElement(ldaps[i]))
  {
    seq(|ldaps|, i requires 0 <= i < |ldaps| => Some(LdapElement(ldaps[i])))
  }

  function RulesetElements(rulesets: seq<Ruleset>): (r: seq<Option<Element>>)
    ensures |r| == |rulesets| && forall i :: 0 <= i < |rulesets| ==> r[i] == RulesetElement(rulesets[i])
  {
    seq(|rulesets|, i requires 0 <= i < |rulesets| => RulesetElement(rulesets[i]))
  }

  function DocketElements(dockets: seq<Docket>): (r: seq<Option<Element>>)
    ensures |r| == |dockets| && forall i :: 0 <= i < |dockets| ==> r[i] == DocketElement(dockets[i])
  {
    seq(|dockets|, i requires 0 <= i < |dockets| => DocketElement(dockets[i]))
  }

  function LdapsSection(ldaps: seq<Ldap>): Option<Element> {
    Container("ldaps", LdapElements(ldaps))
  }

  function RulesetsSection(rulesets: seq<Ruleset>): Option<Element> {
    Container("rulesets", RulesetElements(rulesets))
  }

  function DocketsSection(dockets: seq<Docket>): Option<Element> {
    Container("dockets", DocketElements(dockets))
  }

  // ---------------------------------------------------------------- the sections

  datatype Section = Ldaps | Rulesets | Dockets | Projects | UserGroups | Users

  /** The order sections appear in the document. */
  const SectionOrder: seq<Section> := [Ldaps, Rulesets, Dockets, Projects, UserGroups, Users]

  function SectionName(s: Section): string {
    match s
    case Ldaps => "ldaps"
    case Rulesets => "rulesets"
    case Dockets => "dockets"
    case Projects => "projects"
    case UserGroups => "userGroups"
    case Users => "users"
  }

  /**
   * The position of a section in `SectionOrder`, written as a match so that
   * comparing two sections needs no search through the sequence;
   * `SectionOrderIncreasing` proves the two agree at every position.
   */
  function Rank(s: Section): nat {
    match s
    case Ldaps => 0
    case Rulesets => 1
    case Dockets => 2
    case Projects => 3
    case UserGroups => 4
    case Users => 5
  }

  /** The flag that switches a section on. */
  predicate Selected(opts: ExportOptions, s: Section) {
    match s
    case Ldaps => opts.ldapGroups
    case Rulesets => opts.rulesets
    case Dockets => opts.dockets
    case Projects => opts.projects
    case UserGroups => opts.userGroups
    case Users => opts.user
  }

  /** The sections of `order` whose flag is set, keeping their order. */
  function SelectedAmong(opts: ExportOptions, order: seq<Section>): seq<Section>
    decreases |order|
  {
    if |order| == 0 then []
    else (if Selected(opts, order[0]) then [order[0]] else []) + SelectedAmong(opts, order[1..])
  }

  /** The sections written, in document order: each `if` block of `exportSelectedData` in turn. */
  function SelectedSections(opts: ExportOptions): seq<Section> {
    SelectedAmong(opts, SectionOrder)
  }

  predicate RankIncreasing(sections: seq<Section>) {
    forall i, j :: 0 <= i < j < |sections| ==> Rank(sections[i]) < Rank(sections[j])
  }

  lemma {:induction false} SelectedAmongMembers(opts: ExportOptions, order: seq<Section>)
    ensures forall s :: s in SelectedAmong(opts, order) <==> s in order && Selected(opts, s)
    decreases |order|
  {
    if |order| > 0 {
      SelectedAmongMembers(opts, order[1..]);
      assert order == [order[0]] + order[1..];
    }
  }

  lemma {:induction false} SelectedAmongIncreasing(opts: ExportOptions, order: seq<Section>)
    requires RankIncreasing(order)
    ensures RankIncreasing(SelectedAmong(opts, order))
    decreases |order|
  {
    if |order| > 0 {
      var rest := SelectedAmong(opts, order[1..]);
      SelectedAmongIncreasing(opts, order[1..]);
      SelectedAmongMembers(opts, order[1..]);
      forall k | 0 <= k < |rest| ensures Rank(order[0]) < Rank(rest[k]) {
        assert rest[k] in order[1..];
        var m :| 0 <= m < |order[1..]| && order[1..][m] == rest[k];
        assert order[m + 1] == rest[k];
      }
    }
  }

  /** The selected sections are exactly those whose flag is set, each once, in the fixed order. */
  lemma SelectedSectionsInOrder(opts: ExportOptions)
    ensures forall s :: s in SelectedSections(opts) <==> Selected(opts, s)
    ensures RankIncreasing(SelectedSections(opts))
  {
    SelectedAmongMembers(opts, SectionOrder);
    SectionOrderComplete();
    SectionOrderIncreasing();
    SelectedAmongIncreasing(opts, SectionOrder);
  }

  lemma SectionOrderComplete()
    ensures forall s :: s in SectionOrder
  {
    forall s: Section ensures s in SectionOrder {
      match s
      case Ldaps => assert SectionOrder[0] == s;
      case Rulesets => assert SectionOrder[1] == s;
      case Dockets => assert SectionOrder[2] == s;
      case Projects => assert SectionOrder[3] == s;
      case UserGroups => assert SectionOrder[4] == s;
      case Users => assert SectionOrder[5] == s;
    }
  }

  lemma SectionOrderIncreasing()
    ensures forall i :: 0 <= i < |SectionOrder| ==> Rank(SectionOrder[i]) == i
    ensures RankIncreasing(SectionOrder)
  {
  }

  /** With every flag set, nothing is dropped. */
  lemma {:induction false} SelectedAmongAll(opts: ExportOptions, order: seq<Section>)
    requires forall s :: Selected(opts, s)
    ensures SelectedAmong(opts, order) == order
    decreases |order|
  {
    if |order| > 0 {
      SelectedAmongAll(opts, order[1..]);
      assert order == [order[0]] + order[1..];
    }
  }

  /** The element of one section. */
  function SectionElement(snap: Snapshot, opts: ExportOptions, v: Variant, s: Section): Option<Element> {
    match s
    case Ldaps => LdapsSection(snap.ldaps)
    case Rulesets => RulesetsSection(snap.rulesets)
    case Dockets => DocketsSection(snap.dockets)
    case Projects => ProjectsSection(snap.projects, v)
    case UserGroups => UsergroupsSection(snap.usergroups, opts, v)
    case Users => UsersSection(snap.users, opts, v)
  }

  /**
   * The document `exportSelectedData` builds: the `infrastructure` root
   * with the selected sections. `None` when building any part throws.
   */
  function ExportDocument(snap: Snapshot, opts: ExportOptions, v: Variant): (r: Option<Element>)
    ensures r.Some? ==> r.value.name == "infrastructure" && r.value.namespace == LogfileNamespace
    ensures r.Some? ==> r.value.attributes == [] && r.value.text == ""
    ensures r.Some? ==> |r.value.children| == |SelectedSections(opts)|
    ensures r.Some? ==> forall i :: 0 <= i < |SelectedSections(opts)| ==>
      SectionElement(snap, opts, v, SelectedSections(opts)[i]) == Some(r.value.children[i])
  {
    match AllSome(SectionElements(snap, opts, v, SelectedSections(opts)))
    case None => None
    case Some(children) => Some(Node("infrastructure", [], children))
  }

  function SectionElements(snap: Snapshot, opts: ExportOptions, v: Variant, sections: seq<Section>): (r: seq<Option<Element>>)
    ensures |r| == |sections| && forall i :: 0 <= i < |sections| ==> r[i] == SectionElement(snap, opts, v, sections[i])
  {
    seq(|sections|, i requires 0 <= i < |sections| => SectionElement(snap, opts, v, sections[i]))
  }

  /** When a section can be built: no null reaches `setAttribute` and no null date is formatted. */
  predicate SectionExportable(snap: Snapshot, opts: ExportOptions, v: Variant, s: Section) {
    match s
    case Ldaps => true
    case Rulesets => forall i :: 0 <= i < |snap.rulesets| ==> snap.rulesets[i].file.Some? && snap.rulesets[i].title.Some?
    case Dockets => forall i :: 0 <= i < |snap.dockets| ==> snap.dockets[i].file.Some? && snap.dockets[i].name.Some?
    case Projects => forall i :: 0 <= i < |snap.projects| ==> ProjectExportable(snap.projects[i], v)
    case UserGroups => forall i :: 0 <= i < |snap.usergroups| ==> UsergroupExportable(snap.usergroups[i], opts, v)
    case Users => forall u :: u in snap.users && (opts.includeInactiveUser || u.active) ==> UserExportable(u, opts, v)
  }

  lemma SectionElementExportable(snap: Snapshot, opts: ExportOptions, v: Variant, s: Section)
    ensures SectionElement(snap, opts, v, s).Some? <==> SectionExportable(snap, opts, v, s)
  {
    match s
    case Ldaps =>
    case Rulesets =>
      var built := RulesetElements(snap.rulesets);
      assert forall i :: 0 <= i < |snap.rulesets| ==> (built[i].Some? <==> snap.rulesets[i].file.Some? && snap.rulesets[i].title.Some?);
    case Dockets =>
      var built := DocketElements(snap.dockets);
      assert forall i :: 0 <= i < |snap.dockets| ==> (built[i].Some? <==> snap.dockets[i].file.Some? && snap.dockets[i].name.Some?);
    case Projects => ProjectsSectionExportable(snap.projects, v);
    case UserGroups => UsergroupsSectionExportable(snap.usergroups, opts, v);
    case Users => UsersSectionExportable(snap.users, opts, v);
  }

  /** The export completes exactly when each section in the list can be built. */
  lemma ExportDocumentBuilt(snap: Snapshot, opts: ExportOptions, v: Variant)
    ensures var sections := SelectedSections(opts);
      ExportDocument(snap, opts, v).Some? <==> forall i :: 0 <= i < |sections| ==> SectionExportable(snap, opts, v, sections[i])
  {
    var sections := SelectedSections(opts);
    var built := SectionElements(snap, opts, v, sections);
    forall i | 0 <= i < |sections| ensures built[i].Some? <==> SectionExportable(snap, opts, v, sections[i]) {
      SectionElementExportable(snap, opts, v, sections[i]);
    }
  }

  /** A selected section is somewhere in the list of sections written. */
  lemma SelectedSectionListed(opts: ExportOptions, s: Section)
    requires Selected(opts, s)
    ensures exists i :: 0 <= i < |SelectedSections(opts)| && SelectedSections(opts)[i] == s
  {
    SelectedSectionsInOrder(opts);
    assert s in SelectedSections(opts);
  }

  /** The export completes exactly when every selected section can be built; unselected sections are never looked at. */
  lemma ExportDocumentExportable(snap: Snapshot, opts: ExportOptions, v: Variant)
    ensures ExportDocument(snap, opts, v).Some? <==> forall s :: Selected(opts, s) ==> SectionExportable(snap, opts, v, s)
  {
    var sections := SelectedSections(opts);
    ExportDocumentBuilt(snap, opts, v);
    if ExportDocument(snap, opts, v).Some? {
      forall s | Selected(opts, s) ensures SectionExportable(snap, opts, v, s) {
        SelectedSectionListed(opts, s);
      }
    } else {
      var i :| 0 <= i < |sections| && !SectionExportable(snap, opts, v, sections[i]);
      SelectedSectionsInOrder(opts);
      assert sections[i] in sections;
    }
  }

  function SectionNames(sections: seq<Section>): (r: seq<string>)
    ensures |r| == |sections|
    ensures forall i :: 0 <= i < |sections| ==> r[i] == SectionName(sections[i])
  {
    seq(|sections|, i requires 0 <= i < |sections| => SectionName(sections[i]))
  }

  lemma SectionElementNamed(snap: Snapshot, opts: ExportOptions, v: Variant, s: Section)
    requires SectionElement(snap, opts, v, s).Some?
    ensures SectionElement(snap, opts, v, s).value.name == SectionName(s)
  {
  }

  /** The root's children are the selected sections, named in the fixed order. */
  lemma DocumentSectionOrder(snap: Snapshot, opts: ExportOptions, v: Variant)
    requires ExportDocument(snap, opts, v).Some?
    ensures ChildNames(ExportDocument(snap, opts, v).value) == SectionNames(SelectedSections(opts))
  {
    var sections := SelectedSections(opts);
    var children := ExportDocument(snap, opts, v).value.children;
    forall i | 0 <= i < |sections| ensures children[i].name == SectionName(sections[i]) {
      SectionElementNamed(snap, opts, v, sections[i]);
    }
  }

  // ---------------------------------------------------------------- the defaults

  /** With the database export plugin's defaults nothing is selected: the document is an empty root, whatever the database holds. */
  lemma DataExportDefaultIsEmpty(snap: Snapshot)
    ensures ExportDocument(snap, DefaultOptions(DataExport), DataExport) == Some(Node("infrastructure", [], []))
  {
    var opts := DefaultOptions(DataExport);
    forall s: Section ensures !Selected(opts, s) { }
    NothingSelectedIsEmpty(snap, opts, DataExport);
  }

  /** With no flag set, the document is the bare root. */
  lemma NothingSelectedIsEmpty(snap: Snapshot, opts: ExportOptions, v: Variant)
    requires forall s :: !Selected(opts, s)
    ensures ExportDocument(snap, opts, v) == Some(Node("infrastructure", [], []))
  {
    var sections := SelectedSections(opts);
    SelectedSectionsInOrder(opts);
    assert SectionElements(snap, opts, v, sections) == [];
  }

  /** With every flag set, every section is written, in the fixed order. */
  lemma EverySectionWhenAllSelected(snap: Snapshot, opts: ExportOptions, v: Variant)
    requires forall s :: Selected(opts, s)
    requires ExportDocument(snap, opts, v).Some?
    ensures ChildNames(ExportDocument(snap, opts, v).value) == ["ldaps", "rulesets", "dockets", "projects", "userGroups", "users"]
  {
    DocumentSectionOrder(snap, opts, v);
    SelectedAmongAll(opts, SectionOrder);
    SectionOrderNames();
  }

  lemma SectionOrderNames()
    ensures SectionNames(SectionOrder) == ["ldaps", "rulesets", "dockets", "projects", "userGroups", "users"]
  {
    var names := SectionNames(SectionOrder);
    assert names[0] == "ldaps" && names[1] == "rulesets" && names[2] == "dockets";
    assert names[3] == "projects" && names[4] == "userGroups" && names[5] == "users";
  }

  /** With the goobi-to-goobi defaults every section is written, in the fixed order. */
  lemma GoobiToGoobiDefaultHasEverySection(snap: Snapshot)
    requires ExportDocument(snap, DefaultOptions(GoobiToGoobi), GoobiToGoobi).Some?
    ensures ChildNames(ExportDocument(snap, DefaultOptions(GoobiToGoobi), GoobiToGoobi).value)
      == ["ldaps", "rulesets", "dockets", "projects", "userGroups", "users"]
  {
    var opts := DefaultOptions(GoobiToGoobi);
    forall s: Section ensures Selected(opts, s) { }
    EverySectionWhenAllSelected(snap, opts, GoobiToGoobi);
  }
}

=== FILE: institution_export.dfy ===
/**
 * The `institution` elements of the goobi-to-goobi exporter: a summary
 * (id and names) under user groups and users, and the full element with
 * the tenant's permissions under projects.
 */
module InstitutionExport {
  import opened Wrappers
  import opened JavaText
  import opened Xml
  import opened Beans

  /**
   * The `institution` child of a user group or a user: the id and the two
   * names. The names are set unchecked, so a null name aborts the export.
   */
  function InstitutionSummary(inst: Institution): (r: Option<Element>)
    ensures r.Some? <==> inst.shortName.Some? && inst.longName.Some?
    ensures r.Some? ==> r.value.name == "institution" && r.value.children == []
    ensures r.Some? ==> r.value.attributes == [
      Attribute("id", IntToString(inst.id)),
      Attribute("shortName", inst.shortName.value),
      Attribute("longName", inst.longName.value)]
  {
    if inst.shortName.None? || inst.longName.None? then None
    else Some(Node("institution", [
      Attribute("id", IntToString(inst.id)),
      Attribute("shortName", inst.shortName.value),
      Attribute("longName", inst.longName.value)], []))
  }

  /** The children one permission kind contributes: none when everything is allowed, else one text element per allowed name. */
  function Allowed(allowAll: bool, element: string, names: seq<string>): seq<Element> {
    if allowAll then [] else TextNodes(element, names)
  }

  /** The plugin children: none when every plugin is allowed, else the allowed plugins of each type, type by type. */
  function AllowedPlugins(inst: Institution): seq<Element> {
    if inst.allowAllPlugins then []
    else
      TextNodes("administrationPlugin", inst.allowedAdministrationPlugins)
      + TextNodes("workflowPlugin", inst.allowedWorkflowPlugins)
      + TextNodes("dashboardPlugin", inst.allowedDashboardPlugins)
      + TextNodes("statisticsPlugin", inst.allowedStatisticsPlugins)
  }

  /** The attribute names of a full `institution` element, in the order they are set. */
  const InstitutionAttributeNames: seq<string> := [
    "id", "shortName", "longName",
    "allowAllAuthentications", "allowAllDockets", "allowAllPlugins", "allowAllRulesets"]

  /**
   * The full `institution` child of a project: id, names, one `allowAll…`
   * flag per permission kind, and for each kind that is not allowed
   * wholesale the allowed names as text children. Plugins are listed per
   * plugin type: administration, workflow, dashboard, statistics.
   */
  function InstitutionElement(inst: Institution): (r: Option<Element>)
    ensures r.Some? <==> inst.shortName.Some? && inst.longName.Some?
    ensures r.Some? ==> r.value.name == "institution" && r.value.namespace == LogfileNamespace
  {
    if inst.shortName.None? || inst.longName.None? then None
    else Some(Node("institution",
      [ Attribute("id", IntToString(inst.id)),
        Attribute("shortName", inst.shortName.value),
        Attribute("longName", inst.longName.value),
        Attribute("allowAllAuthentications", BoolToString(inst.allowAllAuthentications)),
        Attribute("allowAllDockets", BoolToString(inst.allowAllDockets)),
        Attribute("allowAllPlugins", BoolToString(inst.allowAllPlugins)),
        Attribute("allowAllRulesets", BoolToString(inst.allowAllRulesets))],
      Allowed(inst.allowAllAuthentications, "authentication", inst.allowedAuthentications)
      + Allowed(inst.allowAllDockets, "docket", inst.allowedDockets)
      + AllowedPlugins(inst)
      + Allowed(inst.allowAllRulesets, "ruleset", inst.allowedRulesets)))
  }

  /** How many children one permission kind contributes. */
  function AllowedCount(allowAll: bool, names: seq<string>): nat {
    if allowAll then 0 else |names|
  }

  lemma NamesOfAllowed(allowAll: bool, element: string, names: seq<string>)
    ensures Names(Allowed(allowAll, element, names)) == Repeat(element, AllowedCount(allowAll, names))
  {
    if !allowAll {
      NamesOfTextNodes(element, names);
    }
  }

  /** The plugin children are named type by type: administration, workflow, dashboard, statistics. */
  lemma {:induction false} NamesOfPlugins(inst: Institution)
    ensures Names(AllowedPlugins(inst)) ==
      Repeat("administrationPlugin", AllowedCount(inst.allowAllPlugins, inst.allowedAdministrationPlugins))
      + Repeat("workflowPlugin", AllowedCount(inst.allowAllPlugins, inst.allowedWorkflowPlugins))
      + Repeat("dashboardPlugin", AllowedCount(inst.allowAllPlugins, inst.allowedDashboardPlugins))
      + Repeat("statisticsPlugin", AllowedCount(inst.allowAllPlugins, inst.allowedStatisticsPlugins))
  {
    if !inst.allowAllPlugins {
      var a := TextNodes("administrationPlugin", inst.allowedAdministrationPlugins);
      var w := TextNodes("workflowPlugin", inst.allowedWorkflowPlugins);
      var d := TextNodes("dashboardPlugin", inst.allowedDashboardPlugins);
      var s := TextNodes("statisticsPlugin", inst.allowedStatisticsPlugins);
      NamesAppend(a + w + d, s);
      NamesAppend(a + w, d);
      NamesAppend(a, w);
      NamesOfTextNodes("administrationPlugin", inst.allowedAdministrationPlugins);
      NamesOfTextNodes("workflowPlugin", inst.allowedWorkflowPlugins);
      NamesOfTextNodes("dashboardPlugin", inst.allowedDashboardPlugins);
      NamesOfTextNodes("statisticsPlugin", inst.allowedStatisticsPlugins);
    } else {
      assert Repeat("administrationPlugin", 0) == [];
      assert Repeat("workflowPlugin", 0) == [];
      assert Repeat("dashboardPlugin", 0) == [];
      assert Repeat("statisticsPlugin", 0) == [];
    }
  }

  /**
   * The permission children come kind by kind, in the order the kinds are
   * written: authentications, dockets, the four plugin types, rulesets; a
   * kind that allows everything contributes none.
   */
  lemma InstitutionChildOrder(inst: Institution)
    requires inst.shortName.Some? && inst.longName.Some?
    ensures ChildNames(InstitutionElement(inst).value) ==
      Repeat("authentication", AllowedCount(inst.allowAllAuthentications, inst.allowedAuthentications))
      + Repeat("docket", AllowedCount(inst.allowAllDockets, inst.allowedDockets))
      + Repeat("administrationPlugin", AllowedCount(inst.allowAllPlugins, inst.allowedAdministrationPlugins))
      + Repeat("workflowPlugin", AllowedCount(inst.allowAllPlugins, inst.allowedWorkflowPlugins))
      + Repeat("dashboardPlugin", AllowedCount(inst.allowAllPlugins, inst.allowedDashboardPlugins))
      + Repeat("statisticsPlugin", AllowedCount(inst.allowAllPlugins, inst.allowedStatisticsPlugins))
      + Repeat("ruleset", AllowedCount(inst.allowAllRulesets, inst.allowedRulesets))
  {
    var a := Allowed(inst.allowAllAuthentications, "authentication", inst.allowedAuthentications);
    var d := Allowed(inst.allowAllDockets, "docket", inst.allowedDockets);
    var p := AllowedPlugins(inst);
    var r := Allowed(inst.allowAllRulesets, "ruleset", inst.allowedRulesets);
    assert InstitutionElement(inst).value.children == a + d + p + r;
    NamesOfRuns(a, d, p, r);
    NamesOfAllowed(inst.allowAllAuthentications, "authentication", inst.allowedAuthentications);
    NamesOfAllowed(inst.allowAllDockets, "docket", inst.allowedDockets);
    NamesOfPlugins(inst);
    NamesOfAllowed(inst.allowAllRulesets, "ruleset", inst.allowedRulesets);
    RegroupRuns(Names(a), Names(d),
      Repeat("administrationPlugin", AllowedCount(inst.allowAllPlugins, inst.allowedAdministrationPlugins)),
      Repeat("workflowPlugin", AllowedCount(inst.allowAllPlugins, inst.allowedWorkflowPlugins)),
      Repeat("dashboardPlugin", AllowedCount(inst.allowAllPlugins, inst.allowedDashboardPlugins)),
      Repeat("statisticsPlugin", AllowedCount(inst.allowAllPlugins, inst.allowedStatisticsPlugins)),
      Names(r));
  }

  lemma NamesOfRuns(a: seq<Element>, d: seq<Element>, p: seq<Element>, r: seq<Element>)
    ensures Names(a + d + p + r) == Names(a) + Names(d) + Names(p) + Names(r)
  {
    NamesAppend(a + d + p, r);
    NamesAppend(a + d, p);
    NamesAppend(a, d);
  }

  lemma RegroupRuns<T>(a: seq<T>, d: seq<T>, p1: seq<T>, p2: seq<T>, p3: seq<T>, p4: seq<T>, r: seq<T>)
    ensures a + d + (p1 + p2 + p3 + p4) + r == a + d + p1 + p2 + p3 + p4 + r
  {
  }

  /** The seven attributes are always written, in the source's order, whichever kinds allow everything. */
  lemma InstitutionAttributesInOrder(inst: Institution)
    requires inst.shortName.Some? && inst.longName.Some?
    ensures AttributeNames(InstitutionElement(inst).value) == InstitutionAttributeNames
  {
    var names := AttributeNames(InstitutionElement(inst).value);
    assert forall i :: 0 <= i < |names| ==> names[i] == InstitutionAttributeNames[i];
  }

  /** What an institution element can say about a tenant: the lists of a kind that allows everything are not written. */
  function Normalised(inst: Institution): (n: Institution)
    ensures n.allowAllAuthentications ==> n.allowedAuthentications == []
    ensures n.allowAllDockets ==> n.allowedDockets == []
    ensures n.allowAllPlugins ==> n.allowedAdministrationPlugins == [] && n.allowedWorkflowPlugins == []
    ensures n.allowAllPlugins ==> n.allowedDashboardPlugins == [] && n.allowedStatisticsPlugins == []
    ensures n.allowAllRulesets ==> n.allowedRulesets == []
  {
    inst.(
      allowedAuthentications := if inst.allowAllAuthentications then [] else inst.allowedAuthentications,
      allowedDockets := if inst.allowAllDockets then [] else inst.allowedDockets,
      allowedAdministrationPlugins := if inst.allowAllPlugins then [] else inst.allowedAdministrationPlugins,
      allowedWorkflowPlugins := if inst.allowAllPlugins then [] else inst.allowedWorkflowPlugins,
      allowedDashboardPlugins := if inst.allowAllPlugins then [] else inst.allowedDashboardPlugins,
      allowedStatisticsPlugins := if inst.allowAllPlugins then [] else inst.allowedStatisticsPlugins,
      allowedRulesets := if inst.allowAllRulesets then [] else inst.allowedRulesets)
  }

  /** Reads a tenant back from an `institution` element: the inverse of `InstitutionElement` up to `Normalised`. */
  function ReadInstitution(e: Element): Option<Institution> {
    if |e.attributes| != 7 then None
    else match ParseInt(e.attributes[0].value)
      case None => None
      case Some(id) =>
        Some(Institution(
          id, Some(e.attributes[1].value), Some(e.attributes[2].value),
          e.attributes[3].value == "true", TextsNamed(e.children, "authentication"),
          e.attributes[4].value == "true", TextsNamed(e.children, "docket"),
          e.attributes[5].value == "true",
          TextsNamed(e.children, "administrationPlugin"), TextsNamed(e.children, "workflowPlugin"),
          TextsNamed(e.children, "dashboardPlugin"), TextsNamed(e.children, "statisticsPlugin"),
          e.attributes[6].value == "true", TextsNamed(e.children, "ruleset")))
  }

  /** Selecting by name from one permission kind's children. */
  lemma TextsNamedOfAllowed(allowAll: bool, element: string, names: seq<string>, name: string)
    ensures TextsNamed(Allowed(allowAll, element, names), name) == if !allowAll && element == name then names else []
  {
    if !allowAll {
      TextsNamedOfTextNodes(element, names, name);
    }
  }

  /** Selecting by name from the plugin children. */
  lemma TextsNamedOfPlugins(inst: Institution, name: string)
    ensures inst.allowAllPlugins ==> TextsNamed(AllowedPlugins(inst), name) == []
    ensures !inst.allowAllPlugins ==> (TextsNamed(AllowedPlugins(inst), name) ==
      (if name == "administrationPlugin" then inst.allowedAdministrationPlugins else [])
      + (if name == "workflowPlugin" then inst.allowedWorkflowPlugins else [])
      + (if name == "dashboardPlugin" then inst.allowedDashboardPlugins else [])
      + (if name == "statisticsPlugin" then inst.allowedStatisticsPlugins else []))
  {
    if !inst.allowAllPlugins {
      var a := TextNodes("administrationPlugin", inst.allowedAdministrationPlugins);
      var w := TextNodes("workflowPlugin", inst.allowedWorkflowPlugins);
      var d := TextNodes("dashboardPlugin", inst.allowedDashboardPlugins);
      var s := TextNodes("statisticsPlugin", inst.allowedStatisticsPlugins);
      TextsNamedAppend(a + w + d, s, name);
      TextsNamedAppend(a + w, d, name);
      TextsNamedAppend(a, w, name);
      TextsNamedOfTextNodes("administrationPlugin", inst.allowedAdministrationPlugins, name);
      TextsNamedOfTextNodes("workflowPlugin", inst.allowedWorkflowPlugins, name);
      TextsNamedOfTextNodes("dashboardPlugin", inst.allowedDashboardPlugins, name);
      TextsNamedOfTextNodes("statisticsPlugin", inst.allowedStatisticsPlugins, name);
    }
  }

  /** Selecting by name from all children of an institution element, run by run. */
  lemma TextsNamedOfInstitution(inst: Institution, name: string)
    requires inst.shortName.Some? && inst.longName.Some?
    ensures TextsNamed(InstitutionElement(inst).value.children, name) ==
      TextsNamed(Allowed(inst.allowAllAuthentications, "authentication", inst.allowedAuthentications), name)
      + TextsNamed(Allowed(inst.allowAllDockets, "docket", inst.allowedDockets), name)
      + TextsNamed(AllowedPlugins(inst), name)
      + TextsNamed(Allowed(inst.allowAllRulesets, "ruleset", inst.allowedRulesets), name)
  {
    var a := Allowed(inst.allowAllAuthentications, "authentication", inst.allowedAuthentications);
    var d := Allowed(inst.allowAllDockets, "docket", inst.allowedDockets);
    var p := AllowedPlugins(inst);
    var r := Allowed(inst.allowAllRulesets, "ruleset", inst.allowedRulesets);
    TextsNamedAppend(a + d + p, r, name);
    TextsNamedAppend(a + d, p, name);
    TextsNamedAppend(a, d, name);
  }

  /** All four runs of children, each selected by `name`. */
  lemma AllRunsSelected(inst: Institution, name: string)
    requires inst.shortName.Some? && inst.longName.Some?
    ensures TextsNamed(InstitutionElement(inst).value.children, name) ==
      (if !inst.allowAllAuthentications && "authentication" == name then inst.allowedAuthentications else [])
      + (if !inst.allowAllDockets && "docket" == name then inst.allowedDockets else [])
      + TextsNamed(AllowedPlugins(inst), name)
      + (if !inst.allowAllRulesets && "ruleset" == name then inst.allowedRulesets else [])
  {
    TextsNamedOfInstitution(inst, name);
    TextsNamedOfAllowed(inst.allowAllAuthentications, "authentication", inst.allowedAuthentications, name);
    TextsNamedOfAllowed(inst.allowAllDockets, "docket", inst.allowedDockets, name);
    TextsNamedOfAllowed(inst.allowAllRulesets, "ruleset", inst.allowedRulesets, name);
  }

  lemma AllowedAuthenticationsReadBack(inst: Institution)
    requires inst.shortName.Some? && inst.longName.Some?
    ensures TextsNamed(InstitutionElement(inst).value.children, "authentication") == if inst.allowAllAuthentications then [] else inst.allowedAuthentications
  {
    AllRunsSelected(inst, "authentication");
    TextsNamedOfPlugins(inst, "authentication");
  }

  lemma AllowedDocketsReadBack(inst: Institution)
    requires inst.shortName.Some? && inst.longName.Some?
    ensures TextsNamed(InstitutionElement(inst).value.children, "docket") == if inst.allowAllDockets then [] else inst.allowedDockets
  {
    AllRunsSelected(inst, "docket");
    TextsNamedOfPlugins(inst, "docket");
  }

  lemma AllowedAdministrationPluginsReadBack(inst: Institution)
    requires inst.shortName.Some? && inst.longName.Some?
    ensures TextsNamed(InstitutionElement(inst).value.children, "administrationPlugin") == if inst.allowAllPlugins then [] else inst.allowedAdministrationPlugins
  {
    AllRunsSelected(inst, "administrationPlugin");
    TextsNamedOfPlugins(inst, "administrationPlugin");
  }

  lemma AllowedWorkflowPluginsReadBack(inst: Institution)
    requires inst.shortName.Some? && inst.longName.Some?
    ensures TextsNamed(InstitutionElement(inst).value.children, "workflowPlugin") == if inst.allowAllPlugins then [] else inst.allowedWorkflowPlugins
  {
    AllRunsSelected(inst, "workflowPlugin");
    TextsNamedOfPlugins(inst, "workflowPlugin");
  }

  lemma AllowedDashboardPluginsReadBack(inst: Institution)
    requires inst.shortName.Some? && inst.longName.Some?
    ensures TextsNamed(InstitutionElement(inst).value.children, "dashboardPlugin") == if inst.allowAllPlugins then [] else inst.allowedDashboardPlugins
  {
    AllRunsSelected(inst, "dashboardPlugin");
    TextsNamedOfPlugins(inst, "dashboardPlugin");
  }

  lemma AllowedStatisticsPluginsReadBack(inst: Institution)
    requires inst.shortName.Some? && inst.longName.Some?
    ensures TextsNamed(InstitutionElement(inst).value.children, "statisticsPlugin") == if inst.allowAllPlugins then [] else inst.allowedStatisticsPlugins
  {
    AllRunsSelected(inst, "statisticsPlugin");
    TextsNamedOfPlugins(inst, "statisticsPlugin");
  }

  lemma AllowedRulesetsReadBack(inst: Institution)
    requires inst.shortName.Some? && inst.longName.Some?
    ensures TextsNamed(InstitutionElement(inst).value.children, "ruleset") == if inst.allowAllRulesets then [] else inst.allowedRulesets
  {
    AllRunsSelected(inst, "ruleset");
    TextsNamedOfPlugins(inst, "ruleset");
  }

  /** The id, names and `allowAll…` flags read back from an institution element. */
  lemma ReadInstitutionScalars(inst: Institution)
    requires inst.shortName.Some? && inst.longName.Some?
    ensures ReadInstitution(InstitutionElement(inst).value).Some?
    ensures var read := ReadInstitution(InstitutionElement(inst).value).value;
      && read.id == inst.id && read.shortName == inst.shortName && read.longName == inst.longName
      && read.allowAllAuthentications == inst.allowAllAuthentications
      && read.allowAllDockets == inst.allowAllDockets
      && read.allowAllPlugins == inst.allowAllPlugins
      && read.allowAllRulesets == inst.allowAllRulesets
  {
    ParseIntToString(inst.id);
    BoolToStringInjective(inst.allowAllAuthentications, true);
    BoolToStringInjective(inst.allowAllDockets, true);
    BoolToStringInjective(inst.allowAllPlugins, true);
    BoolToStringInjective(inst.allowAllRulesets, true);
  }

  /**
   * Reading an exported institution back gives the tenant again, except
   * for the lists of kinds that allow everything, which are not written.
   */
  lemma ReadInstitutionElement(inst: Institution)
    requires inst.shortName.Some? && inst.longName.Some?
    ensures ReadInstitution(InstitutionElement(inst).value) == Some(Normalised(inst))
  {
    ReadInstitutionScalars(inst);
    AllowedAuthenticationsReadBack(inst);
    AllowedDocketsReadBack(inst);
    AllowedAdministrationPluginsReadBack(inst);
    AllowedWorkflowPluginsReadBack(inst);
    AllowedDashboardPluginsReadBack(inst);
    AllowedStatisticsPluginsReadBack(inst);
    AllowedRulesetsReadBack(inst);
  }
}

=== FILE: java_text.dfy ===
/**
 * The Java library text conversions the exporters rely on: `String.valueOf`
 * on booleans, integers and (possibly null) objects, `Character.isWhitespace`,
 * `StringUtils.isBlank`, and the `x == null ? "" : x` flattening idiom.
 * Decimal parsing is included as the inverse of integer rendering.
 */
module JavaText {
  import opened Wrappers

  // ---------------------------------------------------------------- booleans

  /** `String.valueOf(boolean)`. */
  function BoolToString(b: bool): (s: string)
    ensures s == "true" || s == "false"
  {
    if b then "true" else "false"
  }

  /** Distinct booleans never render alike, so a rendered flag determines the flag. */
  lemma BoolToStringInjective(a: bool, b: bool)
    ensures BoolToString(a) == BoolToString(b) <==> a == b
  {
    if a != b {
      assert BoolToString(a)[0] != BoolToString(b)[0];
    }
  }

  // ---------------------------------------------------------------- integers

  predicate IsDigit(c: char) {
    '0' <= c <= '9'
  }

  predicate AllDigits(s: string) {
    forall i :: 0 <= i < |s| ==> IsDigit(s[i])
  }

  function DigitChar(d: nat): (c: char)
    requires d < 10
    ensures IsDigit(c)
  {
    ('0' as int + d) as char
  }

  function DigitValue(c: char): (d: nat)
    requires IsDigit(c)
    ensures d < 10
  {
    c as int - '0' as int
  }

  /** The decimal digits of `n`, most significant first, without leading zeros. */
  function NatToDecimal(n: nat): (s: string)
    ensures |s| > 0 && AllDigits(s)
    ensures |s| > 1 ==> s[0] != '0'
    ensures n < 10 <==> |s| == 1
    decreases n
  {
    if n < 10 then [DigitChar(n)] else NatToDecimal(n / 10) + [DigitChar(n % 10)]
  }

  /** `String.valueOf(int)` / `Integer.toString`: a minus sign for negative values, then the digits. */
  function IntToString(n: int): string {
    if n < 0 then "-" + NatToDecimal(-n) else NatToDecimal(n)
  }

  /** The number a digit string denotes (leading zeros allowed). */
  function DecimalValue(s: string): nat
    requires AllDigits(s)
    decreases |s|
  {
    if |s| == 0 then 0 else DecimalValue(s[..|s| - 1]) * 10 + DigitValue(s[|s| - 1])
  }

  /** `Integer.parseInt` without its 32-bit range check: an optional minus sign and at least one digit. */
  function ParseInt(s: string): (r: Option<int>)
    ensures r.Some? ==> |s| > 0
  {
    if |s| > 0 && AllDigits(s) then Some(DecimalValue(s))
    else if |s| > 1 && s[0] == '-' && AllDigits(s[1..]) then Some(-(DecimalValue(s[1..]) as int))
    else None
  }

  lemma {:induction false} DecimalValueOfNatToDecimal(n: nat)
    ensures DecimalValue(NatToDecimal(n)) == n
    decreases n
  {
    if n >= 10 {
      var s := NatToDecimal(n);
      assert s[..|s| - 1] == NatToDecimal(n / 10);
      DecimalValueOfNatToDecimal(n / 10);
    }
  }

  /** Parsing what `IntToString` printed gives the number back. */
  lemma ParseIntToString(n: int)
    ensures ParseInt(IntToString(n)) == Some(n)
  {
    var s := IntToString(n);
    if n < 0 {
      assert s[0] == '-' && !IsDigit(s[0]);
      assert s[1..] == NatToDecimal(-n);
      DecimalValueOfNatToDecimal(-n);
    } else {
      DecimalValueOfNatToDecimal(n);
    }
  }

  /** Two integers print alike only when they are equal. */
  lemma IntToStringInjective(a: int, b: int)
    ensures IntToString(a) == IntToString(b) <==> a == b
  {
    if IntToString(a) == IntToString(b) {
      ParseIntToString(a);
      ParseIntToString(b);
    }
  }

  /** Leading zeros do not change a digit string's value. */
  lemma {:induction false} DecimalValueLeadingZero(s: string)
    requires AllDigits(s)
    ensures AllDigits("0" + s) && DecimalValue("0" + s) == DecimalValue(s)
    decreases |s|
  {
    var t := "0" + s;
    if |s| > 0 {
      assert t[..|t| - 1] == "0" + s[..|s| - 1];
      DecimalValueLeadingZero(s[..|s| - 1]);
    }
  }

  // ---------------------------------------------------------------- strings

  /**
   * `Character.isWhitespace`: the ASCII controls TAB, LF, VT, FF, CR and
   * FS..US, plus the Unicode space, line and paragraph separators other
   * than the non-breaking spaces U+00A0, U+2007 and U+202F. These are the
   * tables of Java 9 and later; Java 8 also counts U+180E as whitespace.
   */
  predicate IsWhitespace(c: char) {
    var u := c as int;
    || 0x09 <= u <= 0x0D
    || 0x1C <= u <= 0x20
    || u == 0x1680
    || (0x2000 <= u <= 0x200A && u != 0x2007)
    || u == 0x2028 || u == 0x2029 || u == 0x205F || u == 0x3000
  }

  /** `StringUtils.isBlank`: null, empty, or whitespace only. */
  predicate IsBlank(o: Option<string>) {
    o.None? || forall i :: 0 <= i < |o.value| ==> IsWhitespace(o.value[i])
  }

  /**
   * The `x == null ? "" : x` idiom the exporters apply to nullable user and
   * LDAP fields; JDOM's `setText(null)` has the same effect on element text.
   */
  function OrEmpty(o: Option<string>): string {
    o.GetOr("")
  }

  /**
   * The `StringUtils.isBlank(x) ? "" : x` idiom the exporters apply to
   * nullable project and file-group fields.
   */
  function BlankToEmpty(o: Option<string>): (s: string)
    ensures s == "" <==> IsBlank(o)
    ensures !IsBlank(o) ==> s == o.value
  {
    if IsBlank(o) then "" else o.value
  }

  /** `String.valueOf(Object)` applied to a `String`: a null renders as the four letters `null`. */
  function ValueOf(o: Option<string>): (s: string)
    ensures o.None? ==> s == "null"
    ensures o.Some? ==> s == o.value
  {
    match o
    case None => "null"
    case Some(v) => v
  }
}

=== FILE: ldap_export.dfy ===
/** `createLdapGroupElement`: one LDAP configuration as an `ldap` element. */
module LdapExport {
  import opened Wrappers
  import opened JavaText
  import opened Xml
  import opened Beans

  /** The nullable LDAP fields in the order their attributes are set, after `id`. */
  const LdapTextOrder: seq<LdapText> := [
    Title, HomeDirectory, GidNumber, UserDN, ObjectClasses, SambaSID, Sn, Uid, Description,
    DisplayName, Gecos, LoginShell, SambaAcctFlags, SambaLogonScript, SambaPrimaryGroupSID,
    SambaPwdMustChange, SambaPasswordHistory, SambaLogonHours, SambaKickoffTime]

  /** The attribute names of an `ldap` element, in the order they are set. */
  const LdapAttributeNames: seq<string> := [
    "id", "title", "homeDirectory", "gidNumber", "dn", "objectClass", "sambaSID", "sn", "uid",
    "description", "displayName", "gecos", "loginShell", "sambaAcctFlags", "sambaLogonScript",
    "sambaPrimaryGroupSID", "sambaPwdMustChange", "sambaPasswordHistory", "sambaLogonHours",
    "sambaKickoffTime"]

  /** The attribute each nullable LDAP field is written to. */
  function AttributeName(f: LdapText): string {
    match f
    case Title => "title"
    case HomeDirectory => "homeDirectory"
    case GidNumber => "gidNumber"
    case UserDN => "dn"
    case ObjectClasses => "objectClass"
    case SambaSID => "sambaSID"
    case Sn => "sn"
    case Uid => "uid"
    case Description => "description"
    case DisplayName => "displayName"
    case Gecos => "gecos"
    case LoginShell => "loginShell"
    case SambaAcctFlags => "sambaAcctFlags"
    case SambaLogonScript => "sambaLogonScript"
    case SambaPrimaryGroupSID => "sambaPrimaryGroupSID"
    case SambaPwdMustChange => "sambaPwdMustChange"
    case SambaPasswordHistory => "sambaPasswordHistory"
    case SambaLogonHours => "sambaLogonHours"
    case SambaKickoffTime => "sambaKickoffTime"
  }

  /** `createLdapGroupElement`: the id, then every text field as an attribute, a null field as "". */
  function LdapElement(l: Ldap): (r: Element)
    ensures r.name == "ldap" && r.namespace == LogfileNamespace
    ensures r.children == [] && r.text == ""
    ensures |r.attributes| == |LdapAttributeNames|
    ensures r.attributes[0] == Attribute("id", IntToString(l.id))
    ensures forall i :: 0 <= i < |LdapTextOrder| ==> r.attributes[i + 1].name == AttributeName(LdapTextOrder[i])
    ensures forall i :: 0 <= i < |LdapTextOrder| ==> r.attributes[i + 1].value == OrEmpty(l.Text(LdapTextOrder[i]))
  {
    Node("ldap", [Attribute("id", IntToString(l.id))] + seq(|LdapTextOrder|, i requires 0 <= i < |LdapTextOrder| =>
      Attribute(AttributeName(LdapTextOrder[i]), OrEmpty(l.Text(LdapTextOrder[i])))), [])
  }

  /** The table above names the attributes as the source writes them. */
  lemma AttributeNamesMatch()
    ensures forall i :: 0 <= i < |LdapTextOrder| ==> AttributeName(LdapTextOrder[i]) == LdapAttributeNames[i + 1]
  {
  }

  /** An `ldap` element carries exactly the twenty attributes, in the source's order, whatever the configuration. */
  lemma LdapAttributesInOrder(l: Ldap)
    ensures AttributeNames(LdapElement(l)) == LdapAttributeNames
  {
    var names := AttributeNames(LdapElement(l));
    AttributeNamesMatch();
    assert forall i :: 1 <= i < |names| ==> names[i] == LdapAttributeNames[i] by {
      forall i | 1 <= i < |names| ensures names[i] == LdapAttributeNames[i] {
        assert names[i] == AttributeName(LdapTextOrder[i - 1]);
      }
    }
    assert names[0] == LdapAttributeNames[0];
  }

  lemma EveryLdapTextListed(f: LdapText)
    ensures f in LdapTextOrder
  {
  }

  /**
   * Every nullable field is present as its attribute: "" when null, the
   * value itself (whitespace included) otherwise.
   */
  lemma LdapElementHasEveryField(l: Ldap, f: LdapText)
    ensures Attribute(AttributeName(f), OrEmpty(l.Text(f))) in LdapElement(l).attributes
    ensures l.Text(f).Some? ==> Attribute(AttributeName(f), l.Text(f).value) in LdapElement(l).attributes
  {
    EveryLdapTextListed(f);
    var j :| 0 <= j < |LdapTextOrder| && LdapTextOrder[j] == f;
    assert LdapElement(l).attributes[j + 1] == Attribute(AttributeName(f), OrEmpty(l.Text(f)));
  }

  /** Two configurations agree on every text field once a null is read as "". */
  predicate SameUpToNulls(a: Ldap, b: Ldap) {
    forall f: LdapText :: OrEmpty(a.Text(f)) == OrEmpty(b.Text(f))
  }

  /**
   * The element loses exactly the difference between a null field and an
   * empty one: two configurations give the same element if and only if
   * they have the same id and agree on every field up to that difference.
   */
  lemma LdapElementForgetsOnlyNulls(a: Ldap, b: Ldap)
    ensures LdapElement(a) == LdapElement(b) <==> a.id == b.id && SameUpToNulls(a, b)
  {
    var ea, eb := LdapElement(a), LdapElement(b);
    if ea == eb {
      assert ea.attributes[0] == eb.attributes[0];
      IntToStringInjective(a.id, b.id);
      forall f: LdapText ensures OrEmpty(a.Text(f)) == OrEmpty(b.Text(f)) {
        EveryLdapTextListed(f);
        var j :| 0 <= j < |LdapTextOrder| && LdapTextOrder[j] == f;
        assert ea.attributes[j + 1] == eb.attributes[j + 1];
      }
    }
    if a.id == b.id && SameUpToNulls(a, b) {
      assert forall i :: 0 <= i < |ea.attributes| ==> ea.attributes[i] == eb.attributes[i];
    }
  }
}

=== FILE: project_export.dfy ===
/**
 * `createProjectElement`: one project as a `project` element with its
 * scalar fields as text children, an `exportConfiguration` and a
 * `metsConfiguration` block, its file groups when it has any, and
 * (goobi-to-goobi only) its full institution.
 */
module ProjectExport {
  import opened Wrappers
  import opened JavaText
  import opened Timestamps
  import opened Xml
  import opened Beans
  import opened Settings
  import opened InstitutionExport

  // ---------------------------------------------------------------- settings

  /** The DMS import paths, in the order they follow `dmsImportTimeOut` in `exportConfiguration`. */
  const DmsPathOrder: seq<ProjectSetting> := [DmsImportRootPath, DmsImportImagesPath, DmsImportSuccessPath, DmsImportErrorPath]

  /** The METS settings, in the order they appear in `metsConfiguration`. */
  const MetsOrder: seq<ProjectSetting> := [
    MetsRightsOwner, MetsRightsOwnerLogo, MetsRightsOwnerSite, MetsRightsOwnerMail,
    MetsDigiprovReference, MetsDigiprovPresentation, MetsDigiprovReferenceAnchor,
    MetsDigiprovPresentationAnchor, MetsPointerPath, MetsPointerPathAnchor, MetsPurl,
    MetsContentIDs, MetsRightsSponsor, MetsRightsSponsorLogo, MetsRightsSponsorSiteURL,
    MetsRightsLicense]

  /** The element each setting is written to. */
  function SettingName(f: ProjectSetting): string {
    match f
    case DmsImportRootPath => "dmsImportRootPath"
    case DmsImportImagesPath => "dmsImportImagesPath"
    case DmsImportSuccessPath => "dmsImportSuccessPath"
    case DmsImportErrorPath => "dmsImportErrorPath"
    case MetsRightsOwner => "metsRightsOwner"
    case MetsRightsOwnerLogo => "metsRightsOwnerLogo"
    case MetsRightsOwnerSite => "metsRightsOwnerSite"
    case MetsRightsOwnerMail => "metsRightsOwnerMail"
    case MetsDigiprovReference => "metsDigiprovReference"
    case MetsDigiprovPresentation => "metsDigiprovPresentation"
    case MetsDigiprovReferenceAnchor => "metsDigiprovReferenceAnchor"
    case MetsDigiprovPresentationAnchor => "metsDigiprovPresentationAnchor"
    case MetsPointerPath => "metsPointerPath"
    case MetsPointerPathAnchor => "metsPointerPathAnchor"
    case MetsPurl => "metsPurl"
    case MetsContentIDs => "metsContentIDs"
    case MetsRightsSponsor => "metsRightsSponsor"
    case MetsRightsSponsorLogo => "metsRightsSponsorLogo"
    case MetsRightsSponsorSiteURL => "metsRightsSponsorSiteURL"
    case MetsRightsLicense => "metsRightsLicense"
  }

  /** One text element per listed setting, a blank setting written as "". */
  function SettingNodes(p: Project, order: seq<ProjectSetting>): (r: seq<Element>)
    ensures |r| == |order|
    ensures forall i :: 0 <= i < |order| ==> r[i] == TextNode(SettingName(order[i]), BlankToEmpty(p.Setting(order[i])))
  {
    seq(|order|, i requires 0 <= i < |order| => TextNode(SettingName(order[i]), BlankToEmpty(p.Setting(order[i]))))
  }

  /** The `exportConfiguration` block: two flags as attributes, the timeout, then the four DMS import paths. */
  function ExportConfiguration(p: Project): Element {
    Node("exportConfiguration",
      [Attribute("useDmsImport", BoolToString(p.useDmsImport)),
       Attribute("dmsImportCreateProcessFolder", BoolToString(p.dmsImportCreateProcessFolder))],
      [TextNode("dmsImportTimeOut", IntToString(p.dmsImportTimeOut))] + SettingNodes(p, DmsPathOrder))
  }

  /**
   * The `exportConfiguration` block, looked up by name, gives back the two
   * flags from their own attributes and the timeout from the single
   * `dmsImportTimeOut` child.
   */
  lemma ExportConfigurationReadBack(p: Project)
    ensures AttributeNames(ExportConfiguration(p)) == ["useDmsImport", "dmsImportCreateProcessFolder"]
    ensures AttributeValue(ExportConfiguration(p).attributes, "useDmsImport") == Some(BoolToString(p.useDmsImport))
    ensures AttributeValue(ExportConfiguration(p).attributes, "dmsImportCreateProcessFolder")
      == Some(BoolToString(p.dmsImportCreateProcessFolder))
    ensures TextsNamed(ExportConfiguration(p).children, "dmsImportTimeOut") == [IntToString(p.dmsImportTimeOut)]
    ensures ParseInt(TextsNamed(ExportConfiguration(p).children, "dmsImportTimeOut")[0]) == Some(p.dmsImportTimeOut)
  {
    var e := ExportConfiguration(p);
    var dms, folder := BoolToString(p.useDmsImport), BoolToString(p.dmsImportCreateProcessFolder);
    assert e.attributes == [Attribute("useDmsImport", dms), Attribute("dmsImportCreateProcessFolder", folder)];
    ExportConfigurationFlagsLookedUp(dms, folder);
    var paths := SettingNodes(p, DmsPathOrder);
    assert e.children == [TextNode("dmsImportTimeOut", IntToString(p.dmsImportTimeOut))] + paths;
    DmsPathsNotTimeout(p);
    LeadingTextNamed("dmsImportTimeOut", IntToString(p.dmsImportTimeOut), paths);
    ParseIntToString(p.dmsImportTimeOut);
  }

  lemma ExportConfigurationFlagsLookedUp(dms: string, folder: string)
    ensures var attributes := [Attribute("useDmsImport", dms), Attribute("dmsImportCreateProcessFolder", folder)];
      && AttributeNames(Node("exportConfiguration", attributes, [])) == ["useDmsImport", "dmsImportCreateProcessFolder"]
      && AttributeValue(attributes, "useDmsImport") == Some(dms)
      && AttributeValue(attributes, "dmsImportCreateProcessFolder") == Some(folder)
  {
    var attributes := [Attribute("useDmsImport", dms), Attribute("dmsImportCreateProcessFolder", folder)];
    assert attributes[1..] == [Attribute("dmsImportCreateProcessFolder", folder)];
  }

  lemma DmsPathsNotTimeout(p: Project)
    ensures forall i :: 0 <= i < |DmsPathOrder| ==> SettingNodes(p, DmsPathOrder)[i].name != "dmsImportTimeOut"
  {
  }

  /** The `metsConfiguration` block: the sixteen METS settings. */
  function MetsConfiguration(p: Project): Element {
    Node("metsConfiguration", [], SettingNodes(p, MetsOrder))
  }

  // ---------------------------------------------------------------- file groups

  /** One `projectFileGroup`: the id and five blank-flattened attributes. */
  function FileGroupElement(fg: ProjectFileGroup): (r: Element)
    ensures r.name == "projectFileGroup" && r.namespace == LogfileNamespace && r.children == []
  {
    Node("projectFileGroup", [
      Attribute("id", IntToString(fg.id)),
      Attribute("folder", BlankToEmpty(fg.folder)),
      Attribute("mimetype", BlankToEmpty(fg.mimetype)),
      Attribute("name", BlankToEmpty(fg.name)),
      Attribute("path", BlankToEmpty(fg.path)),
      Attribute("suffix", BlankToEmpty(fg.suffix))], [])
  }

  /** The attribute names of a `projectFileGroup`, in the order they are set. */
  const FileGroupAttributeNames: seq<string> := ["id", "folder", "mimetype", "name", "path", "suffix"]

  /** The six attributes of a file group are always written, in the source's order. */
  lemma FileGroupAttributesInOrder(fg: ProjectFileGroup)
    ensures AttributeNames(FileGroupElement(fg)) == FileGroupAttributeNames
  {
    var names := AttributeNames(FileGroupElement(fg));
    assert forall k :: 0 <= k < |names| ==> names[k] == FileGroupAttributeNames[k];
  }

  /**
   * A file group element, looked up by attribute name, gives back the id
   * and each field under its own attribute, blank values as "".
   */
  lemma FileGroupReadBack(fg: ProjectFileGroup)
    ensures AttributeValue(FileGroupElement(fg).attributes, "id").Some?
    ensures ParseInt(AttributeValue(FileGroupElement(fg).attributes, "id").value) == Some(fg.id)
    ensures AttributeValue(FileGroupElement(fg).attributes, "folder") == Some(BlankToEmpty(fg.folder))
    ensures AttributeValue(FileGroupElement(fg).attributes, "mimetype") == Some(BlankToEmpty(fg.mimetype))
    ensures AttributeValue(FileGroupElement(fg).attributes, "name") == Some(BlankToEmpty(fg.name))
    ensures AttributeValue(FileGroupElement(fg).attributes, "path") == Some(BlankToEmpty(fg.path))
    ensures AttributeValue(FileGroupElement(fg).attributes, "suffix") == Some(BlankToEmpty(fg.suffix))
  {
    FileGroupAttributesLookedUp(IntToString(fg.id), BlankToEmpty(fg.folder), BlankToEmpty(fg.mimetype),
      BlankToEmpty(fg.name), BlankToEmpty(fg.path), BlankToEmpty(fg.suffix));
    ParseIntToString(fg.id);
  }

  /** Looking up each file group attribute by name, whatever the values. */
  lemma FileGroupAttributesLookedUp(id: string, folder: string, mimetype: string, name: string, path: string, suffix: string)
    ensures var attributes := [
        Attribute("id", id), Attribute("folder", folder), Attribute("mimetype", mimetype),
        Attribute("name", name), Attribute("path", path), Attribute("suffix", suffix)];
      && AttributeValue(attributes, "id") == Some(id)
      && AttributeValue(attributes, "folder") == Some(folder)
      && AttributeValue(attributes, "mimetype") == Some(mimetype)
      && AttributeValue(attributes, "name") == Some(name)
      && AttributeValue(attributes, "path") == Some(path)
      && AttributeValue(attributes, "suffix") == Some(suffix)
  {
    var attributes := [
      Attribute("id", id), Attribute("folder", folder), Attribute("mimetype", mimetype),
      Attribute("name", name), Attribute("path", path), Attribute("suffix", suffix)];
    AttributeValueAt(attributes, 0, "id");
    AttributeValueAt(attributes, 1, "folder");
    AttributeValueAt(attributes, 2, "mimetype");
    AttributeValueAt(attributes, 3, "name");
    AttributeValueAt(attributes, 4, "path");
    AttributeValueAt(attributes, 5, "suffix");
  }

  /** The `fileGroups` child, present only when the project has file groups. */
  function FileGroups(groups: seq<ProjectFileGroup>): (r: seq<Element>)
    ensures |r| == (if |groups| == 0 then 0 else 1)
    ensures |groups| > 0 ==> r[0].name == "fileGroups" && |r[0].children| == |groups|
    ensures |groups| > 0 ==> forall i :: 0 <= i < |groups| ==> r[0].children[i] == FileGroupElement(groups[i])
  {
    if |groups| == 0 then []
    else [Node("fileGroups", [], seq(|groups|, i requires 0 <= i < |groups| => FileGroupElement(groups[i])))]
  }

  /** Two file groups agree on a field once blank values are read as "". */
  predicate SameUpToBlanks(a: ProjectFileGroup, b: ProjectFileGroup) {
    && BlankToEmpty(a.folder) == BlankToEmpty(b.folder)
    && BlankToEmpty(a.mimetype) == BlankToEmpty(b.mimetype)
    && BlankToEmpty(a.name) == BlankToEmpty(b.name)
    && BlankToEmpty(a.path) == BlankToEmpty(b.path)
    && BlankToEmpty(a.suffix) == BlankToEmpty(b.suffix)
  }

  /**
   * A file group element loses exactly the difference between null, empty
   * and whitespace-only values: two groups give the same element if and
   * only if they have the same id and agree up to blanks.
   */
  lemma FileGroupElementForgetsOnlyBlanks(a: ProjectFileGroup, b: ProjectFileGroup)
    ensures FileGroupElement(a) == FileGroupElement(b) <==> a.id == b.id && SameUpToBlanks(a, b)
  {
    if FileGroupElement(a) == FileGroupElement(b) {
      assert FileGroupElement(a).attributes[0] == FileGroupElement(b).attributes[0];
      IntToStringInjective(a.id, b.id);
    }
  }

  // ---------------------------------------------------------------- the project element

  /** The eight scalar fields as text children: id, title, the two file formats, the two dates, pages, volumes. */
  function ScalarNodes(p: Project, start: string, end: string): (r: seq<Element>)
    ensures |r| == 8
  {
    [TextNode("id", IntToString(p.id)),
     TextNode("title", OrEmpty(p.title)),
     TextNode("fileFormatInternal", OrEmpty(p.fileFormatInternal)),
     TextNode("fileFormatDmsExport", OrEmpty(p.fileFormatDmsExport)),
     TextNode("startDate", start),
     TextNode("endDate", end),
     TextNode("pages", IntToString(p.numberOfPages)),
     TextNode("volumes", IntToString(p.numberOfVolumes))]
  }

  /** The institution children: the full element in the goobi-to-goobi export, nothing in the other. */
  function ProjectInstitution(p: Project, v: Variant): seq<Option<Element>> {
    if v.GoobiToGoobi? then [InstitutionElement(p.institution)] else []
  }

  /** The `project` element once the two dates are rendered; `None` when the institution has a null name. */
  function ProjectNode(p: Project, v: Variant, start: string, end: string): (r: Option<Element>)
    ensures r.Some? <==> (v.GoobiToGoobi? ==> p.institution.shortName.Some? && p.institution.longName.Some?)
  {
    match AllSome(ProjectInstitution(p, v))
    case None => None
    case Some(institution) =>
      Some(Node("project", [Attribute("archived", BoolToString(p.projectIsArchived))],
        ScalarNodes(p, start, end) + [ExportConfiguration(p), MetsConfiguration(p)] + FileGroups(p.fileGroups) + institution))
  }

  /**
   * `createProjectElement`. Formatting a null date throws, and a null
   * institution name reaches `setAttribute`; either aborts the export.
   */
  function ProjectElement(p: Project, v: Variant): (r: Option<Element>)
    ensures r.Some? ==> r.value.name == "project" && r.value.namespace == LogfileNamespace
    ensures r.Some? ==> r.value.attributes == [Attribute("archived", BoolToString(p.projectIsArchived))]
  {
    if p.startDate.None? || p.endDate.None? then None
    else ProjectNode(p, v, FormatTimestamp(p.startDate.value), FormatTimestamp(p.endDate.value))
  }

  /** When `createProjectElement` completes. */
  predicate ProjectExportable(p: Project, v: Variant) {
    && p.startDate.Some? && p.endDate.Some?
    && (v.GoobiToGoobi? ==> p.institution.shortName.Some? && p.institution.longName.Some?)
  }

  lemma ProjectElementExportable(p: Project, v: Variant)
    ensures ProjectElement(p, v).Some? <==> ProjectExportable(p, v)
  {
  }

  /** Where each part of a built project sits among its children, for any rendering of the dates. */
  lemma ProjectNodeChildrenAt(p: Project, v: Variant, start: string, end: string)
    requires ProjectNode(p, v, start, end).Some?
    ensures var c := ProjectNode(p, v, start, end).value.children;
      && |c| == 10 + |FileGroups(p.fileGroups)| + (if v.GoobiToGoobi? then 1 else 0)
      && c[..8] == ScalarNodes(p, start, end)
      && c[8] == ExportConfiguration(p)
      && c[9] == MetsConfiguration(p)
      && c[10..10 + |FileGroups(p.fileGroups)|] == FileGroups(p.fileGroups)
      && (v.GoobiToGoobi? ==> Some(c[|c| - 1]) == InstitutionElement(p.institution))
  {
    var built := ProjectInstitution(p, v);
    var institution := AllSome(built).value;
    var scalars := ScalarNodes(p, start, end);
    var groups := FileGroups(p.fileGroups);
    var c := ProjectNode(p, v, start, end).value.children;
    assert c == scalars + [ExportConfiguration(p), MetsConfiguration(p)] + groups + institution;
    if v.GoobiToGoobi? {
      assert built[0] == InstitutionElement(p.institution);
      assert c[|c| - 1] == institution[0];
    }
  }

  /** Where each part of a built project sits among its children. */
  lemma ProjectChildrenAt(p: Project, v: Variant)
    requires ProjectExportable(p, v)
    ensures var c := ProjectElement(p, v).value.children;
      && |c| == 10 + |FileGroups(p.fileGroups)| + (if v.GoobiToGoobi? then 1 else 0)
      && c[..8] == ScalarNodes(p, FormatTimestamp(p.startDate.value), FormatTimestamp(p.endDate.value))
      && c[8] == ExportConfiguration(p)
      && c[9] == MetsConfiguration(p)
      && c[10..10 + |FileGroups(p.fileGroups)|] == FileGroups(p.fileGroups)
      && (v.GoobiToGoobi? ==> Some(c[|c| - 1]) == InstitutionElement(p.institution))
  {
    var start, end := FormatTimestamp(p.startDate.value), FormatTimestamp(p.endDate.value);
    assert ProjectElement(p, v) == ProjectNode(p, v, start, end);
    ProjectNodeChildrenAt(p, v, start, end);
  }

  const ScalarNames: seq<string> := ["id", "title", "fileFormatInternal", "fileFormatDmsExport", "startDate", "endDate", "pages", "volumes"]

  lemma ScalarNodesNamed(p: Project, start: string, end: string)
    ensures Names(ScalarNodes(p, start, end)) == ScalarNames
  {
    var names := Names(ScalarNodes(p, start, end));
    assert forall i :: 0 <= i < 8 ==> names[i] == ScalarNames[i];
  }

  /** The child names of a built project, for any rendering of the dates. */
  lemma ProjectNodeChildLayout(p: Project, v: Variant, start: string, end: string)
    requires ProjectNode(p, v, start, end).Some?
    ensures ChildNames(ProjectNode(p, v, start, end).value) ==
      ScalarNames + ["exportConfiguration", "metsConfiguration"]
      + (if |p.fileGroups| > 0 then ["fileGroups"] else [])
      + (if v.GoobiToGoobi? then ["institution"] else [])
  {
    var built := ProjectInstitution(p, v);
    var institution := AllSome(built).value;
    var scalars := ScalarNodes(p, start, end);
    var blocks := [ExportConfiguration(p), MetsConfiguration(p)];
    var groups := FileGroups(p.fileGroups);
    assert ProjectNode(p, v, start, end).value.children == scalars + blocks + groups + institution;
    NamesAppend(scalars, blocks);
    NamesAppend(scalars + blocks, groups);
    NamesAppend(scalars + blocks + groups, institution);
    ScalarNodesNamed(p, start, end);
    assert Names(blocks) == ["exportConfiguration", "metsConfiguration"];
    assert Names(groups) == (if |p.fileGroups| > 0 then ["fileGroups"] else []);
    if v.GoobiToGoobi? {
      assert built[0] == InstitutionElement(p.institution);
      InstitutionElementNamed(p.institution);
    }
    assert Names(institution) == (if v.GoobiToGoobi? then ["institution"] else []);
  }

  /**
   * The children of a project: the eight scalars, the two configuration
   * blocks, `fileGroups` exactly when the project has file groups, and
   * `institution` exactly in the goobi-to-goobi export.
   */
  lemma ProjectChildLayout(p: Project, v: Variant)
    requires ProjectExportable(p, v)
    ensures ChildNames(ProjectElement(p, v).value) ==
      ScalarNames + ["exportConfiguration", "metsConfiguration"]
      + (if |p.fileGroups| > 0 then ["fileGroups"] else [])
      + (if v.GoobiToGoobi? then ["institution"] else [])
  {
    var start, end := FormatTimestamp(p.startDate.value), FormatTimestamp(p.endDate.value);
    assert ProjectElement(p, v) == ProjectNode(p, v, start, end);
    ProjectNodeChildLayout(p, v, start, end);
  }

  lemma InstitutionElementNamed(inst: Institution)
    ensures InstitutionElement(inst).Some? ==> InstitutionElement(inst).value.name == "institution"
  {
  }

  // ---------------------------------------------------------------- reading a project back

  /** The scalar fields of a `project` element as a reader recovers them. */
  datatype ProjectScalars = ProjectScalars(
    id: int, title: string, fileFormatInternal: string, fileFormatDmsExport: string,
    startDate: DateTime, endDate: DateTime, pages: int, volumes: int, archived: bool)

  /** Reads the scalar children by position and the `archived` attribute by name. */
  function ReadProjectScalars(e: Element): Option<ProjectScalars> {
    if |e.children| < 8 then None
    else
      var c := e.children;
      var id := ParseInt(c[0].text);
      var start := ParseTimestamp(c[4].text);
      var end := ParseTimestamp(c[5].text);
      var pages := ParseInt(c[6].text);
      var volumes := ParseInt(c[7].text);
      var archived := AttributeValue(e.attributes, "archived");
      if id.None? || start.None? || end.None? || pages.None? || volumes.None? || archived.None? then None
      else Some(ProjectScalars(id.value, c[1].text, c[2].text, c[3].text, start.value, end.value,
        pages.value, volumes.value, archived.value == "true"))
  }

  /** Reading back a project node whose dates are any strings that parse. */
  lemma ReadProjectNodeScalars(p: Project, v: Variant, start: string, end: string, s: DateTime, e: DateTime)
    requires ProjectNode(p, v, start, end).Some?
    requires ParseTimestamp(start) == Some(s) && ParseTimestamp(end) == Some(e)
    ensures ReadProjectScalars(ProjectNode(p, v, start, end).value) == Some(ProjectScalars(
      p.id, OrEmpty(p.title), OrEmpty(p.fileFormatInternal), OrEmpty(p.fileFormatDmsExport),
      s, e, p.numberOfPages, p.numberOfVolumes, p.projectIsArchived))
  {
    var node := ProjectNode(p, v, start, end).value;
    ProjectNodeChildrenAt(p, v, start, end);
    var c := node.children;
    forall i | 0 <= i < 8 ensures c[i] == c[..8][i] { }
    ParseIntToString(p.id);
    ParseIntToString(p.numberOfPages);
    ParseIntToString(p.numberOfVolumes);
  }

  /**
   * The scalars survive the export: ids and counts exactly, dates exactly
   * when they have a four-digit year, null texts as "".
   */
  lemma ProjectScalarsRoundTrip(p: Project, v: Variant)
    requires ProjectExportable(p, v)
    requires Valid(p.startDate.value) && p.startDate.value.year <= 9999
    requires Valid(p.endDate.value) && p.endDate.value.year <= 9999
    ensures ReadProjectScalars(ProjectElement(p, v).value) == Some(ProjectScalars(
      p.id, OrEmpty(p.title), OrEmpty(p.fileFormatInternal), OrEmpty(p.fileFormatDmsExport),
      p.startDate.value, p.endDate.value, p.numberOfPages, p.numberOfVolumes, p.projectIsArchived))
  {
    var start, end := FormatTimestamp(p.startDate.value), FormatTimestamp(p.endDate.value);
    assert ProjectElement(p, v) == ProjectNode(p, v, start, end);
    ParseFormatTimestamp(p.startDate.value);
    ParseFormatTimestamp(p.endDate.value);
    ReadProjectElementScalars(p, v, start, end);
  }

  /** Reading back a built project whose rendered dates parse to the project's dates. */
  lemma ReadProjectElementScalars(p: Project, v: Variant, start: string, end: string)
    requires ProjectExportable(p, v)
    requires ProjectElement(p, v) == ProjectNode(p, v, start, end)
    requires ParseTimestamp(start) == Some(p.startDate.value) && ParseTimestamp(end) == Some(p.endDate.value)
    ensures ReadProjectScalars(ProjectElement(p, v).value) == Some(ProjectScalars(
      p.id, OrEmpty(p.title), OrEmpty(p.fileFormatInternal), OrEmpty(p.fileFormatDmsExport),
      p.startDate.value, p.endDate.value, p.numberOfPages, p.numberOfVolumes, p.projectIsArchived))
  {
    ReadProjectNodeScalars(p, v, start, end, p.startDate.value, p.endDate.value);
  }

  // ---------------------------------------------------------------- where each setting goes

  lemma EverySettingListed(f: ProjectSetting)
    ensures f.IsDmsImportPath() ==> f in DmsPathOrder
    ensures !f.IsDmsImportPath() ==> f in MetsOrder
  {
  }

  /** Each DMS import path is written, blank as "", inside `exportConfiguration`. */
  lemma DmsPathWritten(p: Project, f: ProjectSetting)
    requires f.IsDmsImportPath()
    ensures TextNode(SettingName(f), BlankToEmpty(p.Setting(f))) in ExportConfiguration(p).children
  {
    EverySettingListed(f);
    var j :| 0 <= j < |DmsPathOrder| && DmsPathOrder[j] == f;
    assert ExportConfiguration(p).children[j + 1] == SettingNodes(p, DmsPathOrder)[j];
  }

  /** Each METS setting is written, blank as "", inside `metsConfiguration`. */
  lemma MetsSettingWritten(p: Project, f: ProjectSetting)
    requires !f.IsDmsImportPath()
    ensures TextNode(SettingName(f), BlankToEmpty(p.Setting(f))) in MetsConfiguration(p).children
  {
    EverySettingListed(f);
    var j :| 0 <= j < |MetsOrder| && MetsOrder[j] == f;
    assert MetsConfiguration(p).children[j] == SettingNodes(p, MetsOrder)[j];
  }

  /**
   * Every setting is written, blank as "", to its own element: the DMS
   * import paths inside `exportConfiguration` (after the timeout), the
   * rest inside `metsConfiguration`.
   */
  lemma ProjectSettingWritten(p: Project, v: Variant, f: ProjectSetting)
    requires ProjectExportable(p, v)
    ensures f.IsDmsImportPath() ==>
      TextNode(SettingName(f), BlankToEmpty(p.Setting(f))) in ProjectElement(p, v).value.children[8].children
    ensures !f.IsDmsImportPath() ==>
      TextNode(SettingName(f), BlankToEmpty(p.Setting(f))) in ProjectElement(p, v).value.children[9].children
  {
    ProjectChildrenAt(p, v);
    if f.IsDmsImportPath() {
      DmsPathWritten(p, f);
    } else {
      MetsSettingWritten(p, f);
    }
  }

  // ---------------------------------------------------------------- the projects section

  function ProjectElements(projects: seq<Project>, v: Variant): (r: seq<Option<Element>>)
    ensures |r| == |projects| && forall i :: 0 <= i < |projects| ==> r[i] == ProjectElement(projects[i], v)
  {
    seq(|projects|, i requires 0 <= i < |projects| => ProjectElement(projects[i], v))
  }

  /** The `projects` section: one `project` per project, in order. */
  function ProjectsSection(projects: seq<Project>, v: Variant): (r: Option<Element>)
    ensures r.Some? ==> r.value.name == "projects" && r.value.namespace == LogfileNamespace && r.value.attributes == []
    ensures r.Some? ==> |r.value.children| == |projects|
    ensures r.Some? ==> forall i :: 0 <= i < |projects| ==> ProjectElement(projects[i], v) == Some(r.value.children[i])
  {
    var built := ProjectElements(projects, v);
    match AllSome(built)
    case None => None
    case Some(children) => Some(Node("projects", [], children))
  }

  lemma ProjectsSectionExportable(projects: seq<Project>, v: Variant)
    ensures ProjectsSection(projects, v).Some? <==> forall i :: 0 <= i < |projects| ==> ProjectExportable(projects[i], v)
  {
    var built := ProjectElements(projects, v);
    forall i | 0 <= i < |projects| ensures built[i].Some? <==> ProjectExportable(projects[i], v) {
      ProjectElementExportable(projects[i], v);
    }
    assert ProjectsSection(projects, v).Some? <==> AllSome(built).Some?;
  }
}

=== FILE: settings.dfy ===
/** The two exporter plugins and the option flags their web form binds. */
module Settings {

  /**
   * `GoobiToGoobi` is the goobi-to-goobi export plugin, `DataExport` the
   * older database export plugin. They build the same tree except that only
   * the former writes `institution` elements and only the latter writes the
   * user's `visible` attribute.
   */
  datatype Variant = GoobiToGoobi | DataExport

  datatype ExportOptions = ExportOptions(
    ldapGroups: bool,
    userGroups: bool,
    user: bool,
    includeInactiveUser: bool,
    createNewPasswords: bool,
    projectAssignments: bool,
    usergroupAssignments: bool,
    projects: bool,
    rulesets: bool,
    dockets: bool,
    includeFiles: bool)

  /** The field initialisers: every flag is on in the goobi-to-goobi plugin and off in the database export plugin. */
  function DefaultOptions(v: Variant): ExportOptions {
    var on := v.GoobiToGoobi?;
    ExportOptions(on, on, on, on, on, on, on, on, on, on, on)
  }

  /** The name of the XML document, both on disk and inside the archive. */
  function DocumentFileName(v: Variant): string {
    match v
    case GoobiToGoobi => "goobi-to-goobi-export.xml"
    case DataExport => "export.xml"
  }
}

=== FILE: timestamps.dfy ===
/**
 * Rendering of project start and end dates with the exporters' shared
 * `SimpleDateFormat` pattern `yyyy-MM-dd'T'HH:mm:ss.SSSZ`, and a reader for
 * that layout. The conversion from an instant to calendar fields in the
 * JVM's default time zone is outside the model: a date arrives here as the
 * calendar fields the formatter reads.
 */
module Timestamps {
  import opened Wrappers
  import opened JavaText

  /** The calendar fields the pattern prints; `zoneOffsetMinutes` is zone plus daylight offset. */
  datatype DateTime = DateTime(
    year: nat, month: nat, day: nat,
    hour: nat, minute: nat, second: nat, millis: nat,
    zoneOffsetMinutes: int)

  /** Field ranges a Gregorian calendar produces (year of era is at least 1). */
  predicate Valid(d: DateTime) {
    && 1 <= d.year
    && 1 <= d.month <= 12
    && 1 <= d.day <= 31
    && d.hour < 24 && d.minute < 60 && d.second < 60 && d.millis < 1000
    && -1440 < d.zoneOffsetMinutes < 1440
  }

  function Pow10(k: nat): (p: nat)
    ensures p >= 1
  {
    if k == 0 then 1 else 10 * Pow10(k - 1)
  }

  /** A number below `10^k` has at most `k` decimal digits. */
  lemma {:induction false} DecimalLengthBound(n: nat, k: nat)
    requires 1 <= k && n < Pow10(k)
    ensures |NatToDecimal(n)| <= k
    decreases k
  {
    assert Pow10(1) == 10;
    if n >= 10 {
      assert k >= 2;
      assert n / 10 < Pow10(k - 1);
      DecimalLengthBound(n / 10, k - 1);
    }
  }

  /** A number printed with at least `width` digits, padded with leading zeros and never truncated. */
  function ZeroPad(n: nat, width: nat): (s: string)
    ensures AllDigits(s) && DecimalValue(s) == n
    ensures |s| == if |NatToDecimal(n)| < width then width else |NatToDecimal(n)|
    decreases width
  {
    if |NatToDecimal(n)| >= width then
      DecimalValueOfNatToDecimal(n);
      NatToDecimal(n)
    else
      var rest := ZeroPad(n, width - 1);
      DecimalValueLeadingZero(rest);
      "0" + rest
  }

  /** Padding to `width` digits yields exactly `width` characters when the number fits. */
  lemma ZeroPadFits(n: nat, width: nat)
    requires 1 <= width && n < Pow10(width)
    ensures |ZeroPad(n, width)| == width
  {
    DecimalLengthBound(n, width);
  }

  /** Pattern letter `Z`: a sign, then hours times one hundred plus minutes in four digits. */
  function ZoneText(offsetMinutes: int): string {
    var magnitude := if offsetMinutes < 0 then -offsetMinutes else offsetMinutes;
    (if offsetMinutes >= 0 then "+" else "-") + ZeroPad((magnitude / 60) * 100 + magnitude % 60, 4)
  }

  /** Pattern `yyyy-MM-dd`. */
  function DateText(d: DateTime): string {
    ZeroPad(d.year, 4) + "-" + ZeroPad(d.month, 2) + "-" + ZeroPad(d.day, 2)
  }

  /** Pattern `HH:mm:ss.SSS`. */
  function TimeText(d: DateTime): string {
    ZeroPad(d.hour, 2) + ":" + ZeroPad(d.minute, 2) + ":" + ZeroPad(d.second, 2) + "." + ZeroPad(d.millis, 3)
  }

  /** `dateConverter.format(date)` for the pattern `yyyy-MM-dd'T'HH:mm:ss.SSSZ`. */
  function FormatTimestamp(d: DateTime): string {
    DateText(d) + "T" + TimeText(d) + ZoneText(d.zoneOffsetMinutes)
  }

  /** Reads back a 28-character timestamp in the exporters' layout. */
  function ParseTimestamp(s: string): (r: Option<DateTime>)
    ensures r.Some? ==> |s| == 28
  {
    if |s| == 28
       && s[4] == '-' && s[7] == '-' && s[10] == 'T' && s[13] == ':' && s[16] == ':' && s[19] == '.'
       && (s[23] == '+' || s[23] == '-')
       && AllDigits(s[0..4]) && AllDigits(s[5..7]) && AllDigits(s[8..10]) && AllDigits(s[11..13])
       && AllDigits(s[14..16]) && AllDigits(s[17..19]) && AllDigits(s[20..23]) && AllDigits(s[24..28])
    then
      var zone := DecimalValue(s[24..28]);
      var magnitude := (zone / 100) * 60 + zone % 100;
      Some(DateTime(
        DecimalValue(s[0..4]), DecimalValue(s[5..7]), DecimalValue(s[8..10]),
        DecimalValue(s[11..13]), DecimalValue(s[14..16]), DecimalValue(s[17..19]), DecimalValue(s[20..23]),
        if s[23] == '+' then magnitude else -magnitude))
    else
      None
  }

  lemma ZoneDigitsRoundTrip(magnitude: nat)
    requires magnitude < 1440
    ensures var v := (magnitude / 60) * 100 + magnitude % 60; v < 10000 && (v / 100) * 60 + v % 100 == magnitude
  {
    var h := magnitude / 60;
    var m := magnitude % 60;
    var v := h * 100 + m;
    assert v / 100 == h && v % 100 == m;
  }

  lemma DateTextLayout(d: DateTime)
    requires Valid(d) && d.year <= 9999
    ensures var t := DateText(d);
      && |t| == 10 && t[4] == '-' && t[7] == '-'
      && t[0..4] == ZeroPad(d.year, 4) && t[5..7] == ZeroPad(d.month, 2) && t[8..10] == ZeroPad(d.day, 2)
  {
    assert Pow10(4) == 10000 && Pow10(2) == 100 by {
      assert Pow10(1) == 10;
      assert Pow10(3) == 1000;
    }
    ZeroPadFits(d.year, 4);
    ZeroPadFits(d.month, 2);
    ZeroPadFits(d.day, 2);
  }

  lemma TimeTextLayout(d: DateTime)
    requires Valid(d)
    ensures var t := TimeText(d);
      && |t| == 12 && t[2] == ':' && t[5] == ':' && t[8] == '.'
      && t[0..2] == ZeroPad(d.hour, 2) && t[3..5] == ZeroPad(d.minute, 2)
      && t[6..8] == ZeroPad(d.second, 2) && t[9..12] == ZeroPad(d.millis, 3)
  {
    assert Pow10(3) == 1000 && Pow10(2) == 100 by {
      assert Pow10(1) == 10;
    }
    ZeroPadFits(d.hour, 2);
    ZeroPadFits(d.minute, 2);
    ZeroPadFits(d.second, 2);
    ZeroPadFits(d.millis, 3);
  }

  lemma ZoneTextLayout(offsetMinutes: int)
    requires -1440 < offsetMinutes < 1440
    ensures var t := ZoneText(offsetMinutes);
      && |t| == 5 && (t[0] == '+' <==> offsetMinutes >= 0) && (t[0] == '+' || t[0] == '-')
      && AllDigits(t[1..])
      && var zone := DecimalValue(t[1..]);
         (zone / 100) * 60 + zone % 100 == if offsetMinutes < 0 then -offsetMinutes else offsetMinutes
  {
    var magnitude: nat := if offsetMinutes < 0 then -offsetMinutes else offsetMinutes;
    ZoneDigitsRoundTrip(magnitude);
    assert Pow10(4) == 10000 by {
      assert Pow10(2) == 100;
    }
    ZeroPadFits((magnitude / 60) * 100 + magnitude % 60, 4);
    var t := ZoneText(offsetMinutes);
    assert t[1..] == ZeroPad((magnitude / 60) * 100 + magnitude % 60, 4);
  }

  /** Where the slices of the date and time parts sit once they are joined with the zone. */
  lemma ConcatLayout(date: string, time: string, zone: string)
    requires |date| == 10 && |time| == 12
    ensures var s := date + "T" + time + zone;
      && |s| == 23 + |zone| && s[10] == 'T' && s[23..] == zone
      && s[4] == date[4] && s[7] == date[7] && s[13] == time[2] && s[16] == time[5] && s[19] == time[8]
      && s[0..4] == date[0..4] && s[5..7] == date[5..7] && s[8..10] == date[8..10]
      && s[11..13] == time[0..2] && s[14..16] == time[3..5] && s[17..19] == time[6..8] && s[20..23] == time[9..12]
  {
    var s := date + "T" + time + zone;
    assert s[0..10] == date && s[11..23] == time;
    assert s[0..4] == s[0..10][0..4] && s[5..7] == s[0..10][5..7] && s[8..10] == s[0..10][8..10];
    assert s[11..13] == s[11..23][0..2] && s[14..16] == s[11..23][3..5];
    assert s[17..19] == s[11..23][6..8] && s[20..23] == s[11..23][9..12];
  }

  /** Where each field of a rendered timestamp sits. */
  lemma FormatTimestampLayout(d: DateTime)
    requires Valid(d) && d.year <= 9999
    ensures var s := FormatTimestamp(d);
      && |s| == 28
      && s[4] == '-' && s[7] == '-' && s[10] == 'T' && s[13] == ':' && s[16] == ':' && s[19] == '.'
      && s[0..4] == ZeroPad(d.year, 4) && s[5..7] == ZeroPad(d.month, 2) && s[8..10] == ZeroPad(d.day, 2)
      && s[11..13] == ZeroPad(d.hour, 2) && s[14..16] == ZeroPad(d.minute, 2)
      && s[17..19] == ZeroPad(d.second, 2) && s[20..23] == ZeroPad(d.millis, 3)
      && s[23..] == ZoneText(d.zoneOffsetMinutes)
  {
    DateTextLayout(d);
    TimeTextLayout(d);
    ZoneTextLayout(d.zoneOffsetMinutes);
    ConcatLayout(DateText(d), TimeText(d), ZoneText(d.zoneOffsetMinutes));
  }

  /** A string in the exporters' layout whose digit groups denote the fields of `d` reads back as `d`. */
  lemma ParseFieldsOf(s: string, d: DateTime)
    requires |s| == 28
    requires s[4] == '-' && s[7] == '-' && s[10] == 'T' && s[13] == ':' && s[16] == ':' && s[19] == '.'
    requires (s[23] == '+' <==> d.zoneOffsetMinutes >= 0) && (s[23] == '+' || s[23] == '-')
    requires AllDigits(s[0..4]) && DecimalValue(s[0..4]) == d.year
    requires AllDigits(s[5..7]) && DecimalValue(s[5..7]) == d.month
    requires AllDigits(s[8..10]) && DecimalValue(s[8..10]) == d.day
    requires AllDigits(s[11..13]) && DecimalValue(s[11..13]) == d.hour
    requires AllDigits(s[14..16]) && DecimalValue(s[14..16]) == d.minute
    requires AllDigits(s[17..19]) && DecimalValue(s[17..19]) == d.second
    requires AllDigits(s[20..23]) && DecimalValue(s[20..23]) == d.millis
    requires AllDigits(s[24..28])
    requires var zone := DecimalValue(s[24..28]);
      (zone / 100) * 60 + zone % 100 == if d.zoneOffsetMinutes < 0 then -d.zoneOffsetMinutes else d.zoneOffsetMinutes
    ensures ParseTimestamp(s) == Some(d)
  {
  }

  /** Any string laid out like a rendering of `d` reads back as `d`. */
  lemma ParseLaidOut(s: string, d: DateTime)
    requires Valid(d)
    requires |s| == 28
    requires s[4] == '-' && s[7] == '-' && s[10] == 'T' && s[13] == ':' && s[16] == ':' && s[19] == '.'
    requires s[0..4] == ZeroPad(d.year, 4) && s[5..7] == ZeroPad(d.month, 2) && s[8..10] == ZeroPad(d.day, 2)
    requires s[11..13] == ZeroPad(d.hour, 2) && s[14..16] == ZeroPad(d.minute, 2)
    requires s[17..19] == ZeroPad(d.second, 2) && s[20..23] == ZeroPad(d.millis, 3)
    requires s[23..] == ZoneText(d.zoneOffsetMinutes)
    ensures ParseTimestamp(s) == Some(d)
  {
    ZoneTextLayout(d.zoneOffsetMinutes);
    var zone := ZoneText(d.zoneOffsetMinutes);
    assert s[24..28] == zone[1..];
    assert s[23] == zone[0];
    ParseFieldsOf(s, d);
  }

  /** Every date with a four-digit year is read back exactly from its rendering. */
  lemma ParseFormatTimestamp(d: DateTime)
    requires Valid(d) && d.year <= 9999
    ensures ParseTimestamp(FormatTimestamp(d)) == Some(d)
  {
    FormatTimestampLayout(d);
    ParseLaidOut(FormatTimestamp(d), d);
  }
}

=== FILE: user_export.dfy ===
/** `createUserElement` and the `users` section: one user account as a `user` element. */
module UserExport {
  import opened Wrappers
  import opened JavaText
  import opened Xml
  import opened Beans
  import opened Settings
  import opened InstitutionExport

  /** The attributes of a `user` element, by the bean property each one is written from. */
  datatype UserField =
    | Id | Text(text: UserText) | Active | TableSize | SessionLength | MassDownload
    | LdapGroup | Password | Salt | Switch(switch: UserSwitch) | MetsEditorTime

  /** The display and METS editor switches in the order their attributes are set. */
  const SwitchOrder: seq<UserSwitch> := [
    DisplayDeactivatedProjects, DisplayFinishedProcesses, DisplaySelectBoxes, DisplayIdColumn,
    DisplayBatchColumn, DisplayProcessDateColumn, DisplayLocksColumn, DisplaySwappingColumn,
    DisplayModulesColumn, DisplayMetadataColumn, DisplayThumbColumn, DisplayGridView,
    DisplayAutomaticTasks, HideCorrectionTasks, DisplayOnlySelectedTasks, DisplayOnlyOpenTasks,
    DisplayOtherTasks,
    MetsDisplayTitle, MetsLinkImage, MetsDisplayPageAssignments, MetsDisplayHierarchy,
    MetsDisplayProcessID]

  /** The switch attributes, in order. */
  function SwitchFields(): (r: seq<UserField>)
    ensures |r| == |SwitchOrder|
    ensures forall i :: 0 <= i < |SwitchOrder| ==> r[i] == Switch(SwitchOrder[i])
  {
    seq(|SwitchOrder|, i requires 0 <= i < |SwitchOrder| => Switch(SwitchOrder[i]))
  }

  lemma EverySwitchListed(s: UserSwitch)
    ensures s in SwitchOrder
  {
  }

  /** The attributes before `visible`. */
  const LeadingFields: seq<UserField> := [Id, Text(FirstName), Text(LastName), Text(Login), Text(LdapLogin), Active]

  /** `visible`, which only the database export plugin writes. */
  function VisibleFields(v: Variant): seq<UserField> {
    if v.DataExport? then [Text(Visible)] else []
  }

  /** The attributes between `visible` and the switches. */
  const MiddleFields: seq<UserField> := [
    Text(Place), TableSize, SessionLength, Text(MetadataLanguage), MassDownload, LdapGroup,
    Text(Css), Text(Email), Text(ShortcutPrefix), Password, Salt]

  /** The attributes after the switches. */
  const TrailingFields: seq<UserField> := [MetsEditorTime, Text(CustomColumns), Text(CustomCss)]

  /** The attributes of a `user` element in the order they are set. */
  function UserFieldOrder(v: Variant): seq<UserField> {
    LeadingFields + VisibleFields(v) + MiddleFields + SwitchFields() + TrailingFields
  }

  function TextAttributeName(t: UserText): string {
    match t
    case FirstName => "firstname"
    case LastName => "lastname"
    case Login => "login"
    case LdapLogin => "ldaplogin"
    case Visible => "visible"
    case Place => "place"
    case MetadataLanguage => "metadatalanguage"
    case Css => "css"
    case Email => "email"
    case ShortcutPrefix => "shortcut"
    case CustomColumns => "customColumns"
    case CustomCss => "customCss"
  }

  function SwitchAttributeName(s: UserSwitch): string {
    match s
    case DisplayDeactivatedProjects => "displayDeactivatedProjects"
    case DisplayFinishedProcesses => "displayFinishedProcesses"
    case DisplaySelectBoxes => "displaySelectBoxes"
    case DisplayIdColumn => "displayIdColumn"
    case DisplayBatchColumn => "displayBatchColumn"
    case DisplayProcessDateColumn => "displayProcessDateColumn"
    case DisplayLocksColumn => "displayLocksColumn"
    case DisplaySwappingColumn => "displaySwappingColumn"
    case DisplayModulesColumn => "displayModulesColumn"
    case DisplayMetadataColumn => "displayMetadataColumn"
    case DisplayThumbColumn => "displayThumbColumn"
    case DisplayGridView => "displayGridView"
    case DisplayAutomaticTasks => "displayAutomaticTasks"
    case HideCorrectionTasks => "hideCorrectionTasks"
    case DisplayOnlySelectedTasks => "displayOnlySelectedTasks"
    case DisplayOnlyOpenTasks => "displayOnlyOpenTasks"
    case DisplayOtherTasks => "displayOtherTasks"
    case MetsDisplayTitle => "metsDisplayTitle"
    case MetsLinkImage => "metsLinkImage"
    case MetsDisplayPageAssignments => "metsDisplayPageAssignments"
    case MetsDisplayHierarchy => "metsDisplayHierarchy"
    case MetsDisplayProcessID => "metsDisplayProcessID"
  }

  function FieldName(f: UserField): string {
    match f
    case Id => "id"
    case Text(t) => TextAttributeName(t)
    case Active => "active"
    case TableSize => "tablesize"
    case SessionLength => "sessionlength"
    case MassDownload => "massdownload"
    case LdapGroup => "ldapgroup"
    case Password => "password"
    case Salt => "salt"
    case Switch(s) => SwitchAttributeName(s)
    case MetsEditorTime => "metsEditorTime"
  }

  /**
   * The value written for one attribute; `None` where the source passes a
   * null to `setAttribute`: the title of an assigned LDAP group, and the
   * stored password hash when passwords are kept.
   */
  function FieldValue(u: User, createNewPasswords: bool, f: UserField): Option<string> {
    match f
    case Id => Some(IntToString(u.id))
    case Text(t) => Some(OrEmpty(u.Text(t)))
    case Active => Some(BoolToString(u.active))
    case TableSize => Some(IntToString(u.tableSize))
    case SessionLength => Some(IntToString(u.sessionTimeout))
    case MassDownload => Some(BoolToString(u.massDownload))
    case LdapGroup => if u.ldapGroup.None? then Some("") else u.ldapGroup.value.title
    case Password => if createNewPasswords then Some("") else u.encryptedPassword
    case Salt => if createNewPasswords then Some("") else Some(ValueOf(u.passwordSalt))
    case Switch(s) => Some(BoolToString(s in u.switchedOn))
    case MetsEditorTime => Some(IntToString(u.metsEditorTime))
  }

  /** The attribute list of a `user` element, or `None` when one of the values is null. */
  function UserAttributes(u: User, createNewPasswords: bool, v: Variant): (r: Option<seq<Attribute>>)
    ensures r.Some? <==> forall i :: 0 <= i < |UserFieldOrder(v)| ==> FieldValue(u, createNewPasswords, UserFieldOrder(v)[i]).Some?
    ensures r.Some? ==> |r.value| == |UserFieldOrder(v)|
    ensures r.Some? ==> forall i :: 0 <= i < |UserFieldOrder(v)| ==>
      r.value[i] == Attribute(FieldName(UserFieldOrder(v)[i]), FieldValue(u, createNewPasswords, UserFieldOrder(v)[i]).value)
  {
    var order := UserFieldOrder(v);
    var calls := seq(|order|, i requires 0 <= i < |order| => SetAttribute(FieldName(order[i]), FieldValue(u, createNewPasswords, order[i])));
    assert forall i :: 0 <= i < |order| ==> (calls[i].Some? <==> FieldValue(u, createNewPasswords, order[i]).Some?);
    AllSome(calls)
  }

  /** One `project` child of `assignedProjects`: the id and the title, which is set unchecked. */
  function AssignedProject(p: Project): (r: Option<Element>)
    ensures r.Some? <==> p.title.Some?
    ensures r.Some? ==> r.value == Node("project", [Attribute("id", IntToString(p.id)), Attribute("title", p.title.value)], [])
  {
    match SetAttribute("title", p.title)
    case None => None
    case Some(title) => Some(Node("project", [Attribute("id", IntToString(p.id)), title], []))
  }

  /** An assigned project, looked up by attribute name, gives back the project's id and title. */
  lemma AssignedProjectReadBack(p: Project)
    requires AssignedProject(p).Some?
    ensures AttributeValue(AssignedProject(p).value.attributes, "title") == p.title
    ensures AttributeValue(AssignedProject(p).value.attributes, "id").Some?
    ensures ParseInt(AttributeValue(AssignedProject(p).value.attributes, "id").value) == Some(p.id)
  {
    var attributes := AssignedProject(p).value.attributes;
    assert attributes[1..] == [Attribute("title", p.title.value)];
    assert AttributeValue(attributes[1..], "title") == p.title;
    ParseIntToString(p.id);
  }

  /** The `assignedProjects` child: one `project` per project of the user, in order. */
  function AssignedProjects(projects: seq<Project>): (r: Option<Element>)
    ensures r.Some? <==> forall i :: 0 <= i < |projects| ==> projects[i].title.Some?
    ensures r.Some? ==> r.value.name == "assignedProjects" && r.value.attributes == []
    ensures r.Some? ==> |r.value.children| == |projects|
    ensures r.Some? ==> forall i :: 0 <= i < |projects| ==> r.value.children[i] == AssignedProject(projects[i]).value
  {
    var built := seq(|projects|, i requires 0 <= i < |projects| => AssignedProject(projects[i]));
    assert forall i :: 0 <= i < |projects| ==> (built[i].Some? <==> projects[i].title.Some?);
    match AllSome(built)
    case None => None
    case Some(children) => Some(Node("assignedProjects", [], children))
  }

  /** The children of a `user` element, before the null checks. */
  function UserChildren(u: User, opts: ExportOptions, v: Variant): seq<Option<Element>> {
    (if opts.projectAssignments then [AssignedProjects(u.projects)] else [])
    + (if v.GoobiToGoobi? then [InstitutionSummary(u.institution)] else [])
  }

  /**
   * `createUserElement`: the attributes, then `assignedProjects` when
   * project assignments are exported, then (goobi-to-goobi only) the
   * institution. `None` when a null reaches `setAttribute`, which aborts
   * the whole export.
   */
  function UserElement(u: User, opts: ExportOptions, v: Variant): (r: Option<Element>)
    ensures r.Some? ==> r.value.name == "user" && r.value.namespace == LogfileNamespace && r.value.text == ""
  {
    var attributes := UserAttributes(u, opts.createNewPasswords, v);
    var children := AllSome(UserChildren(u, opts, v));
    if attributes.Some? && children.Some? then Some(Node("user", attributes.value, children.value)) else None
  }

  /** When `createUserElement` completes: no null reaches `setAttribute`. */
  predicate UserExportable(u: User, opts: ExportOptions, v: Variant) {
    && (opts.createNewPasswords || u.encryptedPassword.Some?)
    && (u.ldapGroup.Some? ==> u.ldapGroup.value.title.Some?)
    && (opts.projectAssignments ==> forall i :: 0 <= i < |u.projects| ==> u.projects[i].title.Some?)
    && (v.GoobiToGoobi? ==> u.institution.shortName.Some? && u.institution.longName.Some?)
  }

  const LeadingNames: seq<string> := ["id", "firstname", "lastname", "login", "ldaplogin", "active"]

  function VisibleNames(v: Variant): seq<string> {
    if v.DataExport? then ["visible"] else []
  }

  const MiddleNames: seq<string> := [
    "place", "tablesize", "sessionlength", "metadatalanguage", "massdownload", "ldapgroup",
    "css", "email", "shortcut", "password", "salt"]

  const SwitchNames: seq<string> := [
    "displayDeactivatedProjects", "displayFinishedProcesses", "displaySelectBoxes",
    "displayIdColumn", "displayBatchColumn", "displayProcessDateColumn", "displayLocksColumn",
    "displaySwappingColumn", "displayModulesColumn", "displayMetadataColumn",
    "displayThumbColumn", "displayGridView", "displayAutomaticTasks", "hideCorrectionTasks",
    "displayOnlySelectedTasks", "displayOnlyOpenTasks", "displayOtherTasks",
    "metsDisplayTitle", "metsLinkImage", "metsDisplayPageAssignments", "metsDisplayHierarchy",
    "metsDisplayProcessID"]

  const TrailingNames: seq<string> := ["metsEditorTime", "customColumns", "customCss"]

  /** The attribute names of a `user` element, in the order they are set. */
  function UserAttributeNames(v: Variant): seq<string> {
    LeadingNames + VisibleNames(v) + MiddleNames + SwitchNames + TrailingNames
  }

  /** Only two attributes can be null: the LDAP group's title and the kept password hash. */
  lemma FieldValueAbsent(u: User, createNewPasswords: bool, f: UserField)
    ensures FieldValue(u, createNewPasswords, f).None? <==>
      || (f.Password? && !createNewPasswords && u.encryptedPassword.None?)
      || (f.LdapGroup? && u.ldapGroup.Some? && u.ldapGroup.value.title.None?)
  {
  }

  /** Where the password and LDAP group attributes sit among a user's attributes. */
  function PasswordPosition(v: Variant): (k: nat)
    ensures k + 1 < |UserFieldOrder(v)|
    ensures UserFieldOrder(v)[k] == Password && UserFieldOrder(v)[k + 1] == Salt
  {
    if v.DataExport? then 16 else 15
  }

  function LdapGroupPosition(v: Variant): (k: nat)
    ensures k < |UserFieldOrder(v)| && UserFieldOrder(v)[k] == LdapGroup
  {
    if v.DataExport? then 12 else 11
  }

  /** The attribute list is complete exactly when the password check and the LDAP group check pass. */
  lemma UserAttributesPresent(u: User, createNewPasswords: bool, v: Variant)
    ensures UserAttributes(u, createNewPasswords, v).Some? <==>
      && (createNewPasswords || u.encryptedPassword.Some?)
      && (u.ldapGroup.Some? ==> u.ldapGroup.value.title.Some?)
  {
    var order := UserFieldOrder(v);
    FieldValueAbsent(u, createNewPasswords, order[PasswordPosition(v)]);
    FieldValueAbsent(u, createNewPasswords, order[LdapGroupPosition(v)]);
    if (createNewPasswords || u.encryptedPassword.Some?) && (u.ldapGroup.Some? ==> u.ldapGroup.value.title.Some?) {
      forall i | 0 <= i < |order| ensures FieldValue(u, createNewPasswords, order[i]).Some? {
        FieldValueAbsent(u, createNewPasswords, order[i]);
      }
    }
  }

  /** `createUserElement` completes exactly for the exportable users. */
  lemma UserElementExportable(u: User, opts: ExportOptions, v: Variant)
    ensures UserElement(u, opts, v).Some? <==> UserExportable(u, opts, v)
  {
    UserAttributesPresent(u, opts.createNewPasswords, v);
    var children := UserChildren(u, opts, v);
    if opts.projectAssignments {
      assert children[0] == AssignedProjects(u.projects);
    }
    if v.GoobiToGoobi? {
      assert children[|children| - 1] == InstitutionSummary(u.institution);
    }
  }

  /** The attribute at position `k` is the `k`-th field of the order, with its value. */
  lemma AttributeAt(u: User, opts: ExportOptions, v: Variant, k: nat)
    requires UserExportable(u, opts, v)
    requires k < |UserFieldOrder(v)|
    ensures UserElement(u, opts, v).Some?
    ensures k < |UserElement(u, opts, v).value.attributes|
    ensures UserElement(u, opts, v).value.attributes[k] ==
      Attribute(FieldName(UserFieldOrder(v)[k]), FieldValue(u, opts.createNewPasswords, UserFieldOrder(v)[k]).value)
  {
    UserElementExportable(u, opts, v);
  }

  /** Every field of the attribute order is written with its value. */
  lemma FieldWritten(u: User, opts: ExportOptions, v: Variant, f: UserField)
    requires UserExportable(u, opts, v)
    requires f in UserFieldOrder(v)
    ensures UserElement(u, opts, v).Some?
    ensures FieldValue(u, opts.createNewPasswords, f).Some?
    ensures Attribute(FieldName(f), FieldValue(u, opts.createNewPasswords, f).value) in UserElement(u, opts, v).value.attributes
  {
    UserElementExportable(u, opts, v);
    var k :| 0 <= k < |UserFieldOrder(v)| && UserFieldOrder(v)[k] == f;
    assert UserElement(u, opts, v).value.attributes[k] == Attribute(FieldName(f), FieldValue(u, opts.createNewPasswords, f).value);
  }

  /**
   * With `createNewPasswords` the password and salt attributes are empty;
   * otherwise they carry the stored hash and the salt as
   * `String.valueOf` renders it ("null" for a missing salt).
   */
  lemma PasswordAttributes(u: User, opts: ExportOptions, v: Variant)
    requires UserExportable(u, opts, v)
    ensures UserElement(u, opts, v).Some?
    ensures var attributes := UserElement(u, opts, v).value.attributes;
      && Attribute("password", if opts.createNewPasswords then "" else u.encryptedPassword.value) in attributes
      && Attribute("salt", if opts.createNewPasswords then "" else ValueOf(u.passwordSalt)) in attributes
  {
    FieldWritten(u, opts, v, Password);
    FieldWritten(u, opts, v, Salt);
  }

  /** The `ldapgroup` attribute is "" for a user without an LDAP group, else the group's title. */
  lemma LdapGroupAttribute(u: User, opts: ExportOptions, v: Variant)
    requires UserExportable(u, opts, v)
    ensures UserElement(u, opts, v).Some?
    ensures Attribute("ldapgroup", if u.ldapGroup.None? then "" else u.ldapGroup.value.title.value)
      in UserElement(u, opts, v).value.attributes
  {
    FieldWritten(u, opts, v, LdapGroup);
  }

  /** Every nullable text field is written as its attribute: "" when null, the value itself (whitespace included) otherwise. */
  lemma UserTextsFlattened(u: User, opts: ExportOptions, v: Variant, t: UserText)
    requires UserExportable(u, opts, v)
    requires t.Visible? ==> v.DataExport?
    ensures UserElement(u, opts, v).Some?
    ensures Attribute(TextAttributeName(t), OrEmpty(u.Text(t))) in UserElement(u, opts, v).value.attributes
  {
    FieldWritten(u, opts, v, Text(t));
  }

  /** The `j`-th switch is written at its place in the order. */
  lemma SwitchAttributeAt(u: User, opts: ExportOptions, v: Variant, j: nat)
    requires UserExportable(u, opts, v)
    requires j < |SwitchOrder|
    ensures UserElement(u, opts, v).Some?
    ensures Attribute(SwitchAttributeName(SwitchOrder[j]), BoolToString(SwitchOrder[j] in u.switchedOn))
      in UserElement(u, opts, v).value.attributes
  {
    var s := SwitchOrder[j];
    var order := UserFieldOrder(v);
    var k := |order| - |SwitchFields()| - 3 + j;
    assert order[k] == SwitchFields()[j] == Switch(s);
    AttributeAt(u, opts, v, k);
    assert FieldName(Switch(s)) == SwitchAttributeName(s);
    assert FieldValue(u, opts.createNewPasswords, Switch(s)) == Some(BoolToString(s in u.switchedOn));
  }

  /** Every display and METS switch is written as "true" or "false". */
  lemma SwitchesWritten(u: User, opts: ExportOptions, v: Variant, s: UserSwitch)
    requires UserExportable(u, opts, v)
    ensures UserElement(u, opts, v).Some?
    ensures Attribute(SwitchAttributeName(s), BoolToString(s in u.switchedOn)) in UserElement(u, opts, v).value.attributes
  {
    EverySwitchListed(s);
    var j :| 0 <= j < |SwitchOrder| && SwitchOrder[j] == s;
    SwitchAttributeAt(u, opts, v, j);
  }

  /** Maps a list of fields to their attribute names. */
  function FieldNames(fields: seq<UserField>): (r: seq<string>)
    ensures |r| == |fields|
    ensures forall i :: 0 <= i < |fields| ==> r[i] == FieldName(fields[i])
  {
    seq(|fields|, i requires 0 <= i < |fields| => FieldName(fields[i]))
  }

  lemma FieldNamesAppend(a: seq<UserField>, b: seq<UserField>)
    ensures FieldNames(a + b) == FieldNames(a) + FieldNames(b)
  {
  }

  lemma LeadingNamesMatch()
    ensures FieldNames(LeadingFields) == LeadingNames
  {
    var names := FieldNames(LeadingFields);
    assert forall i :: 0 <= i < |names| ==> names[i] == LeadingNames[i];
  }

  lemma VisibleNamesMatch(v: Variant)
    ensures FieldNames(VisibleFields(v)) == VisibleNames(v)
  {
    var names := FieldNames(VisibleFields(v));
    assert forall i :: 0 <= i < |names| ==> names[i] == VisibleNames(v)[i];
  }

  lemma MiddleNamesMatch()
    ensures FieldNames(MiddleFields) == MiddleNames
  {
    var names := FieldNames(MiddleFields);
    assert forall i :: 0 <= i < |names| ==> names[i] == MiddleNames[i];
  }

  lemma DisplaySwitchNamesMatch()
    ensures forall i :: 0 <= i < 11 ==> SwitchAttributeName(SwitchOrder[i]) == SwitchNames[i]
  {
  }

  lemma TaskSwitchNamesMatch()
    ensures forall i :: 11 <= i < 17 ==> SwitchAttributeName(SwitchOrder[i]) == SwitchNames[i]
  {
  }

  lemma MetsSwitchNamesMatch()
    ensures forall i :: 17 <= i < 22 ==> SwitchAttributeName(SwitchOrder[i]) == SwitchNames[i]
  {
  }

  lemma SwitchNamesMatch()
    ensures FieldNames(SwitchFields()) == SwitchNames
  {
    var names := FieldNames(SwitchFields());
    DisplaySwitchNamesMatch();
    TaskSwitchNamesMatch();
    MetsSwitchNamesMatch();
    assert forall i :: 0 <= i < |names| ==> names[i] == SwitchAttributeName(SwitchOrder[i]);
  }

  lemma TrailingNamesMatch()
    ensures FieldNames(TrailingFields) == TrailingNames
  {
    var names := FieldNames(TrailingFields);
    assert forall i :: 0 <= i < |names| ==> names[i] == TrailingNames[i];
  }

  /** The field table names the attributes as the source writes them. */
  lemma FieldNamesMatch(v: Variant)
    ensures FieldNames(UserFieldOrder(v)) == UserAttributeNames(v)
  {
    FieldNamesAppend(LeadingFields + VisibleFields(v) + MiddleFields + SwitchFields(), TrailingFields);
    FieldNamesAppend(LeadingFields + VisibleFields(v) + MiddleFields, SwitchFields());
    FieldNamesAppend(LeadingFields + VisibleFields(v), MiddleFields);
    FieldNamesAppend(LeadingFields, VisibleFields(v));
    LeadingNamesMatch();
    VisibleNamesMatch(v);
    MiddleNamesMatch();
    SwitchNamesMatch();
    TrailingNamesMatch();
  }

  /** A `user` element carries its attributes in the source's order: 42 in goobi-to-goobi, 43 with `visible` in the database export. */
  lemma UserAttributesInOrder(u: User, opts: ExportOptions, v: Variant)
    requires UserExportable(u, opts, v)
    ensures UserElement(u, opts, v).Some?
    ensures AttributeNames(UserElement(u, opts, v).value) == UserAttributeNames(v)
  {
    UserElementExportable(u, opts, v);
    FieldNamesMatch(v);
    var names := AttributeNames(UserElement(u, opts, v).value);
    assert forall i :: 0 <= i < |names| ==> names[i] == FieldNames(UserFieldOrder(v))[i];
  }

  lemma NoVisibleAmongSharedNames()
    ensures "visible" !in LeadingNames && "visible" !in MiddleNames && "visible" !in TrailingNames
  {
  }

  lemma NoVisibleAmongSwitchNames()
    ensures "visible" !in SwitchNames
  {
  }

  lemma NoVisibleInGoobiToGoobi()
    ensures "visible" !in UserAttributeNames(GoobiToGoobi)
  {
    NoVisibleAmongSharedNames();
    NoVisibleAmongSwitchNames();
    assert UserAttributeNames(GoobiToGoobi) == LeadingNames + MiddleNames + SwitchNames + TrailingNames;
  }

  lemma VisibleNamedOnlyInDataExport(v: Variant)
    ensures "visible" in UserAttributeNames(v) <==> v.DataExport?
  {
    if v.DataExport? {
      assert "visible" in VisibleNames(v);
    } else {
      NoVisibleInGoobiToGoobi();
    }
  }

  /** Only the database export plugin writes a `visible` attribute. */
  lemma VisibleOnlyInDataExport(u: User, opts: ExportOptions, v: Variant)
    requires UserExportable(u, opts, v)
    ensures UserElement(u, opts, v).Some?
    ensures "visible" in AttributeNames(UserElement(u, opts, v).value) <==> v.DataExport?
  {
    UserAttributesInOrder(u, opts, v);
    VisibleNamedOnlyInDataExport(v);
  }

  /**
   * The children of a `user` element: `assignedProjects` exactly when
   * project assignments are exported, then (goobi-to-goobi only) exactly
   * one `institution`, last.
   */
  lemma UserChildLayout(u: User, opts: ExportOptions, v: Variant)
    requires UserExportable(u, opts, v)
    ensures UserElement(u, opts, v).Some?
    ensures ChildNames(UserElement(u, opts, v).value) ==
      (if opts.projectAssignments then ["assignedProjects"] else []) + (if v.GoobiToGoobi? then ["institution"] else [])
    ensures opts.projectAssignments ==> UserElement(u, opts, v).value.children[0] == AssignedProjects(u.projects).value
    ensures v.GoobiToGoobi? ==>
      var children := UserElement(u, opts, v).value.children;
      |children| > 0 && children[|children| - 1] == InstitutionSummary(u.institution).value
  {
    UserElementExportable(u, opts, v);
    var built := UserChildren(u, opts, v);
    var children := UserElement(u, opts, v).value.children;
    assert |children| == |built|;
    if opts.projectAssignments {
      assert built[0] == AssignedProjects(u.projects);
    }
    if v.GoobiToGoobi? {
      assert built[|built| - 1] == InstitutionSummary(u.institution);
    }
    var expected := (if opts.projectAssignments then ["assignedProjects"] else []) + (if v.GoobiToGoobi? then ["institution"] else []);
    assert forall i :: 0 <= i < |children| ==> ChildNames(UserElement(u, opts, v).value)[i] == expected[i];
  }

  // ---------------------------------------------------------------- the users section

  /** The users the `users` section lists: every user with `includeInactiveUser`, else the active ones, in order. */
  function RetainedUsers(users: seq<User>, includeInactiveUser: bool): (r: seq<User>)
    ensures |r| <= |users|
    ensures forall x :: x in r <==> x in users && (includeInactiveUser || x.active)
  {
    if |users| == 0 then []
    else
      assert forall x :: x in users <==> x == users[0] || x in users[1..];
      (if includeInactiveUser || users[0].active then [users[0]] else []) + RetainedUsers(users[1..], includeInactiveUser)
  }

  /** Adding one to every entry of a list of positions. */
  function Shifted(positions: seq<nat>): (r: seq<nat>)
    ensures |r| == |positions|
    ensures forall i :: 0 <= i < |positions| ==> r[i] == positions[i] + 1
  {
    seq(|positions|, i requires 0 <= i < |positions| => positions[i] + 1)
  }

  lemma ShiftedMembers(positions: seq<nat>, k: nat)
    ensures k in Shifted(positions) <==> k >= 1 && k - 1 in positions
  {
    var r := Shifted(positions);
    if k in r {
      var i :| 0 <= i < |r| && r[i] == k;
      assert positions[i] == k - 1;
    }
    if k >= 1 && k - 1 in positions {
      var i :| 0 <= i < |positions| && positions[i] == k - 1;
      assert r[i] == k;
    }
  }

  /** The positions of the retained users in the input: increasing, and exactly those of the users the filter keeps. */
  function RetainedPositions(users: seq<User>, includeInactiveUser: bool): (idx: seq<nat>)
    ensures forall i :: 0 <= i < |idx| ==> idx[i] < |users|
    ensures forall i, j :: 0 <= i < j < |idx| ==> idx[i] < idx[j]
    ensures forall k :: 0 <= k < |users| ==> (k in idx <==> includeInactiveUser || users[k].active)
  {
    if |users| == 0 then []
    else
      var rest := RetainedPositions(users[1..], includeInactiveUser);
      var head: seq<nat> := if includeInactiveUser || users[0].active then [0] else [];
      RetainedPositionsStep(users, includeInactiveUser, rest, head);
      head + Shifted(rest)
  }

  lemma RetainedPositionsStep(users: seq<User>, includeInactiveUser: bool, rest: seq<nat>, head: seq<nat>)
    requires |users| > 0
    requires forall i :: 0 <= i < |rest| ==> rest[i] < |users| - 1
    requires forall i, j :: 0 <= i < j < |rest| ==> rest[i] < rest[j]
    requires forall k :: 0 <= k < |users| - 1 ==> (k in rest <==> includeInactiveUser || users[1..][k].active)
    requires head == if includeInactiveUser || users[0].active then [0] else []
    ensures var idx := head + Shifted(rest);
      && (forall i :: 0 <= i < |idx| ==> idx[i] < |users|)
      && (forall i, j :: 0 <= i < j < |idx| ==> idx[i] < idx[j])
      && (forall k :: 0 <= k < |users| ==> (k in idx <==> includeInactiveUser || users[k].active))
  {
    var idx := head + Shifted(rest);
    forall k | 0 <= k < |users| ensures k in idx <==> includeInactiveUser || users[k].active {
      ShiftedMembers(rest, k);
      if k > 0 {
        assert users[1..][k - 1] == users[k];
      }
    }
  }

  /** One step of the order proof: prepending the first user (if kept) to the rest. */
  lemma PrependStep(users: seq<User>, kept: bool, restUsers: seq<User>, rest: seq<nat>)
    requires |users| > 0
    requires |restUsers| == |rest|
    requires forall i :: 0 <= i < |rest| ==> rest[i] < |users| - 1 && restUsers[i] == users[1..][rest[i]]
    ensures var r := (if kept then [users[0]] else []) + restUsers;
      var idx := (if kept then [0] else []) + Shifted(rest);
      && |r| == |idx|
      && forall i :: 0 <= i < |r| ==> idx[i] < |users| && r[i] == users[idx[i]]
  {
    var r := (if kept then [users[0]] else []) + restUsers;
    var idx := (if kept then [0] else []) + Shifted(rest);
    var h := if kept then 1 else 0;
    forall i | 0 <= i < |r| ensures idx[i] < |users| && r[i] == users[idx[i]] {
      if i >= h {
        assert r[i] == restUsers[i - h];
        assert idx[i] == Shifted(rest)[i - h] == rest[i - h] + 1;
        assert users[1..][rest[i - h]] == users[rest[i - h] + 1];
      }
    }
  }

  /**
   * The `users` section keeps the input order: the `i`-th listed user is
   * the user at the `i`-th retained position.
   */
  lemma {:induction false} RetainedUsersInOrder(users: seq<User>, includeInactiveUser: bool)
    ensures |RetainedUsers(users, includeInactiveUser)| == |RetainedPositions(users, includeInactiveUser)|
    ensures forall i :: 0 <= i < |RetainedUsers(users, includeInactiveUser)| ==>
      RetainedUsers(users, includeInactiveUser)[i] == users[RetainedPositions(users, includeInactiveUser)[i]]
    decreases |users|
  {
    if |users| > 0 {
      RetainedUsersInOrder(users[1..], includeInactiveUser);
      var kept := includeInactiveUser || users[0].active;
      var restUsers := RetainedUsers(users[1..], includeInactiveUser);
      var rest := RetainedPositions(users[1..], includeInactiveUser);
      assert RetainedUsers(users, includeInactiveUser) == (if kept then [users[0]] else []) + restUsers;
      assert RetainedPositions(users, includeInactiveUser) == (if kept then [0] else []) + Shifted(rest);
      PrependStep(users, kept, restUsers, rest);
    }
  }

  /**
   * The `users` section: one `user` element per retained user, in input
   * order; `None` when one of them cannot be built.
   */
  function UsersSection(users: seq<User>, opts: ExportOptions, v: Variant): (r: Option<Element>)
    ensures r.Some? ==> r.value.name == "users" && r.value.namespace == LogfileNamespace && r.value.attributes == []
    ensures r.Some? ==> |r.value.children| == |RetainedUsers(users, opts.includeInactiveUser)|
    ensures r.Some? ==> forall i :: 0 <= i < |r.value.children| ==>
      UserElement(RetainedUsers(users, opts.includeInactiveUser)[i], opts, v) == Some(r.value.children[i])
  {
    var kept := RetainedUsers(users, opts.includeInactiveUser);
    var built := UserElements(kept, opts, v);
    match AllSome(built)
    case None => None
    case Some(children) => Some(Node("users", [], children))
  }

  function UserElements(users: seq<User>, opts: ExportOptions, v: Variant): (r: seq<Option<Element>>)
    ensures |r| == |users| && forall i :: 0 <= i < |users| ==> r[i] == UserElement(users[i], opts, v)
  {
    seq(|users|, i requires 0 <= i < |users| => UserElement(users[i], opts, v))
  }

  /** The elements of a list of users can all be built exactly when every one of the users is exportable. */
  lemma UserElementsBuilt(kept: seq<User>, opts: ExportOptions, v: Variant)
    ensures AllSome(UserElements(kept, opts, v)).Some? <==> forall i :: 0 <= i < |kept| ==> UserExportable(kept[i], opts, v)
  {
    var built := UserElements(kept, opts, v);
    forall i | 0 <= i < |kept| ensures built[i].Some? <==> UserExportable(kept[i], opts, v) {
      UserElementExportable(kept[i], opts, v);
    }
  }

  /** The section is built exactly when every retained user can be. */
  lemma UsersSectionBuilt(users: seq<User>, opts: ExportOptions, v: Variant)
    ensures var kept := RetainedUsers(users, opts.includeInactiveUser);
      UsersSection(users, opts, v).Some? <==> forall i :: 0 <= i < |kept| ==> UserExportable(kept[i], opts, v)
  {
    var kept := RetainedUsers(users, opts.includeInactiveUser);
    UsersSectionOfElements(users, opts, v);
    UserElementsBuilt(kept, opts, v);
  }

  lemma UsersSectionOfElements(users: seq<User>, opts: ExportOptions, v: Variant)
    ensures UsersSection(users, opts, v).Some? <==> AllSome(UserElements(RetainedUsers(users, opts.includeInactiveUser), opts, v)).Some?
  {
  }

  /** The section is built exactly when every user the filter keeps is exportable; filtered-out users do not matter. */
  lemma UsersSectionExportable(users: seq<User>, opts: ExportOptions, v: Variant)
    ensures UsersSection(users, opts, v).Some? <==>
      forall u :: u in users && (opts.includeInactiveUser || u.active) ==> UserExportable(u, opts, v)
  {
    var kept := RetainedUsers(users, opts.includeInactiveUser);
    UsersSectionBuilt(users, opts, v);
    if UsersSection(users, opts, v).Some? {
      forall u | u in users && (opts.includeInactiveUser || u.active) ensures UserExportable(u, opts, v) {
        assert u in kept;
        var i :| 0 <= i < |kept| && kept[i] == u;
      }
    }
  }

  /** The `i`-th `user` element describes the user at the `i`-th retained position of the input. */
  lemma UsersSectionInOrder(users: seq<User>, opts: ExportOptions, v: Variant)
    requires UsersSection(users, opts, v).Some?
    ensures |UsersSection(users, opts, v).value.children| == |RetainedPositions(users, opts.includeInactiveUser)|
    ensures forall i :: 0 <= i < |RetainedPositions(users, opts.includeInactiveUser)| ==>
      UserElement(users[RetainedPositions(users, opts.includeInactiveUser)[i]], opts, v)
        == Some(UsersSection(users, opts, v).value.children[i])
  {
    RetainedUsersInOrder(users, opts.includeInactiveUser);
  }
}

=== FILE: usergroup_export.dfy ===
/**
 * The `userGroups` section: one `usergroup` per user group with its role
 * names, optionally its member users, and (goobi-to-goobi only) its
 * institution.
 */
module UsergroupExport {
  import opened Wrappers
  import opened JavaText
  import opened Xml
  import opened Beans
  import opened Settings
  import opened InstitutionExport

  /** One member of `assignedUsers`: id, login (set unchecked) and the "last, first" display name. */
  function AssignedUser(u: User): (r: Option<Element>)
    ensures r.Some? <==> u.login.Some?
    ensures r.Some? ==> r.value.name == "user" && r.value.children == [] && |r.value.attributes| == 3
  {
    match SetAttribute("login", u.login)
    case None => None
    case Some(login) => Some(Node("user", [Attribute("id", IntToString(u.id)), login, Attribute("name", u.lastFirstName)], []))
  }

  /** The `assignedUsers` child: one `user` per member, in order. */
  function AssignedUsers(users: seq<User>): (r: Option<Element>)
    ensures r.Some? <==> forall i :: 0 <= i < |users| ==> users[i].login.Some?
    ensures r.Some? ==> r.value.name == "assignedUsers" && r.value.attributes == []
    ensures r.Some? ==> |r.value.children| == |users|
    ensures r.Some? ==> forall i :: 0 <= i < |users| ==> AssignedUser(users[i]) == Some(r.value.children[i])
  {
    var built := seq(|users|, i requires 0 <= i < |users| => AssignedUser(users[i]));
    assert forall i :: 0 <= i < |users| ==> (built[i].Some? <==> users[i].login.Some?);
    match AllSome(built)
    case None => None
    case Some(children) => Some(Node("assignedUsers", [], children))
  }

  /** The optional children that follow the roles, before the null checks. */
  function TrailingChildren(g: Usergroup, opts: ExportOptions, v: Variant): seq<Option<Element>> {
    (if opts.usergroupAssignments then [AssignedUsers(g.users)] else [])
    + (if v.GoobiToGoobi? then [InstitutionSummary(g.institution)] else [])
  }

  /**
   * One `usergroup` element: the id, the title (set unchecked) and the
   * access level; a `role` child per role; then `assignedUsers` when
   * user-group assignments are exported; then (goobi-to-goobi only) the
   * institution.
   */
  function UsergroupElement(g: Usergroup, opts: ExportOptions, v: Variant): (r: Option<Element>)
    ensures r.Some? ==> r.value.name == "usergroup" && r.value.namespace == LogfileNamespace
    ensures r.Some? ==> g.title.Some? && r.value.attributes == [
      Attribute("id", IntToString(g.id)), Attribute("name", g.title.value), Attribute("accessLevel", g.accessLevel)]
  {
    var title := SetAttribute("name", g.title);
    var trailing := AllSome(TrailingChildren(g, opts, v));
    if title.Some? && trailing.Some? then
      Some(Node("usergroup", [Attribute("id", IntToString(g.id)), title.value, Attribute("accessLevel", g.accessLevel)],
        TextNodes("role", g.roles) + trailing.value))
    else None
  }

  /** When a user group's element can be built: no null reaches `setAttribute`. */
  predicate UsergroupExportable(g: Usergroup, opts: ExportOptions, v: Variant) {
    && g.title.Some?
    && (opts.usergroupAssignments ==> forall i :: 0 <= i < |g.users| ==> g.users[i].login.Some?)
    && (v.GoobiToGoobi? ==> g.institution.shortName.Some? && g.institution.longName.Some?)
  }

  lemma UsergroupElementExportable(g: Usergroup, opts: ExportOptions, v: Variant)
    ensures UsergroupElement(g, opts, v).Some? <==> UsergroupExportable(g, opts, v)
  {
    var trailing := TrailingChildren(g, opts, v);
    if opts.usergroupAssignments {
      assert trailing[0] == AssignedUsers(g.users);
    }
    if v.GoobiToGoobi? {
      assert trailing[|trailing| - 1] == InstitutionSummary(g.institution);
    }
  }

  /**
   * The children are a `role` per role, then `assignedUsers` exactly when
   * user-group assignments are exported, then `institution` exactly in
   * the goobi-to-goobi export, carrying the institution's summary.
   */
  lemma UsergroupChildLayout(g: Usergroup, opts: ExportOptions, v: Variant)
    requires UsergroupElement(g, opts, v).Some?
    ensures ChildNames(UsergroupElement(g, opts, v).value) ==
      Repeat("role", |g.roles|)
      + (if opts.usergroupAssignments then ["assignedUsers"] else [])
      + (if v.GoobiToGoobi? then ["institution"] else [])
    ensures opts.usergroupAssignments ==>
      AssignedUsers(g.users) == Some(UsergroupElement(g, opts, v).value.children[|g.roles|])
    ensures v.GoobiToGoobi? ==>
      var children := UsergroupElement(g, opts, v).value.children;
      |children| > 0 && InstitutionSummary(g.institution) == Some(children[|children| - 1])
  {
    var built := TrailingChildren(g, opts, v);
    var trailing := AllSome(built).value;
    var children := UsergroupElement(g, opts, v).value.children;
    assert children == TextNodes("role", g.roles) + trailing;
    if opts.usergroupAssignments {
      assert built[0] == AssignedUsers(g.users);
    }
    if v.GoobiToGoobi? {
      assert built[|built| - 1] == InstitutionSummary(g.institution);
    }
    NamesOfTextNodes("role", g.roles);
    NamesAppend(TextNodes("role", g.roles), trailing);
    var expected := (if opts.usergroupAssignments then ["assignedUsers"] else []) + (if v.GoobiToGoobi? then ["institution"] else []);
    assert Names(trailing) == expected;
  }

  /** Reading the `role` children back gives exactly the roles, in order: one element per role. */
  lemma UsergroupRolesReadBack(g: Usergroup, opts: ExportOptions, v: Variant)
    requires UsergroupElement(g, opts, v).Some?
    ensures TextsNamed(UsergroupElement(g, opts, v).value.children, "role") == g.roles
  {
    var built := TrailingChildren(g, opts, v);
    var trailing := AllSome(built).value;
    TextsNamedAppend(TextNodes("role", g.roles), trailing, "role");
    TextsNamedOfTextNodes("role", g.roles, "role");
    if opts.usergroupAssignments {
      assert built[0] == AssignedUsers(g.users);
    }
    if v.GoobiToGoobi? {
      assert built[|built| - 1] == InstitutionSummary(g.institution);
    }
    assert forall i :: 0 <= i < |trailing| ==> trailing[i].name != "role";
    TextsNamedOfOthers(trailing, "role");
  }

  /** Each member element, looked up by attribute name, gives back the member's id and login. */
  lemma AssignedUserReadBack(u: User)
    requires AssignedUser(u).Some?
    ensures AttributeValue(AssignedUser(u).value.attributes, "login") == u.login
    ensures AttributeValue(AssignedUser(u).value.attributes, "id").Some?
    ensures ParseInt(AttributeValue(AssignedUser(u).value.attributes, "id").value) == Some(u.id)
    ensures AttributeValue(AssignedUser(u).value.attributes, "name") == Some(u.lastFirstName)
  {
    var attributes := AssignedUser(u).value.attributes;
    assert attributes == [Attribute("id", IntToString(u.id)), Attribute("login", u.login.value), Attribute("name", u.lastFirstName)];
    assert attributes[1..][1..] == [Attribute("name", u.lastFirstName)];
    assert AttributeValue(attributes[1..][1..], "name") == Some(u.lastFirstName);
    assert AttributeValue(attributes[1..], "name") == Some(u.lastFirstName);
    ParseIntToString(u.id);
  }

  function UsergroupElements(groups: seq<Usergroup>, opts: ExportOptions, v: Variant): (r: seq<Option<Element>>)
    ensures |r| == |groups| && forall i :: 0 <= i < |groups| ==> r[i] == UsergroupElement(groups[i], opts, v)
  {
    seq(|groups|, i requires 0 <= i < |groups| => UsergroupElement(groups[i], opts, v))
  }

  /** The `userGroups` section: one `usergroup` per user group, in order. */
  function UsergroupsSection(groups: seq<Usergroup>, opts: ExportOptions, v: Variant): (r: Option<Element>)
    ensures r.Some? ==> r.value.name == "userGroups" && r.value.namespace == LogfileNamespace && r.value.attributes == []
    ensures r.Some? ==> |r.value.children| == |groups|
    ensures r.Some? ==> forall i :: 0 <= i < |groups| ==> UsergroupElement(groups[i], opts, v) == Some(r.value.children[i])
  {
    var built := UsergroupElements(groups, opts, v);
    match AllSome(built)
    case None => None
    case Some(children) => Some(Node("userGroups", [], children))
  }

  lemma UsergroupsSectionExportable(groups: seq<Usergroup>, opts: ExportOptions, v: Variant)
    ensures UsergroupsSection(groups, opts, v).Some? <==> forall i :: 0 <= i < |groups| ==> UsergroupExportable(groups[i], opts, v)
  {
    var built := UsergroupElements(groups, opts, v);
    forall i | 0 <= i < |groups| ensures built[i].Some? <==> UsergroupExportable(groups[i], opts, v) {
      UsergroupElementExportable(groups[i], opts, v);
    }
    assert UsergroupsSection(groups, opts, v).Some? <==> AllSome(built).Some?;
  }
}

=== FILE: vocabulary.dfy ===
/**
 * Properties of the whole tree: every element of an export document is
 * in the logfile namespace, and the database export plugin never writes
 * an `institution` element anywhere.
 */
module Vocabulary {
  import opened Wrappers
  import opened Timestamps
  import opened Xml
  import opened Beans
  import opened Settings
  import opened LdapExport
  import opened InstitutionExport
  import opened UserExport
  import opened UsergroupExport
  import opened ProjectExport
  import opened Document

  /** The two whole-tree properties: namespace everywhere, and no `institution` in the database export. */
  predicate Shaped(e: Element, v: Variant) {
    InNamespace(e, LogfileNamespace) && (v.DataExport? ==> Avoids(e, "institution"))
  }

  predicate AllShaped(es: seq<Element>, v: Variant) {
    forall i :: 0 <= i < |es| ==> Shaped(es[i], v)
  }

  lemma NodeShaped(name: string, attributes: seq<Attribute>, children: seq<Element>, v: Variant)
    requires AllShaped(children, v)
    requires v.DataExport? ==> name != "institution"
    ensures Shaped(Node(name, attributes, children), v)
  {
  }

  lemma AllShapedAppend(a: seq<Element>, b: seq<Element>, v: Variant)
    requires AllShaped(a, v) && AllShaped(b, v)
    ensures AllShaped(a + b, v)
  {
  }

  lemma TextNodesShaped(name: string, texts: seq<string>, v: Variant)
    requires v.DataExport? ==> name != "institution"
    ensures AllShaped(TextNodes(name, texts), v)
  {
  }

  lemma ContainerShaped(name: string, built: seq<Option<Element>>, v: Variant)
    requires Container(name, built).Some?
    requires forall i :: 0 <= i < |built| ==> built[i].Some? ==> Shaped(built[i].value, v)
    requires v.DataExport? ==> name != "institution"
    ensures Shaped(Container(name, built).value, v)
  {
    var e := Container(name, built).value;
    assert forall i :: 0 <= i < |e.children| ==> Shaped(e.children[i], v);
    NodeShaped(name, [], e.children, v);
  }

  lemma AllSomeShaped(built: seq<Option<Element>>, v: Variant)
    requires AllSome(built).Some?
    requires forall i :: 0 <= i < |built| ==> built[i].Some? ==> Shaped(built[i].value, v)
    ensures AllShaped(AllSome(built).value, v)
  {
  }

  // ---------------------------------------------------------------- institutions (goobi-to-goobi only)

  lemma InstitutionSummaryShaped(inst: Institution)
    requires InstitutionSummary(inst).Some?
    ensures Shaped(InstitutionSummary(inst).value, GoobiToGoobi)
  {
  }

  lemma InstitutionElementShaped(inst: Institution)
    requires InstitutionElement(inst).Some?
    ensures Shaped(InstitutionElement(inst).value, GoobiToGoobi)
  {
    var v := GoobiToGoobi;
    var a := Allowed(inst.allowAllAuthentications, "authentication", inst.allowedAuthentications);
    var d := Allowed(inst.allowAllDockets, "docket", inst.allowedDockets);
    var p := AllowedPlugins(inst);
    var r := Allowed(inst.allowAllRulesets, "ruleset", inst.allowedRulesets);
    TextNodesShaped("authentication", inst.allowedAuthentications, v);
    TextNodesShaped("docket", inst.allowedDockets, v);
    TextNodesShaped("ruleset", inst.allowedRulesets, v);
    TextNodesShaped("administrationPlugin", inst.allowedAdministrationPlugins, v);
    TextNodesShaped("workflowPlugin", inst.allowedWorkflowPlugins, v);
    TextNodesShaped("dashboardPlugin", inst.allowedDashboardPlugins, v);
    TextNodesShaped("statisticsPlugin", inst.allowedStatisticsPlugins, v);
    assert AllShaped(p, v);
    AllShapedAppend(a, d, v);
    AllShapedAppend(a + d, p, v);
    AllShapedAppend(a + d + p, r, v);
    assert InstitutionElement(inst).value.children == a + d + p + r;
  }

  // ---------------------------------------------------------------- the builders

  lemma LdapsSectionShaped(ldaps: seq<Ldap>, v: Variant)
    ensures LdapsSection(ldaps).Some? && Shaped(LdapsSection(ldaps).value, v)
  {
    ContainerShaped("ldaps", LdapElements(ldaps), v);
  }

  lemma RulesetsSectionShaped(rulesets: seq<Ruleset>, v: Variant)
    requires RulesetsSection(rulesets).Some?
    ensures Shaped(RulesetsSection(rulesets).value, v)
  {
    ContainerShaped("rulesets", RulesetElements(rulesets), v);
  }

  lemma DocketsSectionShaped(dockets: seq<Docket>, v: Variant)
    requires DocketsSection(dockets).Some?
    ensures Shaped(DocketsSection(dockets).value, v)
  {
    ContainerShaped("dockets", DocketElements(dockets), v);
  }

  lemma UserElementShaped(u: User, opts: ExportOptions, v: Variant)
    requires UserElement(u, opts, v).Some?
    ensures Shaped(UserElement(u, opts, v).value, v)
  {
    var built := UserChildren(u, opts, v);
    forall i | 0 <= i < |built| && built[i].Some? ensures Shaped(built[i].value, v) {
      if opts.projectAssignments && i == 0 {
        var e := AssignedProjects(u.projects).value;
        assert AllShaped(e.children, v);
        NodeShaped("assignedProjects", [], e.children, v);
      } else {
        assert v.GoobiToGoobi? && built[i] == InstitutionSummary(u.institution);
        InstitutionSummaryShaped(u.institution);
      }
    }
    AllSomeShaped(built, v);
  }

  lemma UsersSectionShaped(users: seq<User>, opts: ExportOptions, v: Variant)
    requires UsersSection(users, opts, v).Some?
    ensures Shaped(UsersSection(users, opts, v).value, v)
  {
    var e := UsersSection(users, opts, v).value;
    var kept := RetainedUsers(users, opts.includeInactiveUser);
    forall i | 0 <= i < |e.children| ensures Shaped(e.children[i], v) {
      UserElementShaped(kept[i], opts, v);
    }
    NodeShaped("users", [], e.children, v);
  }

  lemma UsergroupElementShaped(g: Usergroup, opts: ExportOptions, v: Variant)
    requires UsergroupElement(g, opts, v).Some?
    ensures Shaped(UsergroupElement(g, opts, v).value, v)
  {
    var built := TrailingChildren(g, opts, v);
    forall i | 0 <= i < |built| && built[i].Some? ensures Shaped(built[i].value, v) {
      if opts.usergroupAssignments && i == 0 {
        var e := AssignedUsers(g.users).value;
        assert AllShaped(e.children, v);
        NodeShaped("assignedUsers", [], e.children, v);
      } else {
        assert v.GoobiToGoobi? && built[i] == InstitutionSummary(g.institution);
        InstitutionSummaryShaped(g.institution);
      }
    }
    AllSomeShaped(built, v);
    TextNodesShaped("role", g.roles, v);
    AllShapedAppend(TextNodes("role", g.roles), AllSome(built).value, v);
  }

  lemma UsergroupsSectionShaped(groups: seq<Usergroup>, opts: ExportOptions, v: Variant)
    requires UsergroupsSection(groups, opts, v).Some?
    ensures Shaped(UsergroupsSection(groups, opts, v).value, v)
  {
    var e := UsergroupsSection(groups, opts, v).value;
    forall i | 0 <= i < |e.children| ensures Shaped(e.children[i], v) {
      UsergroupElementShaped(groups[i], opts, v);
    }
    NodeShaped("userGroups", [], e.children, v);
  }

  lemma ScalarNodesShaped(p: Project, start: string, end: string, v: Variant)
    ensures AllShaped(ScalarNodes(p, start, end), v)
  {
  }

  lemma SettingNodesShaped(p: Project, order: seq<ProjectSetting>, v: Variant)
    ensures AllShaped(SettingNodes(p, order), v)
  {
  }

  lemma ConfigurationsShaped(p: Project, v: Variant)
    ensures AllShaped([ExportConfiguration(p), MetsConfiguration(p)], v)
  {
    SettingNodesShaped(p, DmsPathOrder, v);
    SettingNodesShaped(p, MetsOrder, v);
    var children := ExportConfiguration(p).children;
    assert children == [TextNode("dmsImportTimeOut", children[0].text)] + SettingNodes(p, DmsPathOrder);
    AllShapedAppend([TextNode("dmsImportTimeOut", children[0].text)], SettingNodes(p, DmsPathOrder), v);
    NodeShaped("exportConfiguration", ExportConfiguration(p).attributes, children, v);
    NodeShaped("metsConfiguration", [], SettingNodes(p, MetsOrder), v);
  }

  lemma FileGroupsShaped(groups: seq<ProjectFileGroup>, v: Variant)
    ensures AllShaped(FileGroups(groups), v)
  {
    if |groups| > 0 {
      var e := FileGroups(groups)[0];
      assert AllShaped(e.children, v);
      NodeShaped("fileGroups", [], e.children, v);
    }
  }

  lemma ProjectNodeShaped(p: Project, v: Variant, start: string, end: string)
    requires ProjectNode(p, v, start, end).Some?
    ensures Shaped(ProjectNode(p, v, start, end).value, v)
  {
    var built := ProjectInstitution(p, v);
    var institution := AllSome(built).value;
    var scalars := ScalarNodes(p, start, end);
    var blocks := [ExportConfiguration(p), MetsConfiguration(p)];
    var groups := FileGroups(p.fileGroups);
    ScalarNodesShaped(p, start, end, v);
    ConfigurationsShaped(p, v);
    FileGroupsShaped(p.fileGroups, v);
    if v.GoobiToGoobi? {
      assert built[0] == InstitutionElement(p.institution);
      InstitutionElementShaped(p.institution);
    }
    AllSomeShaped(built, v);
    AllShapedAppend(scalars, blocks, v);
    AllShapedAppend(scalars + blocks, groups, v);
    AllShapedAppend(scalars + blocks + groups, institution, v);
    var e := ProjectNode(p, v, start, end).value;
    assert e.children == scalars + blocks + groups + institution;
    NodeShaped("project", e.attributes, e.children, v);
  }

  lemma ProjectElementShaped(p: Project, v: Variant)
    requires ProjectExportable(p, v)
    ensures Shaped(ProjectElement(p, v).value, v)
  {
    var start, end := FormatTimestamp(p.startDate.value), FormatTimestamp(p.endDate.value);
    assert ProjectElement(p, v) == ProjectNode(p, v, start, end);
    ProjectNodeShaped(p, v, start, end);
  }

  lemma ProjectsSectionShaped(projects: seq<Project>, v: Variant)
    requires forall i :: 0 <= i < |projects| ==> ProjectExportable(projects[i], v)
    ensures ProjectsSection(projects, v).Some?
    ensures Shaped(ProjectsSection(projects, v).value, v)
  {
    ProjectsSectionExportable(projects, v);
    var e := ProjectsSection(projects, v).value;
    forall i | 0 <= i < |e.children| ensures Shaped(e.children[i], v) {
      ProjectElementShaped(projects[i], v);
    }
    NodeShaped("projects", [], e.children, v);
  }

  lemma SectionElementShaped(snap: Snapshot, opts: ExportOptions, v: Variant, s: Section)
    requires SectionElement(snap, opts, v, s).Some?
    ensures Shaped(SectionElement(snap, opts, v, s).value, v)
  {
    match s
    case Ldaps => LdapsSectionShaped(snap.ldaps, v);
    case Rulesets => RulesetsSectionShaped(snap.rulesets, v);
    case Dockets => DocketsSectionShaped(snap.dockets, v);
    case Projects => ProjectsSectionShaped(snap.projects, v);
    case UserGroups => UsergroupsSectionShaped(snap.usergroups, opts, v);
    case Users => UsersSectionShaped(snap.users, opts, v);
  }

  lemma DocumentShaped(snap: Snapshot, opts: ExportOptions, v: Variant)
    requires ExportDocument(snap, opts, v).Some?
    ensures Shaped(ExportDocument(snap, opts, v).value, v)
  {
    var e := ExportDocument(snap, opts, v).value;
    var sections := SelectedSections(opts);
    forall i | 0 <= i < |e.children| ensures Shaped(e.children[i], v) {
      SectionElementShaped(snap, opts, v, sections[i]);
    }
    NodeShaped("infrastructure", [], e.children, v);
  }

  // ---------------------------------------------------------------- the two properties

  /** Every element of an export document, at any depth, is in the logfile namespace. */
  lemma DocumentInLogfileNamespace(snap: Snapshot, opts: ExportOptions, v: Variant)
    requires ExportDocument(snap, opts, v).Some?
    ensures InNamespace(ExportDocument(snap, opts, v).value, LogfileNamespace)
  {
    DocumentShaped(snap, opts, v);
  }

  /** The database export plugin writes no `institution` element at any depth, whatever is selected. */
  lemma DataExportWritesNoInstitution(snap: Snapshot, opts: ExportOptions)
    requires ExportDocument(snap, opts, DataExport).Some?
    ensures Avoids(ExportDocument(snap, opts, DataExport).value, "institution")
  {
    DocumentShaped(snap, opts, DataExport);
  }
}

=== FILE: wrappers.dfy ===
/** The null-or-value wrapper used for every nullable field of the entity beans. */
module Wrappers {

  /** `None` stands for a Java `null` (or an aborted computation), `Some(v)` for a present value. */
  datatype Option<+T> = None | Some(value: T) {

    /** The value, or `default` when absent. */
    function GetOr(default: T): T {
      match this
      case Some(v) => v
      case None => default
    }
  }

  /**
   * The values of a list of optional results, or `None` as soon as one is
   * missing: a loop that builds one part per entry and is aborted by the
   * first exception.
   */
  function AllSome<T>(os: seq<Option<T>>): (r: Option<seq<T>>)
    ensures r.Some? <==> forall i :: 0 <= i < |os| ==> os[i].Some?
    ensures r.Some? ==> |r.value| == |os|
    ensures r.Some? ==> forall i :: 0 <= i < |os| ==> r.value[i] == os[i].value
  {
    if |os| == 0 then Some([])
    else match os[0]
      case None => None
      case Some(v) =>
        match AllSome(os[1..])
        case None => None
        case Some(vs) => Some([v] + vs)
  }
}

=== FILE: xml.dfy ===
/**
 * The abstract XML tree the exporters build with JDOM: an element has a
 * name, a namespace, its attributes in the order they were set, text, and
 * an ordered list of child elements. The exporters never mix text and
 * child elements in one element, and never set one attribute twice.
 */
module Xml {
  import opened Wrappers

  /** The single namespace of the export vocabulary. */
  const LogfileNamespace: string := "http://www.goobi.io/logfile"

  datatype Attribute = Attribute(name: string, value: string)

  datatype Element = Element(
    name: string,
    namespace: string,
    attributes: seq<Attribute>,
    text: string,
    children: seq<Element>)

  /** `new Element(name, xmlns)` with the given attributes and children added. */
  function Node(name: string, attributes: seq<Attribute>, children: seq<Element>): Element {
    Element(name, LogfileNamespace, attributes, "", children)
  }

  /** `new Element(name, xmlns)` followed by `setText(text)`. */
  function TextNode(name: string, text: string): Element {
    Element(name, LogfileNamespace, [], text, [])
  }

  /**
   * JDOM's `setAttribute(name, value)`: a null value makes it throw, which
   * aborts the element being built.
   */
  function SetAttribute(name: string, value: Option<string>): (r: Option<Attribute>)
    ensures r.Some? <==> value.Some?
    ensures r.Some? ==> r.value.name == name && r.value.value == value.value
  {
    match value
    case None => None
    case Some(v) => Some(Attribute(name, v))
  }

  /** One text element named `name` per entry of `texts`, in order. */
  function TextNodes(name: string, texts: seq<string>): (r: seq<Element>)
    ensures |r| == |texts|
    ensures forall i :: 0 <= i < |r| ==> r[i] == TextNode(name, texts[i])
  {
    if |texts| == 0 then [] else [TextNode(name, texts[0])] + TextNodes(name, texts[1..])
  }

  /** The names of a list of elements, in order. */
  function Names(es: seq<Element>): (r: seq<string>)
    ensures |r| == |es|
    ensures forall i :: 0 <= i < |es| ==> r[i] == es[i].name
  {
    seq(|es|, i requires 0 <= i < |es| => es[i].name)
  }

  function ChildNames(e: Element): seq<string> {
    Names(e.children)
  }

  /** The attribute names of an element, in the order they were set. */
  function AttributeNames(e: Element): (r: seq<string>)
    ensures |r| == |e.attributes|
    ensures forall i :: 0 <= i < |r| ==> r[i] == e.attributes[i].name
  {
    seq(|e.attributes|, i requires 0 <= i < |e.attributes| => e.attributes[i].name)
  }

  /** JDOM's `getAttributeValue(name)`: the value of the first attribute called `name`, or `None`. */
  function AttributeValue(attributes: seq<Attribute>, name: string): (r: Option<string>)
    ensures r.Some? <==> exists i :: 0 <= i < |attributes| && attributes[i].name == name
  {
    if |attributes| == 0 then None
    else if attributes[0].name == name then Some(attributes[0].value)
    else AttributeValue(attributes[1..], name)
  }

  /** Looking up a name that first occurs at position `i` gives the value there. */
  lemma {:induction false} AttributeValueAt(attributes: seq<Attribute>, i: nat, name: string)
    requires i < |attributes| && attributes[i].name == name
    requires forall j :: 0 <= j < i ==> attributes[j].name != name
    ensures AttributeValue(attributes, name) == Some(attributes[i].value)
    decreases i
  {
    if i > 0 {
      AttributeValueAt(attributes[1..], i - 1, name);
    }
  }

  /** `name` repeated `count` times. */
  function Repeat(name: string, count: nat): (r: seq<string>)
    ensures |r| == count
    ensures forall i :: 0 <= i < count ==> r[i] == name
  {
    seq(count, _ => name)
  }

  /** The texts of the elements named `name`, in order (JDOM's `getChildren(name)` then `getText`). */
  function TextsNamed(es: seq<Element>, name: string): seq<string> {
    if |es| == 0 then []
    else (if es[0].name == name then [es[0].text] else []) + TextsNamed(es[1..], name)
  }

  lemma {:induction false} TextsNamedAppend(a: seq<Element>, b: seq<Element>, name: string)
    ensures TextsNamed(a + b, name) == TextsNamed(a, name) + TextsNamed(b, name)
    decreases |a|
  {
    if |a| == 0 {
      assert a + b == b;
    } else {
      assert (a + b)[0] == a[0];
      assert (a + b)[1..] == a[1..] + b;
      TextsNamedAppend(a[1..], b, name);
    }
  }

  /** Selecting by name gives back exactly the texts of a run of same-named text elements, and nothing for any other name. */
  lemma {:induction false} TextsNamedOfTextNodes(element: string, texts: seq<string>, name: string)
    ensures TextsNamed(TextNodes(element, texts), name) == if element == name then texts else []
    decreases |texts|
  {
    if |texts| > 0 {
      TextsNamedOfTextNodes(element, texts[1..], name);
    }
  }

  /** Selecting by a name no element has gives nothing. */
  lemma {:induction false} TextsNamedOfOthers(es: seq<Element>, name: string)
    requires forall i :: 0 <= i < |es| ==> es[i].name != name
    ensures TextsNamed(es, name) == []
    decreases |es|
  {
    if |es| > 0 {
      TextsNamedOfOthers(es[1..], name);
    }
  }

  /** A text element followed by elements of other names: selecting its name gives just its text. */
  lemma LeadingTextNamed(name: string, text: string, rest: seq<Element>)
    requires forall i :: 0 <= i < |rest| ==> rest[i].name != name
    ensures TextsNamed([TextNode(name, text)] + rest, name) == [text]
  {
    TextsNamedAppend([TextNode(name, text)], rest, name);
    TextsNamedOfOthers(rest, name);
    assert TextsNamed([TextNode(name, text)], name) == [text] by {
      assert [TextNode(name, text)][1..] == [];
    }
  }

  lemma NamesOfTextNodes(element: string, texts: seq<string>)
    ensures Names(TextNodes(element, texts)) == Repeat(element, |texts|)
  {
  }

  lemma NamesAppend(a: seq<Element>, b: seq<Element>)
    ensures Names(a + b) == Names(a) + Names(b)
  {
  }

  /** Every element of the tree rooted at `e` is in namespace `ns`. */
  predicate InNamespace(e: Element, ns: string)
    decreases e
  {
    e.namespace == ns && forall i :: 0 <= i < |e.children| ==> InNamespace(e.children[i], ns)
  }

  predicate AllInNamespace(es: seq<Element>, ns: string) {
    forall i :: 0 <= i < |es| ==> InNamespace(es[i], ns)
  }

  /** No element of the tree rooted at `e` is named `name`. */
  predicate Avoids(e: Element, name: string)
    decreases e
  {
    e.name != name && forall i :: 0 <= i < |e.children| ==> Avoids(e.children[i], name)
  }

  predicate AllAvoid(es: seq<Element>, name: string) {
    forall i :: 0 <= i < |es| ==> Avoids(es[i], name)
  }
}
